=== FILE: README.md ===
# auto_typing core, modelled in Dafny

auto_typing drives a motorised typing rig. A camera looks at a keyboard, and the
software builds a model of where the keys are. Motors then move over the keys.

This project models the decision logic of that system, module by module:

- **Phase-1 keyboard localizer** (`Localizer`, `LegacyLocalizer`): construction from
  the configuration, Lowe's ratio test on knn match rows, depth from disparity, and
  3-D points from confident OCR boxes. It also computes the keyboard pose from a
  fitted plane. The legacy variant hard-codes its constants.
- **Pinhole camera** (`Pinhole`): back-projection of a pixel with a known depth, and
  the forward projection the pipeline uses.
- **Phase-1 pipeline** (`Pipeline`): the sparse depth map built from optical-flow
  samples, the localizer steps, and the re-projected markers.
- **Key-text post-processing** (`TextDetection`): the contour filter, OCR acceptance,
  the pixel-per-millimetre scale over all pairs of recognised keys, and the estimate
  of where unrecognised keys are.
- **Motor control** (`TalonSrx`, `MotionModel`, `DistanceController`,
  `PositionAwareController`): the Talon SRX CAN frames, the measured position/time
  fits, the distance-to-duration controller, and the dead-reckoning position tracker.
- **Capture naming** (`CaptureNaming`): the three copies of `get_next_filename`.
- **Camera calibration** (`Calibration`): the chessboard object-point grid and the
  accumulation of correspondences, in both copies of `calibrate_camera`.
- **GUI** (`TypingGui`): the discretisation of a raw motion and which overlay
  arrows it lights up.

The libraries the code calls are not modelled. Their results are inputs of the
model: ORB, FLANN, StereoBM, tesseract, RANSAC, contour finding and
`calibrateCamera`. Python exceptions are the `Err` side of a `Result`, and a NaN
float is `None`. `int()` of a float truncates toward zero.

Where the evident intent and the code disagree, the model follows the code. The
ratio test needs two neighbours, so knn rows with fewer should be skipped; in the
code, `for m, n in matches` raises `ValueError` on such a row, and the model raises
too. Likewise, the marker loop of the pipeline divides by the depth of every text
point, and the model's pipeline raises where that depth is 0. The findings below
record both, each with a corrected member beside the one as written.

## Model

| member | source | states |
|---|---|---|
| Common.Trunc | auto_typing/motor_control/talon_srx.py:13 | `int()` of a float: the integer toward zero, within 1 of its argument on its side of zero |
| Common.RoundHalfEven | tests/test_phase1_full_pipeline.py:31 | `round()`: within 0.5 of its argument, and even on an exact tie |
| MotionModel.NewMotorMotionModel | auto_typing/motor_control/motion_model.py:3-14 | the table holds exactly 'left' and 'right'; the left fit rises and the right fit falls |
| MotionModel.EstimatePosition | auto_typing/motor_control/motion_model.py:16-18 | KeyError exactly for a direction missing from the table |
| MotionModel.EstimateTimeToTravel | auto_typing/motor_control/motion_model.py:20-26 | KeyError for an unknown direction and ValueError for a zero slope; otherwise the returned time is one at which the fit reaches the distance |
| MotionModel.TimeOfEstimatedPosition | auto_typing/motor_control/motion_model.py:16-26 | the other round trip: the time to reach the position estimated for t is t |
| MotionModel.MeasuredDirections | auto_typing/motor_control/motion_model.py:3-26 | with the measured fits, both estimates succeed exactly for 'left' and 'right' |
| MotionModel.MeasuredTimeMonotone | auto_typing/motor_control/motion_model.py:5-26 | a farther target takes longer when moving left and less time when moving right |
| DistanceController.NewDistanceMotorController | auto_typing/motor_control/distance_controller.py:7-11 | the controller runs on the measured motion model with the given feedforward |
| DistanceController.Move | auto_typing/motor_control/distance_controller.py:13-26 | ValueError for any direction other than left/right; otherwise the duty keeps its magnitude, is negative for left and positive for right, and the duration is the model's time to travel |
| DistanceController.MeasuredMoves | auto_typing/motor_control/distance_controller.py:14-20 | with the measured model a move fails exactly for a bad direction, and the two directions get opposite duties |
| DistanceController.MeasuredDurationSign | auto_typing/motor_control/distance_controller.py:18-20 | a leftward duration is positive iff the distance exceeds 12.7496 mm; a rightward one iff it is below 35.8076 mm |
| PositionAwareController.PositionAwareMotor.constructor | auto_typing/motor_control/position_aware_controller.py:5-7 | the position starts at the given value, the (ghost) command record is empty, and the controller uses the default feedforward |
| PositionAwareController.PositionAwareMotor.MoveRelative | auto_typing/motor_control/position_aware_controller.py:9-17 | left adds and right subtracts the distance, and exactly one motor command is recorded; any other direction is a ValueError that changes nothing; the tracked position stays the initial one plus the net of all commands |
| PositionAwareController.PositionAwareMotor.MoveTo | auto_typing/motor_control/position_aware_controller.py:19-25 | within 0.01 mm nothing is sent; otherwise one command moves the distance to the target, left when the target is larger, and the position becomes the target |
| PositionAwareController.PositionAwareMotor.GetPosition | auto_typing/motor_control/position_aware_controller.py:27-28 | the tracked position, which is the initial one plus the net displacement of every command |
| TalonSrx.TicksForRevolutions | auto_typing/motor_control/talon_srx.py:12-13 | revolutions times 4096, truncated toward zero |
| TalonSrx.TicksOfWholeRevolutions | auto_typing/motor_control/talon_srx.py:12-13 | n whole revolutions give exactly 4096 n ticks |
| TalonSrx.TicksMonotone | auto_typing/motor_control/talon_srx.py:12-13 | more revolutions never give fewer ticks |
| TalonSrx.BitOr | auto_typing/motor_control/talon_srx.py:17 | Python's bitwise or on naturals, digit by digit; BitOrDigits characterises it and BitOrBounds bounds it by either operand and by their sum |
| TalonSrx.BitOrDigits | auto_typing/motor_control/talon_srx.py:17 | the modelled bitwise or sets a binary digit iff either operand has it |
| TalonSrx.Shl | auto_typing/motor_control/talon_srx.py:17 | `<<` on naturals as repeated doubling; ShlIsMultiply proves it is multiplication by 2^n |
| TalonSrx.ShlIsMultiply | auto_typing/motor_control/talon_srx.py:17 | the modelled `<<` by n multiplies by 2^n |
| TalonSrx.ControlFrameId | auto_typing/motor_control/talon_srx.py:17 | the control identifier is the device id or-ed with API 0x0204, shifted 16 bits |
| TalonSrx.PositionCommandId | auto_typing/motor_control/talon_srx.py:22 | the position identifier is the device id or-ed with API 0x0400, shifted 16 bits |
| TalonSrx.ExtendedIdFits | auto_typing/motor_control/talon_srx.py:15-25 | both identifiers fit 29 bits iff the device id is below 0x2000 |
| TalonSrx.IdsLeaveLowBitsClear | auto_typing/motor_control/talon_srx.py:17-22 | the low 16 bits of both identifiers are zero |
| TalonSrx.SmallDeviceIds | auto_typing/motor_control/talon_srx.py:17-22 | for device ids below 4 the bitwise or is an addition |
| TalonSrx.ConfiguredDeviceIds | auto_typing/motor_control/talon_srx.py:5-22 | with device 0x02 the identifiers are 0x02060000 and 0x04020000 |
| TalonSrx.ControlIdsOverlap | auto_typing/motor_control/talon_srx.py:17 | device 4 gets the same control identifier as device 0 |
| TalonSrx.ToBytesLE32 | auto_typing/motor_control/talon_srx.py:23 | OverflowError exactly outside the signed 32-bit range; otherwise four bytes |
| TalonSrx.FromBytesLE32 | auto_typing/motor_control/talon_srx.py:23 | four little-endian bytes decode into the signed 32-bit range |
| TalonSrx.DecodeEncode | auto_typing/motor_control/talon_srx.py:23 | decoding the encoding of an in-range value gives the value back |
| TalonSrx.EncodeDecode | auto_typing/motor_control/talon_srx.py:23 | encoding the decoding of four bytes gives the bytes back |
| TalonSrx.BuildControlFrame | auto_typing/motor_control/talon_srx.py:15-19 | an extended frame with the control identifier and payload 0F 00 00 00 00 00 00 00 |
| TalonSrx.BuildPositionCommand | auto_typing/motor_control/talon_srx.py:21-25 | OverflowError exactly outside 32 bits; otherwise an extended 8-byte frame with mode 0x01, the demand that decodes back to the ticks, and three zero bytes |
| TalonSrx.SendMotorCommand | auto_typing/motor_control/talon_srx.py:27-41 | the control frame first, then the position command for the truncated ticks |
| TalonSrx.SendMotorCommandOutcome | auto_typing/motor_control/talon_srx.py:27-41 | frames are sent iff the ticks fit 32 bits; otherwise OverflowError and nothing is sent |
| Pinhole.ImageToCameraCoords | phase2/phase2_camera_translation.py:7-17 | Z is the depth and X, Y satisfy the pinhole relations with fx, fy, cx, cy |
| Pinhole.Project | tests/test_phase1_full_pipeline.py:55-56 | the projection satisfies the pinhole relations for a point with nonzero depth |
| Pinhole.PrincipalPointOnAxis | phase2/phase2_camera_translation.py:13-15 | the principal point back-projects onto the optical axis |
| Pinhole.ProjectAfterBackProject | phase2/phase2_camera_translation.py:13-15 | projecting a back-projected pixel returns the pixel |
| Pinhole.BackProjectAfterProject | phase2/phase2_camera_translation.py:13-15 | back-projecting a projection at the point's own depth returns the point |
| Pinhole.DepthScalesPoint | phase2/phase2_camera_translation.py:13-15 | scaling the depth scales all three coordinates |
| Pinhole.OnlyIntrinsicsMatter | phase2/phase2_camera_translation.py:8-14 | matrices agreeing on fx, fy, cx and cy give the same point |
| Localizer.DefaultCameraMatrix | auto_typing/phase1/localizer.py:19-22 | focal length f on the diagonal, principal point (320, 240), last row 0 0 1 |
| Localizer.Create | auto_typing/phase1/localizer.py:9-22 | FileNotFoundError exactly when loading from a missing file; otherwise the stored matrix or the fallback matrix |
| Localizer.FallbackPrincipalPoint | auto_typing/phase1/localizer.py:18-22 | without load_from_file, construction succeeds and the principal point is (320, 240) |
| Localizer.UnpackPairs | auto_typing/phase1/localizer.py:40 | unpacking fails only with ValueError and keeps one pair per row |
| Localizer.UnpackPairsExact | auto_typing/phase1/localizer.py:40 | unpacking succeeds iff every row has exactly two matches, and then gives the rows' pairs |
| Localizer.GoodMatches | auto_typing/phase1/localizer.py:33-41 | fails with ValueError iff unpacking fails; never longer than the rows |
| Localizer.MatchFeaturesKeepsExactly | auto_typing/phase1/localizer.py:40 | on well-formed rows, the result is the first neighbour of exactly the rows passing the strict ratio test, in order |
| Localizer.MalformedRowRaises | auto_typing/phase1/localizer.py:40 | one row without exactly two matches makes the whole call raise ValueError |
| Localizer.RatioBoundaryDropped | auto_typing/phase1/localizer.py:40 | a row exactly at the ratio is dropped |
| Localizer.SingleNeighbourRowRaises | auto_typing/phase1/localizer.py:39-40 | a row with a single neighbour raises ValueError |
| Localizer.GoodMatchesSkippingShortRows | auto_typing/phase1/localizer.py:40 | the corrected ratio test never fails and never returns more than the rows |
| Localizer.SkippingShortRowsKeepsExactly | auto_typing/phase1/localizer.py:40 | the corrected test keeps the first neighbour of exactly the rows with two neighbours that pass, in order |
| Localizer.SkippingShortRowsAgrees | auto_typing/phase1/localizer.py:40 | whenever the code as written succeeds, it returns what the corrected test returns |
| Localizer.EstimateDepthMap | auto_typing/phase1/localizer.py:48-52 | same shape as the disparity; each depth times (disparity + 1e-6) is f times B |
| Localizer.DepthOfDisparity | auto_typing/phase1/localizer.py:51 | depth times (disparity + 1e-6) is f times B |
| Localizer.ZeroDisparityIsFinite | auto_typing/phase1/localizer.py:51 | a zero disparity gives the finite depth f B 10^6 |
| Localizer.DepthDecreasesWithDisparity | auto_typing/phase1/localizer.py:51 | for positive f B, a larger disparity gives a smaller positive depth |
| Localizer.Centroid | auto_typing/phase1/localizer.py:65 | the centre lies within the box |
| Localizer.NumpyIndex | auto_typing/phase1/localizer.py:66 | numpy indexing: valid iff -n <= i < n, and negative indices count from the end |
| Localizer.LookupDepth | auto_typing/phase1/localizer.py:66 | an in-range index reads the depth; any failure is an IndexError |
| Localizer.BoxPoint | auto_typing/phase1/localizer.py:63-69 | a confident box's point is the back-projection of its centre at the depth read there; no camera matrix means failure |
| Localizer.CollectPoints | auto_typing/phase1/localizer.py:60-70 | a successful collection has one point per box |
| Localizer.PointsFromText | auto_typing/phase1/localizer.py:59-70 | the points of the confident boxes, at most one per box; PointsFromTextExact states which and how they are computed |
| Localizer.PointsFromTextStep | auto_typing/phase1/localizer.py:61-69 | one more box adds its point only when it is confident, and its failure ends the loop |
| Localizer.FailurePersists | auto_typing/phase1/localizer.py:61-69 | once a prefix fails, the whole call fails with the same error |
| Localizer.Compute3DPointsFromText | auto_typing/phase1/localizer.py:59-70 | the loop returns PointsFromText with the configured confidence and camera |
| Localizer.CollectFromText | auto_typing/phase1/localizer.py:60-70 | the loop returns PointsFromText, whose meaning PointsFromTextExact states |
| Localizer.BackProjectionAgrees | auto_typing/phase1/localizer.py:67-68 | the inline arithmetic is the pinhole back-projection |
| Localizer.PointsFromTextExact | auto_typing/phase1/localizer.py:59-70 | on success, one point per confident box, in input order, each the back-projection of that box's centre |
| Localizer.NoConfidentBoxesGiveNoPoints | auto_typing/phase1/localizer.py:61-62 | with no confident box the result is empty |
| Localizer.ComputeKeyboardPose | auto_typing/phase1/localizer.py:79-84 | the normal is a unit vector along (-c0, -c1, 1) pointing up, and the translation is zero |
| LegacyLocalizer.Create | phase1_keyboard_localization.py:6-7 | the instance keeps the optional camera matrix it was given |
| LegacyLocalizer.MatchFeatures | phase1_keyboard_localization.py:15-29 | the explicit loop computes the ratio test with threshold 0.75, raising ValueError on a malformed row |
| LegacyLocalizer.EstimateDepthMap | phase1_keyboard_localization.py:37-43 | with f = B = 1, each depth times (disparity + 1e-6) is 1 |
| LegacyLocalizer.Compute3DPointsFromText | phase1_keyboard_localization.py:53-66 | the loop returns PointsFromText with cutoff 60 and the instance's camera matrix |
| LegacyLocalizer.DefaultCameraOnlyWithoutConfidentBoxes | phase1_keyboard_localization.py:6-7 | with no camera matrix the call succeeds iff no box is above 60, and then returns no point |
| Pipeline.Zip | tests/test_phase1_full_pipeline.py:30 | pairs points and depths up to the shorter input |
| Pipeline.SparseDepthAt | tests/test_phase1_full_pipeline.py:29-33 | the value a cell holds after the writes of step 2; LastWriteWins and UntouchedCellsStayZero state it |
| Pipeline.LastWriteWins | tests/test_phase1_full_pipeline.py:29-33 | when several samples round onto one cell, the last one's depth is kept |
| Pipeline.UntouchedCellsStayZero | tests/test_phase1_full_pipeline.py:29-33 | a cell no sample lands on stays 0 |
| Pipeline.SparseDepthGrid | tests/test_phase1_full_pipeline.py:29-33 | the grid has the image's height and width |
| Pipeline.BuildSparseDepthMap | tests/test_phase1_full_pipeline.py:29-33 | a new buffer of the image's size whose every cell holds the sparse depth of its samples |
| Pipeline.GridOfDepthMap | tests/test_phase1_full_pipeline.py:29-39 | the buffer the localizer indexes is the sparse depth grid |
| Pipeline.ReprojectAsWritten | tests/test_phase1_full_pipeline.py:55-56 | succeeds iff Z is nonzero, and then gives the truncated projection; Z = 0 raises ValueError for 0/0 and OverflowError for an infinity |
| Pipeline.MarkersAsWritten | tests/test_phase1_full_pipeline.py:54-58 | on success, at most one marker per point and every marker inside the image; a failure is ValueError or OverflowError |
| Pipeline.MarkersAsWrittenFailsIff | tests/test_phase1_full_pipeline.py:54-58 | the loop as written fails iff some point, anywhere in the list, has Z = 0 |
| Pipeline.DepthlessTextPointRaises | tests/test_phase1_full_pipeline.py:54-56 | a list holding a depth-0 point anywhere, every such point having X = 0, makes the marker loop raise ValueError |
| Pipeline.DepthlessBackProjectionIsOrigin | auto_typing/phase1/localizer.py:66-69 | a pixel back-projected with depth 0 is the camera centre (0, 0, 0) |
| Pipeline.TextPointsWithoutDepth | auto_typing/phase1/localizer.py:59-70 | every text point returned with depth 0 has X = 0 |
| Pipeline.Markers | tests/test_phase1_full_pipeline.py:54-58 | the corrected loop: at most one marker per point, every marker inside the image |
| Pipeline.MarkersAgreeWithDepth | tests/test_phase1_full_pipeline.py:54-58 | where every point has depth, the corrected loop draws what the code as written draws |
| Pipeline.ReprojectRecoversPixel | tests/test_phase1_full_pipeline.py:55-56 | a point back-projected from an integer pixel is drawn at that pixel |
| Pipeline.MarkersStep | tests/test_phase1_full_pipeline.py:54-58 | one more point keeps an earlier error, raises its own conversion error, or adds its pixel when that lies inside the image |
| Pipeline.MarkersFailurePersists | tests/test_phase1_full_pipeline.py:54-56 | the first failing point ends the loop with its error |
| Pipeline.DrawMarkers | tests/test_phase1_full_pipeline.py:54-58 | the loop, `int()` conversions included, computes the markers as written, error included |
| Pipeline.Phase1Pipeline | tests/test_phase1_full_pipeline.py:22-58 | stops early exactly when there are no flow points; a localisation always rests on at least one point, every one with nonzero depth |
| Pipeline.UnsampledCentroidRaises | tests/test_phase1_full_pipeline.py:29-56 | a confident box whose in-image centroid no flow sample lands on makes the whole run raise: the plane fit's error if the fit fails, ValueError otherwise |
| Pipeline.LocalizeOnDepth | tests/test_phase1_full_pipeline.py:36-58 | fails exactly when the text points fail, the plane fit fails, or a text point has depth 0, the last with ValueError once the fit succeeded; ends early exactly when there are no points; otherwise the points are the text points, all with depth, the plane fit succeeded, the markers are the in-image projections and the normal is a unit vector |
| Pipeline.LocalizeSkippingDepthless | tests/test_phase1_full_pipeline.py:36-58 | the corrected steps fail exactly when the text points or the plane fit fail, and agree with the code as written wherever it succeeds |
| Pipeline.RunPhase1Pipeline | tests/test_phase1_full_pipeline.py:22-58 | the steps compute Phase1Pipeline, the plane fit's error and the marker loop's ValueError included |
| Pipeline.LocalizeOnText | tests/test_phase1_full_pipeline.py:36-58 | steps 3 to 5 compute LocalizeOnDepth, passing on the plane fit's and the marker loop's errors |
| TextDetection.MaskStartRow | tests/test_text_detection.py:44 | int(height * 0.25) is height // 4 |
| TextDetection.ApplyLowerMask | tests/test_text_detection.py:42-45 | same shape; rows above the start row become 0, the rest keep their value |
| TextDetection.ExtractKeyContours | tests/test_text_detection.py:47 | never more contours than given |
| TextDetection.ExtractKeyContoursKeepsExactly | tests/test_text_detection.py:41-48 | keeps exactly the contours with area strictly between 100 and 10000, in order |
| TextDetection.PadRect | tests/test_text_detection.py:53-57 | the ROI starts at max(0, x - tolerance) and max(0, y - tolerance), grows by 2 tolerance each way and covers the box plus the tolerance |
| TextDetection.IsSpace | tests/test_text_detection.py:61 | the characters `str.strip()` removes: space, tab to carriage return and the rest of Python's whitespace, never a digit or an ASCII letter |
| TextDetection.LeadingEnd | tests/test_text_detection.py:61 | skips exactly the leading whitespace |
| TextDetection.TrailingStart | tests/test_text_detection.py:61 | drops exactly the trailing whitespace |
| TextDetection.Strip | tests/test_text_detection.py:61 | the stripped text neither starts nor ends with whitespace |
| TextDetection.StripIsInfix | tests/test_text_detection.py:61 | strip removes only whitespace, from both ends, and keeps the middle |
| TextDetection.StripIdempotent | tests/test_text_detection.py:61 | stripping twice is stripping once |
| TextDetection.Upper | tests/test_text_detection.py:62 | `str.upper()` on ASCII: same length, no lower-case letter left, every other character kept |
| TextDetection.Lower | tests/test_text_detection.py:70 | `str.lower()` on ASCII: same length, no upper-case letter left, every other character kept |
| TextDetection.UpperIsPExactly | tests/test_text_detection.py:62 | upper() is 'P' exactly for 'P' and 'p' |
| TextDetection.IsAcceptedLabel | tests/test_text_detection.py:62 | the acceptance test: a single letter other than P is accepted; P, p and all-digit texts are rejected |
| TextDetection.Candidates | tests/test_text_detection.py:52-61 | one padded, read candidate per contour |
| TextDetection.RecognizeKeys | tests/test_text_detection.py:50-64 | the loop computes the recognised keys |
| TextDetection.RecognizedKeysExactly | tests/test_text_detection.py:50-64 | a contour yields a result iff its stripped text is non-empty, not all digits and not P; the result holds the padded box and the text, in order |
| TextDetection.References | tests/test_text_detection.py:68-76 | at most one reference per detection |
| TextDetection.ReferencesExact | tests/test_text_detection.py:68-76 | the references are the detections whose lower-cased text is a layout key, in order, with their centres and layout positions |
| TextDetection.CollectReferences | tests/test_text_detection.py:68-76 | the first loop computes the references |
| TextDetection.RowPairsExact | tests/test_text_detection.py:79 | the inner loop visits (i, i+1) ... (i, n-1) |
| TextDetection.AllPairsExact | tests/test_text_detection.py:78-79 | every pair a < b < n is visited exactly once, n(n-1)/2 pairs in lexicographic order |
| TextDetection.AxisEntriesEmptyIff | tests/test_text_detection.py:80-87 | nothing is appended along an axis iff no visited pair differs in millimetres along it |
| TextDetection.AxisEntriesProportional | tests/test_text_detection.py:80-87 | on a linear layout with slope s, every appended pixel/mm ratio is abs(s) |
| TextDetection.MeanRatio | tests/test_text_detection.py:88-89 | NaN exactly for an empty list |
| TextDetection.RowEntriesOfRowPairs | tests/test_text_detection.py:79-87 | the inner loop's appends are those of its row of pairs |
| TextDetection.RowDifferences | tests/test_text_detection.py:79-87 | the inner loop appends its row's entries to both axes |
| TextDetection.PairDifferences | tests/test_text_detection.py:78-87 | the nested loops produce the entries of all pairs, per axis |
| TextDetection.PixelToMmScale | tests/test_text_detection.py:67-90 | the mean pixel/mm ratio along one axis over all pairs of known keys; ScaleUndefinedIff and ExactScaleRecovered state when it is NaN and what it recovers |
| TextDetection.ComputePixelToMmScale | tests/test_text_detection.py:67-90 | both scales are the mean pixel/mm ratio over all pairs of references, NaN when none |
| TextDetection.ScaleUndefinedIff | tests/test_text_detection.py:80-89 | a scale is NaN iff no two references differ along its axis |
| TextDetection.ExactScaleRecovered | tests/test_text_detection.py:67-90 | on an exact linear layout with slope s, the scale is NaN or abs(s) |
| TextDetection.IndexOfKey | tests/test_text_detection.py:94 | finds the key's position in the dictionary, or reports its absence |
| TextDetection.PutExact | tests/test_text_detection.py:94 | a dict assignment keeps keys distinct, adds the key, stores the value and leaves other entries in place |
| TextDetection.PixelMapOf | tests/test_text_detection.py:94 | the dict comprehension as an insertion-ordered list; PixelMapKeys and PixelMapLastWins state its keys and values |
| TextDetection.PixelMapKeys | tests/test_text_detection.py:94 | the pixel map has one entry per distinct lower-cased text |
| TextDetection.PixelMapLastWins | tests/test_text_detection.py:94 | each key holds the centre of the last detection with that text |
| TextDetection.Totals | tests/test_text_detection.py:100-113 | the inner loop's sums and count for one target key; TotalsShape and KnownCount state their shape |
| TextDetection.AddNaN | tests/test_text_detection.py:111-112 | a sum is NaN iff an operand is |
| TextDetection.Shift | tests/test_text_detection.py:109-110 | a shifted estimate is NaN iff the scale is |
| TextDetection.IntOfMean | tests/test_text_detection.py:115-116 | int of a NaN mean raises ValueError; otherwise it truncates |
| TextDetection.KnownCount | tests/test_text_detection.py:103-105 | at most one reference per pixel-map entry |
| TextDetection.TotalsShape | tests/test_text_detection.py:101-113 | the count is the number of references; a total is NaN iff there is a reference and the scale is NaN |
| TextDetection.MissingKeys | tests/test_text_detection.py:97-99 | the missing keys are layout keys |
| TextDetection.EstimateOutcome | tests/test_text_detection.py:92-117 | all or nothing: fails iff some key is missing, some reference exists and a scale is NaN; otherwise estimates exactly the missing keys, when references exist |
| TextDetection.EstimateKey | tests/test_text_detection.py:100-117 | one missing key's estimate; EstimateKeyOfTotals states it: none without references, otherwise the truncated mean or ValueError |
| TextDetection.EstimateMissing | tests/test_text_detection.py:97-117 | the whole estimate, all or nothing; EstimateOutcome and EstimateOnAffineLayout state when it fails and what it holds |
| TextDetection.EstimateKeyOfConsensus | tests/test_text_detection.py:100-117 | when all references predict one position, the estimate is that position truncated |
| TextDetection.EstimateOnAffineLayout | tests/test_text_detection.py:92-117 | on an exact affine layout, every missing key is placed at its own layout position, truncated |
| TextDetection.EstimateKeyOfTotals | tests/test_text_detection.py:114-117 | no reference means no estimate; otherwise the estimate is the truncated mean of the totals |
| TextDetection.EstimateMissingFails | tests/test_text_detection.py:115-116 | one failing key makes the whole call fail |
| TextDetection.EstimateMissingSucceeds | tests/test_text_detection.py:97-117 | with no failure, the result holds the estimates of every missing key |
| TextDetection.ReferenceTotals | tests/test_text_detection.py:101-113 | the inner loop computes the totals and the count |
| TextDetection.EstimateMissingKeyPositions | tests/test_text_detection.py:92-121 | the loops compute the estimated dictionary, or the ValueError |
| CaptureNaming.StrLess | tests/capture_frames.py:9 | the code-point order `sorted()` uses on names; StrLessTransitive and StrLessTotal make it a strict total order |
| CaptureNaming.StrLessTransitive | tests/capture_frames.py:9 | the modelled string order is transitive |
| CaptureNaming.StrLessTotal | tests/capture_frames.py:9 | the modelled string order is total |
| CaptureNaming.Greatest | tests/capture_frames.py:9-12 | the last sorted name is in the list and is at least every other name |
| CaptureNaming.GreatestUnique | tests/capture_frames.py:9-12 | the last name depends only on the set of names, not on the listing order |
| CaptureNaming.Digits | tests/capture_frames.py:13 | only digits are kept |
| CaptureNaming.DecimalValue | tests/capture_frames.py:14 | `int()` of a digit string; DecimalRoundTrip and LeadingZeros state it |
| CaptureNaming.DecimalString | tests/capture_frames.py:15 | `str(n)`: a non-empty string of digits that reads back as n (DecimalRoundTrip) |
| CaptureNaming.DecimalRoundTrip | tests/capture_frames.py:14-15 | reading str(n) back gives n |
| CaptureNaming.LeadingZeros | tests/capture_frames.py:14 | leading zeros do not change the value int() reads |
| CaptureNaming.Format03d | tests/capture_frames.py:15 | at least three digits, all digits |
| CaptureNaming.Format03dReadsBack | tests/capture_frames.py:15 | the padded index reads back as the index |
| CaptureNaming.DigitsOfName | tests/capture_frames.py:13-15 | the digits of a generated name are those of its index |
| CaptureNaming.Matches | tests/capture_frames.py:9 | the glob `{base}*.{ext}`: the name starts with the base and ends with the extension; NameMatches and Existing use it |
| CaptureNaming.NameMatches | tests/capture_frames.py:9-15 | a generated name matches the glob |
| CaptureNaming.Existing | tests/capture_frames.py:9 | exactly the listed names matching the glob |
| CaptureNaming.NextIndex | tests/capture_frames.py:13-14 | one past the digits' value, or 1 when there are no digits |
| CaptureNaming.NextFilename | tests/capture_frames.py:8-15 | index 1 with no match; otherwise one past the index read from the greatest name |
| CaptureNaming.NextFilenameMatches | tests/capture_frames.py:8-15 | the proposed name matches the glob and carries an index of at least 1 |
| CaptureNaming.NextCalibFilename | auto_typing/calibration/capture_calibration_board.py:7-14 | the calibration name matches calib*.jpg and carries an index of at least 1 |
| CaptureNaming.FirstFilename | tests/capture_frames.py:10-15 | with no earlier capture the name is base001.ext |
| CaptureNaming.NextAfterGenerated | tests/capture_frames.py:8-15 | after the generator's own name for n, the next name is for n + 1 |
| CaptureNaming.NextCalibFilenameUnguarded | utils/capture_calibration_board.py:11-17 | the unguarded copy fails only with ValueError |
| CaptureNaming.UnguardedAgrees | utils/capture_calibration_board.py:11-17 | it raises iff the greatest name has no digits; otherwise it agrees with the guarded copy |
| CaptureNaming.PaddedOrderIsNumeric | tests/capture_frames.py:9-15 | below 1000, string order on padded indices is numeric order |
| CaptureNaming.GeneratedOrderIsNumeric | tests/capture_frames.py:9-15 | below 1000, generated names sort like their indices |
| CaptureNaming.ThousandSortsFirst | tests/capture_frames.py:9-15 | the name for 1000 sorts before the name for 999 |
| CaptureNaming.ReusesNameAfterThousand | tests/capture_frames.py:8-15 | as written, with names for 999 and 1000 present, the name for 1000 is proposed again |
| CaptureNaming.MaxIndex | tests/capture_frames.py:13-14 | at least every index read from a name |
| CaptureNaming.MaxIndexAttained | tests/capture_frames.py:9-14 | the numeric maximum of a non-empty listing is the index of one of its names |
| CaptureNaming.NextFilenameNumeric | tests/capture_frames.py:8-15 | the corrected generator: index 1 with no earlier capture |
| CaptureNaming.NumericNameIsFresh | tests/capture_frames.py:8-15 | the corrected generator never proposes a listed name |
| CaptureNaming.NumericAgreesBelowThousand | tests/capture_frames.py:8-15 | while all names are generated below 1000, the two generators agree |
| Calibration.Grid | auto_typing/calibration/calibrator.py:15-17 | cols times rows points, each the grid point of its index |
| Calibration.GridCorners | auto_typing/calibration/calibrator.py:15-17 | the first point is the origin and the last the far corner |
| Calibration.GridPointsDistinct | auto_typing/calibration/calibrator.py:15-17 | with a nonzero square size, different indices give different points |
| Calibration.BoardIndices | auto_typing/calibration/calibrator.py:16 | row k holds column k mod cols and row k div cols, with z = 0 |
| Calibration.Scaled | auto_typing/calibration/calibrator.py:17 | every point is multiplied by the factor |
| Calibration.ScaledBoardIsGrid | auto_typing/calibration/calibrator.py:15-17 | scaling the board indices by the square size gives the grid |
| Calibration.BuildObjectPoints | auto_typing/calibration/calibrator.py:15-17 | a new cols*rows by 3 array whose rows are the grid |
| Calibration.FillBoardIndices | auto_typing/calibration/calibrator.py:16 | the first two columns hold the board indices and z stays 0 |
| Calibration.Scale | auto_typing/calibration/calibrator.py:17 | every row is multiplied by the square size |
| Calibration.DetectedCorners | auto_typing/calibration/calibrator.py:24-34 | at most one corner set per image |
| Calibration.DetectionsIff | auto_typing/calibration/calibrator.py:24-43 | corners exist iff some readable image showed the board, and then the image size is known |
| Calibration.CollectCorrespondences | auto_typing/calibration/calibrator.py:19-37 | object and image points grow together, only for readable images with the board, and every object entry is the one grid array |
| Calibration.Decide | auto_typing/calibration/calibrator.py:41-55 | no detection ends early; otherwise the result is saved iff the calibration's return value is nonzero |
| Calibration.CalibrateCamera | auto_typing/calibration/calibrator.py:8-55 | the outcome and the correspondences; every object entry is the scaled grid (utils/calibrate_camera.py:16-63 is the same) |
| TypingGui.ToDirection | gui/auto_typing_gui.py:78-79 | the sign of the value: 1, -1 or 0 |
| TypingGui.DiscretizeMotion | gui/auto_typing_gui.py:77-87 | every component is -1, 0 or 1 |
| TypingGui.DiscretizeKeepsSigns | gui/auto_typing_gui.py:77-87 | each component keeps its sign and its position |
| TypingGui.DiscreteIsFixed | gui/auto_typing_gui.py:77-87 | an already discrete motion is unchanged |
| TypingGui.DirectionIsFixed | gui/auto_typing_gui.py:78-79 | a direction is its own sign |
| TypingGui.DiscretizeIdempotent | gui/auto_typing_gui.py:77-87 | discretising twice is discretising once |
| TypingGui.AxisFromKeys | gui/auto_typing_gui.py:72-75 | 1 iff only the positive key is pressed, -1 iff only the negative one |
| TypingGui.AxisIsDirection | gui/auto_typing_gui.py:72-79 | an axis read from keys is already discrete |
| TypingGui.DrawTranslationArrows | gui/auto_typing_gui.py:89-113 | each arrow is active iff its component is +1 or -1 as the table says; opposite arrows are never both active |
| TypingGui.DrawRotationArrows | gui/auto_typing_gui.py:115-134 | pitch and yaw arrows light up iff their component is +1 or -1 |
| TypingGui.DrawRollArrow | gui/auto_typing_gui.py:136-177 | the arc is active iff roll is nonzero; its head is on the left iff roll is 1 |
| TypingGui.RollArcShapes | gui/auto_typing_gui.py:142-156 | the two active arcs mirror each other, and the idle arc is the roll -1 arc, drawn inactive |
| TypingGui.Plot | gui/auto_typing_gui.py:13-26 | succeeds iff both triples are present with three values; the arrows follow the triples |
| TypingGui.Unpack3 | gui/auto_typing_gui.py:14-15 | None raises TypeError, a wrong length raises ValueError, otherwise the three values |
| TypingGui.LabelSource | gui/auto_typing_gui.py:44-45 | a non-empty raw list is shown; otherwise the discretised values |
| TypingGui.PlotWithLabels | gui/auto_typing_gui.py:28-54 | the same overlay as plot, with the raw values as labels when given |
| TypingGui.PlotFromRawMotion | gui/auto_typing_gui.py:62-70 | always succeeds and labels the raw values |
| TypingGui.RawMotionArrows | gui/auto_typing_gui.py:62-70 | each arrow of a raw motion is active iff its component has the arrow's sign |

## Left out

- ORB, FLANN, StereoBM, tesseract, RANSAC, thresholding, contour finding, bounding boxes, corner detection and `cv2.calibrateCamera` are library calls; their results are inputs or function parameters. The RANSAC plane fit is a parameter that may fail, and its error ends the pipeline.
- Reading images, the camera, windows, drawing, saving files, console messages, the CAN bus and sleeps are I/O and are not modelled. Drawing becomes the data that would be drawn.
- `estimate_depth_from_flow` is called by tests/test_phase1_full_pipeline.py but is not part of this model. Its flow points and depths are inputs.
- `fit_plane_svm`, `detect_features`, `compute_disparity_map` and `detect_text_regions` only wrap library calls and are not modelled.
- Floats are exact reals: IEEE rounding, infinities and float32 storage are not modelled. NaN is modelled only where the code produces it: the empty-mean scale and the division 0/0.
- Localizer.ComputeKeyboardPose: takes the vector's norm as a parameter constrained by norm^2 = c0^2 + c1^2 + 1, because there is no square root on reals.
- Localizer.Compute3DPointsFromText: requires nonzero focal lengths; numpy would divide by zero into inf or NaN, which is not modelled. The same holds for LegacyLocalizer.Compute3DPointsFromText, Localizer.BoxPoint, Pinhole.ImageToCameraCoords, Pipeline.RunPhase1Pipeline, Pipeline.Phase1Pipeline, Pipeline.UnsampledCentroidRaises, Pipeline.LocalizeOnDepth, Pipeline.LocalizeSkippingDepthless and Pipeline.LocalizeOnText.
- PositionAwareController.PositionAwareMotor.MoveTo: the position equals the target exactly only over reals; with floats it may differ in the last bit.
- Calibration.CalibrateCamera: requires a pattern at least one corner wide. The grid indexes by the column count, and OpenCV rejects an empty pattern in any case.
- TextDetection.Upper, TextDetection.Lower, the digit test of TextDetection.IsAcceptedLabel and the digit test of CaptureNaming.Digits cover ASCII only: Unicode digits and non-ASCII case mappings are not modelled. The tesseract whitelist at tests/test_text_detection.py:61 keeps the recognised text ASCII. TextDetection.IsSpace, by contrast, holds Python's full `str.isspace` set.
- The iteration order of `set(key_positions) - set(pixel_map)` is arbitrary. The model picks keys in any order and proves that the result does not depend on it. The `key not in real_map` test is dead code, because every missing key is a layout key.
- The image returned by `estimate_missing_key_positions` and the text formatting of the GUI labels (`.2f`) are not modelled. The labels are the values shown.
- The directory joined to a capture name, and glob case sensitivity, are not modelled. The listing is the set of file names in the directory.
- `send_motor_command` with negative device ids is not modelled; device ids are natural numbers.
- The GUI window set-up (`__init__`, `_draw_text`) and `main_manual` are pygame and camera I/O and are not modelled.

## Findings

| source | as written | input that shows it | evidently intended | confidence | as-written member | corrected member |
|---|---|---|---|---|---|---|
| auto_typing/phase1/localizer.py:40 | `for m, n in matches` unpacks every knn row into two matches | a row with one neighbour (FLANN returns fewer than k for a sparse descriptor set) raises ValueError and loses all matches | skip rows with fewer than two neighbours, since the ratio test needs two | not executed | Localizer.SingleNeighbourRowRaises | Localizer.SkippingShortRowsKeepsExactly |
| tests/test_phase1_full_pipeline.py:55-56 | divides by `pt[2]` for every point | a confident text box whose centre no flow sample hit gets depth 0, so 0/0 gives NaN and int() raises ValueError | skip points without depth | not executed | Pipeline.UnsampledCentroidRaises | Pipeline.LocalizeSkippingDepthless |
| tests/capture_frames.py:9-15 | takes the last name in string order | with frame999.jpg and frame1000.jpg present the last name is frame999.jpg, so frame1000.jpg is proposed again and overwritten | take the largest index in numeric order | not executed | CaptureNaming.ReusesNameAfterThousand | CaptureNaming.NumericNameIsFresh |

=== FILE: calibration.dfy ===
/** `calibrate_camera` of auto_typing/calibration/calibrator.py and its copy in
    utils/calibrate_camera.py (the two agree line for line on what is modelled):
    the chessboard object-point grid, the lock-step accumulation of object and
    image points over the calibration images, and the decision to save.
    Reading the images, corner detection and `cv2.calibrateCamera` are not
    modelled: each image arrives as an `ImageScan`, and the calibration's return
    value is an input. */
module Calibration {
  import opened Common

  /** What reading one image file and searching it for the chessboard gave. */
  datatype ImageScan =
    | Unreadable
    | Scanned(width: nat, height: nat, found: bool, corners: seq<(real, real)>)

  /** One row of the object-point array: a corner of the board in board
      coordinates (the board lies in the plane z = 0). */
  datatype Point3 = Point3(x: real, y: real, z: real)

  /** How `calibrate_camera` ends. */
  datatype Outcome =
    | NoDetections
    | CalibrationFailed(imageSize: (nat, nat))
    | Saved(imageSize: (nat, nat))

  // ---------------------------------------------------------------- the grid

  /** Object point `k` of a `cols` x `rows` board: x varies fastest. */
  function GridPoint(k: nat, cols: nat, squareSize: real): (p: Point3)
    requires cols > 0
  {
    Point3((k % cols) as real * squareSize, (k / cols) as real * squareSize, 0.0)
  }

  /** The whole board, point by point. */
  function Grid(cols: nat, rows: nat, squareSize: real): (g: seq<Point3>)
    requires cols > 0
    ensures |g| == cols * rows
    ensures forall k :: 0 <= k < |g| ==> g[k] == GridPoint(k, cols, squareSize)
  {
    seq(cols * rows, k requires 0 <= k => GridPoint(k, cols, squareSize))
  }

  /** The rows of a two-dimensional array, as values. */
  function Rows(a: array2<real>): (r: seq<Point3>)
    requires a.Length1 == 3
    reads a
    ensures |r| == a.Length0
    ensures forall k :: 0 <= k < a.Length0 ==> r[k] == Point3(a[k, 0], a[k, 1], a[k, 2])
  {
    seq(a.Length0, k requires 0 <= k < a.Length0 reads a => Point3(a[k, 0], a[k, 1], a[k, 2]))
  }

  /** The first point is the origin and the last the far corner
      `((cols-1)*s, (rows-1)*s, 0)`. */
  lemma GridCorners(cols: nat, rows: nat, squareSize: real)
    requires cols > 0 && rows > 0
    ensures GridPoint(0, cols, squareSize) == Point3(0.0, 0.0, 0.0)
    ensures GridPoint(cols * rows - 1, cols, squareSize)
      == Point3((cols - 1) as real * squareSize, (rows - 1) as real * squareSize, 0.0)
  {
    var k := cols * rows - 1;
    assert k == (rows - 1) * cols + (cols - 1);
    DivMod(rows - 1, cols - 1, cols);
    assert k % cols == cols - 1 && k / cols == rows - 1;
    assert GridPoint(k, cols, squareSize).x == (cols - 1) as real * squareSize;
    assert GridPoint(k, cols, squareSize).y == (rows - 1) as real * squareSize;
  }

  /** Division with remainder is unique. */
  lemma DivMod(q: nat, r: nat, d: nat)
    requires r < d
    ensures (q * d + r) / d == q && (q * d + r) % d == r
  {
    var n := q * d + r;
    assert (n / d - q) * d == r - n % d;
    if n / d - q >= 1 {
      MulAtLeast(n / d - q, d);
    } else if q - n / d >= 1 {
      MulAtLeast(q - n / d, d);
    }
  }

  lemma MulAtLeast(x: int, d: int)
    requires x >= 1 && d >= 0
    ensures x * d >= d
  {
  }

  /** With a nonzero square size, different indices give different points: the
      board has `cols * rows` distinct corners. */
  lemma GridPointsDistinct(k: nat, l: nat, cols: nat, squareSize: real)
    requires cols > 0 && squareSize != 0.0 && k != l
    ensures GridPoint(k, cols, squareSize) != GridPoint(l, cols, squareSize)
  {
  }

  /** The board before scaling: row `k` holds the column `k % cols` and the row
      `k / cols` of its corner, with z = 0. */
  function BoardIndices(cols: nat, rows: nat): (g: seq<Point3>)
    requires cols > 0
    ensures |g| == cols * rows
    ensures forall k :: 0 <= k < |g| ==> g[k] == Point3((k % cols) as real, (k / cols) as real, 0.0)
  {
    seq(cols * rows, k requires 0 <= k => Point3((k % cols) as real, (k / cols) as real, 0.0))
  }

  /** Every coordinate of a point multiplied by `s`. */
  function ScalePoint(p: Point3, s: real): Point3 {
    Point3(p.x * s, p.y * s, p.z * s)
  }

  /** Every point multiplied by `s`. */
  function Scaled(points: seq<Point3>, s: real): (r: seq<Point3>)
    ensures |r| == |points|
    ensures forall k :: 0 <= k < |r| ==> r[k] == ScalePoint(points[k], s)
  {
    seq(|points|, k requires 0 <= k < |points| => ScalePoint(points[k], s))
  }

  /** Scaling the board indices by the square size gives the grid. */
  lemma ScaledBoardIsGrid(cols: nat, rows: nat, squareSize: real)
    requires cols > 0
    ensures Scaled(BoardIndices(cols, rows), squareSize) == Grid(cols, rows, squareSize)
  {
    var b := BoardIndices(cols, rows);
    forall k | 0 <= k < cols * rows
      ensures Scaled(b, squareSize)[k] == Grid(cols, rows, squareSize)[k]
    {
      assert b[k] == Point3((k % cols) as real, (k / cols) as real, 0.0);
    }
  }

  /** The grid of `calibrate_camera`: `np.zeros((cols*rows, 3))`, the first two
      columns set to `mgrid[0:cols, 0:rows].T.reshape(-1, 2)`, then every entry
      multiplied by the square size. */
  method BuildObjectPoints(cols: nat, rows: nat, squareSize: real) returns (objp: array2<real>)
    requires cols > 0
    ensures fresh(objp)
    ensures objp.Length0 == cols * rows && objp.Length1 == 3
    ensures Rows(objp) == Grid(cols, rows, squareSize)
  {
    objp := new real[cols * rows, 3]((i, j) => 0.0);
    FillBoardIndices(objp, cols, rows);
    Scale(objp, squareSize);
    ScaledBoardIsGrid(cols, rows, squareSize);
  }

  /** `objp[:, :2] = mgrid[0:cols, 0:rows].T.reshape(-1, 2)` on an array of
      zeros: row `k` gets the column `k % cols` and the row `k / cols` of its
      corner on the board, both columns in one aggregate assignment each. */
  method FillBoardIndices(objp: array2<real>, cols: nat, rows: nat)
    requires cols > 0 && objp.Length0 == cols * rows && objp.Length1 == 3
    requires forall k :: 0 <= k < objp.Length0 ==> objp[k, 2] == 0.0
    modifies objp
    ensures Rows(objp) == BoardIndices(cols, rows)
  {
    forall k | 0 <= k < objp.Length0 {
      objp[k, 0] := (k % cols) as real;
    }
    forall k | 0 <= k < objp.Length0 {
      objp[k, 1] := (k / cols) as real;
    }
    assert forall k :: 0 <= k < objp.Length0 ==> Rows(objp)[k] == BoardIndices(cols, rows)[k];
  }

  /** `a *= s`: every entry is multiplied by `s`, all at once. */
  method Scale(a: array2<real>, s: real)
    requires a.Length1 == 3
    modifies a
    ensures Rows(a) == Scaled(old(Rows(a)), s)
  {
    ghost var before := Rows(a);
    forall k, i | 0 <= k < a.Length0 && 0 <= i < 3 {
      a[k, i] := a[k, i] * s;
    }
    forall k | 0 <= k < a.Length0
      ensures Rows(a)[k] == Scaled(before, s)[k]
    {
      var p := before[k];
      assert p == Point3(old(a[k, 0]), old(a[k, 1]), old(a[k, 2]));
      var q := Point3(a[k, 0], a[k, 1], a[k, 2]);
      assert q.x == p.x * s && q.y == p.y * s && q.z == p.z * s;
      assert q == ScalePoint(p, s);
    }
  }

  // ---------------------------------------------------------------- the image loop

  /** The corners of every image that was read and in which the board was found,
      in listing order. */
  function DetectedCorners(scans: seq<ImageScan>): (corners: seq<seq<(real, real)>>)
    ensures |corners| <= |scans|
  {
    if scans == [] then []
    else
      var last := scans[|scans| - 1];
      DetectedCorners(scans[..|scans| - 1]) + (if last.Scanned? && last.found then [last.corners] else [])
  }

  /** `gray.shape[::-1]` after the loop: the size of the last image that could be
      read, whether or not the board was found in it. */
  function LastReadableSize(scans: seq<ImageScan>): Option<(nat, nat)> {
    if scans == [] then None
    else
      var last := scans[|scans| - 1];
      if last.Scanned? then Some((last.width, last.height)) else LastReadableSize(scans[..|scans| - 1])
  }

  /** Some image yields corners exactly when some image was read and the board
      found in it; then some image was readable, so the image size is known. */
  lemma {:induction false} DetectionsIff(scans: seq<ImageScan>)
    ensures DetectedCorners(scans) != [] <==>
      exists i :: 0 <= i < |scans| && scans[i].Scanned? && scans[i].found
    ensures DetectedCorners(scans) != [] ==> LastReadableSize(scans).Some?
  {
    if scans != [] {
      var init := scans[..|scans| - 1];
      DetectionsIff(init);
      assert forall i :: 0 <= i < |init| ==> init[i] == scans[i];
    }
  }

  /** The `for fname in images` loop: `objpoints` and `imgpoints` grow together,
      only for a readable image in which the board was found, and every entry of
      `objpoints` is the one grid array `objp`. */
  method CollectCorrespondences(scans: seq<ImageScan>, objp: array2<real>)
    returns (objpoints: seq<array2<real>>, imgpoints: seq<seq<(real, real)>>, size: Option<(nat, nat)>)
    ensures imgpoints == DetectedCorners(scans)
    ensures |objpoints| == |imgpoints|
    ensures forall i :: 0 <= i < |objpoints| ==> objpoints[i] == objp
    ensures size == LastReadableSize(scans)
  {
    objpoints, imgpoints, size := [], [], None;
    for i := 0 to |scans|
      invariant imgpoints == DetectedCorners(scans[..i])
      invariant |objpoints| == |imgpoints|
      invariant forall j :: 0 <= j < |objpoints| ==> objpoints[j] == objp
      invariant size == LastReadableSize(scans[..i])
    {
      assert scans[..i + 1][..i] == scans[..i];
      var scan := scans[i];
      if scan.Unreadable? {
        continue;
      }
      size := Some((scan.width, scan.height));
      if scan.found {
        objpoints := objpoints + [objp];
        imgpoints := imgpoints + [scan.corners];
      }
    }
    assert scans[..|scans|] == scans;
  }

  /** Whether `calibrate_camera` saves: with no detection it returns before
      calibrating; otherwise it saves iff the calibration's return value (the
      reprojection error, a float) is truthy, i.e. nonzero. */
  function Decide(scans: seq<ImageScan>, rms: real): (outcome: Outcome)
    ensures outcome.NoDetections? <==> DetectedCorners(scans) == []
    ensures outcome.Saved? <==> DetectedCorners(scans) != [] && rms != 0.0
  {
    DetectionsIff(scans);
    if DetectedCorners(scans) == [] then NoDetections
    else if rms != 0.0 then Saved(LastReadableSize(scans).value)
    else CalibrationFailed(LastReadableSize(scans).value)
  }

  /** `calibrate_camera(config)` with the pattern size and square size taken from
      the configuration; `rms` stands for what `cv2.calibrateCamera` returns. */
  method CalibrateCamera(cols: nat, rows: nat, squareSize: real, scans: seq<ImageScan>, rms: real)
    returns (outcome: Outcome, objpoints: seq<array2<real>>, imgpoints: seq<seq<(real, real)>>)
    requires cols > 0
    ensures outcome == Decide(scans, rms)
    ensures imgpoints == DetectedCorners(scans) && |objpoints| == |imgpoints|
    ensures forall i :: 0 <= i < |objpoints| ==> objpoints[i] == objpoints[0]
    ensures forall i :: 0 <= i < |objpoints| ==>
      objpoints[i].Length1 == 3 && Rows(objpoints[i]) == Grid(cols, rows, squareSize)
  {
    var objp := BuildObjectPoints(cols, rows, squareSize);
    var size;
    objpoints, imgpoints, size := CollectCorrespondences(scans, objp);
    if objpoints == [] {
      DetectionsIff(scans);
      return NoDetections, objpoints, imgpoints;
    }
    DetectionsIff(scans);
    if rms != 0.0 {
      outcome := Saved(size.value);
    } else {
      outcome := CalibrationFailed(size.value);
    }
  }
}

=== FILE: capture_naming.dfy ===
/** `get_next_filename`, in its three copies: tests/capture_frames.py (base and
    extension as parameters, default 'frame' and 'jpg'),
    auto_typing/calibration/capture_calibration_board.py ('calib', 'jpg') and
    utils/capture_calibration_board.py (the same without the guard for a name
    without digits). The directory listing is an input; the directory the name is
    joined to is not modelled. */
module CaptureNaming {
  import opened Common

  // ---------------------------------------------------------------- string order

  /** Python's `<` on `str`: lexicographic by code point, a proper prefix first. */
  predicate StrLess(a: string, b: string)
    decreases |a|
  {
    if a == [] then b != []
    else if b == [] then false
    else if a[0] != b[0] then a[0] < b[0]
    else StrLess(a[1..], b[1..])
  }

  lemma {:induction false} StrLessIrreflexive(a: string)
    ensures !StrLess(a, a)
    decreases |a|
  {
    if a != [] {
      StrLessIrreflexive(a[1..]);
    }
  }

  lemma {:induction false} StrLessTransitive(a: string, b: string, c: string)
    requires StrLess(a, b) && StrLess(b, c)
    ensures StrLess(a, c)
    decreases |a|
  {
    if a != [] && a[0] == b[0] && b[0] == c[0] {
      StrLessTransitive(a[1..], b[1..], c[1..]);
    }
  }

  lemma {:induction false} StrLessTotal(a: string, b: string)
    ensures a == b || StrLess(a, b) || StrLess(b, a)
    decreases |a|
  {
    if a != [] && b != [] && a[0] == b[0] {
      StrLessTotal(a[1..], b[1..]);
      if a[1..] == b[1..] {
        assert a == [a[0]] + a[1..] && b == [b[0]] + b[1..];
      }
    }
  }

  /** `sorted(names)[-1]`: the greatest name under Python's string order. */
  function Greatest(names: seq<string>): (g: string)
    requires names != []
    ensures g in names
    ensures forall n :: n in names ==> n == g || StrLess(n, g)
  {
    if |names| == 1 then names[0]
    else
      var init, last := names[..|names| - 1], names[|names| - 1];
      var g := Greatest(init);
      StrLessTotal(g, last);
      if StrLess(g, last) then
        assert forall n :: n in init && StrLess(n, g) ==> StrLess(n, last) by {
          forall n | n in init && StrLess(n, g) {
            StrLessTransitive(n, g, last);
          }
        }
        assert names == init + [last];
        last
      else
        assert names == init + [last];
        g
  }

  /** Only the greatest name matters, and it does not depend on the listing order:
      any member of the listing that no other member exceeds is `Greatest`. */
  lemma GreatestUnique(names: seq<string>, g: string)
    requires g in names && forall n :: n in names ==> !StrLess(g, n)
    ensures Greatest(names) == g
  {
    var h := Greatest(names);
    if h != g {
      StrLessTotal(g, h);
    }
  }

  // ---------------------------------------------------------------- digits

  /** `''.join(filter(str.isdigit, name))`. */
  function Digits(name: string): (d: string)
    ensures forall i :: 0 <= i < |d| ==> IsDigit(d[i])
  {
    var d := Filter(name, IsDigit);
    FilterIsOrderedSelection(name, IsDigit);
    d
  }

  function DigitValue(c: char): nat {
    if IsDigit(c) then (c as int - '0' as int) as nat else 0
  }

  function DigitChar(n: nat): (c: char)
    requires n < 10
    ensures IsDigit(c) && DigitValue(c) == n
  {
    ('0' as int + n) as char
  }

  /** `int(s)` on a string of ASCII digits (leading zeros allowed). */
  function DecimalValue(s: string): nat {
    if s == [] then 0 else 10 * DecimalValue(s[..|s| - 1]) + DigitValue(s[|s| - 1])
  }

  /** `str(n)`: the shortest decimal representation. */
  function DecimalString(n: nat): (s: string)
    ensures s != [] && forall i :: 0 <= i < |s| ==> IsDigit(s[i])
  {
    if n < 10 then [DigitChar(n)] else DecimalString(n / 10) + [DigitChar(n % 10)]
  }

  /** Reading back the decimal representation gives the number. */
  lemma {:induction false} DecimalRoundTrip(n: nat)
    ensures DecimalValue(DecimalString(n)) == n
  {
    if n >= 10 {
      DecimalRoundTrip(n / 10);
      var s := DecimalString(n);
      assert s[..|s| - 1] == DecimalString(n / 10);
    }
  }

  function Zeros(k: nat): (z: string)
    ensures |z| == k && forall i :: 0 <= i < k ==> z[i] == '0'
  {
    if k == 0 then [] else Zeros(k - 1) + ['0']
  }

  /** Leading zeros do not change the value `int` reads. */
  lemma {:induction false} LeadingZeros(k: nat, s: string)
    ensures DecimalValue(Zeros(k) + s) == DecimalValue(s)
    decreases |s|, k
  {
    if s == [] {
      assert Zeros(k) + s == Zeros(k);
      if k > 0 {
        LeadingZeros(k - 1, []);
        assert Zeros(k)[..k - 1] == Zeros(k - 1) + [];
      }
    } else {
      var init := s[..|s| - 1];
      LeadingZeros(k, init);
      assert (Zeros(k) + s)[..|Zeros(k) + s| - 1] == Zeros(k) + init;
    }
  }

  /** `f"{n:03d}"`: at least three digits, zero-padded on the left. */
  function Format03d(n: nat): (s: string)
    ensures |s| == MaxInt(3, |DecimalString(n)|)
    ensures forall i :: 0 <= i < |s| ==> IsDigit(s[i])
  {
    var d := DecimalString(n);
    if |d| < 3 then Zeros(3 - |d|) + d else d
  }

  /** Padding never truncates: the padded string still reads as `n`. */
  lemma Format03dReadsBack(n: nat)
    ensures DecimalValue(Format03d(n)) == n
  {
    var d := DecimalString(n);
    DecimalRoundTrip(n);
    if |d| < 3 {
      LeadingZeros(3 - |d|, d);
    }
  }

  predicate DigitFree(s: string) {
    forall i :: 0 <= i < |s| ==> !IsDigit(s[i])
  }

  /** The digits of a name built from a digit-free base and extension are the
      digits of its index. */
  lemma DigitsOfName(base: string, index: string, ext: string)
    requires DigitFree(base) && DigitFree(ext)
    requires forall i :: 0 <= i < |index| ==> IsDigit(index[i])
    ensures Digits(base + index + "." + ext) == index
  {
    var tail := "." + ext;
    assert base + index + "." + ext == (base + index) + tail;
    assert forall i :: 0 <= i < |tail| ==> !IsDigit(tail[i]) by {
      forall i | 0 <= i < |tail|
        ensures !IsDigit(tail[i])
      {
        if i > 0 {
          assert tail[i] == ext[i - 1];
        }
      }
    }
    FilterAppend(base + index, tail, IsDigit);
    FilterAppend(base, index, IsDigit);
    FilterNone(base, IsDigit);
    FilterAll(index, IsDigit);
    FilterNone(tail, IsDigit);
  }

  // ---------------------------------------------------------------- the generator

  /** The glob `{base}*.{ext}`: the name starts with the base and ends with the
      extension after a dot (the wildcard may match nothing). */
  predicate Matches(name: string, base: string, ext: string) {
    |base| + 1 + |ext| <= |name| && name[..|base|] == base && name[|name| - |ext| - 1..] == "." + ext
  }

  lemma NameMatches(base: string, n: nat, ext: string)
    ensures Matches(Name(base, n, ext), base, ext)
  {
    var name := Name(base, n, ext);
    assert name[..|base|] == base;
    assert name[|name| - |ext| - 1..] == "." + ext;
  }

  /** The sorted glob result, before sorting: the listing's matching names. */
  function Existing(listing: seq<string>, base: string, ext: string): (existing: seq<string>)
    ensures forall n :: n in existing <==> n in listing && Matches(n, base, ext)
  {
    FilterIsOrderedSelection(listing, n => Matches(n, base, ext));
    Filter(listing, n => Matches(n, base, ext))
  }

  /** `int(digits) + 1 if digits else 1`. */
  function NextIndex(last: string): (index: nat)
    ensures Digits(last) == [] ==> index == 1
    ensures Digits(last) != [] ==> index == DecimalValue(Digits(last)) + 1
    ensures index >= 1
  {
    var digits := Digits(last);
    if digits != [] then DecimalValue(digits) + 1 else 1
  }

  function Name(base: string, index: nat, ext: string): string {
    base + Format03d(index) + "." + ext
  }

  /** `get_next_filename` with the guard for a name without digits
      (tests/capture_frames.py and auto_typing/calibration/capture_calibration_board.py). */
  function NextFilename(listing: seq<string>, base: string, ext: string): (name: string)
    ensures Existing(listing, base, ext) == [] ==> name == Name(base, 1, ext)
    ensures Existing(listing, base, ext) != [] ==>
      name == Name(base, NextIndex(Greatest(Existing(listing, base, ext))), ext)
  {
    var existing := Existing(listing, base, ext);
    var index := if existing != [] then NextIndex(Greatest(existing)) else 1;
    Name(base, index, ext)
  }

  /** The proposed name matches the glob the next call lists, and the index it
      carries reads back as at least 1. */
  lemma NextFilenameMatches(listing: seq<string>, base: string, ext: string)
    requires DigitFree(base) && DigitFree(ext)
    ensures Matches(NextFilename(listing, base, ext), base, ext)
    ensures DecimalValue(Digits(NextFilename(listing, base, ext))) >= 1
  {
    var existing := Existing(listing, base, ext);
    var index := if existing != [] then NextIndex(Greatest(existing)) else 1;
    NameMatches(base, index, ext);
    DigitsOfName(base, Format03d(index), ext);
    Format03dReadsBack(index);
  }

  /** The calibration-board copy: base 'calib', extension 'jpg'. Its names match
      'calib*.jpg' and carry an index of at least 1. */
  function NextCalibFilename(listing: seq<string>): (name: string)
    ensures Matches(name, "calib", "jpg")
    ensures DecimalValue(Digits(name)) >= 1
  {
    assert DigitFree("calib") && DigitFree("jpg");
    NextFilenameMatches(listing, "calib", "jpg");
    NextFilename(listing, "calib", "jpg")
  }

  /** With no earlier capture the first name is `frame001.jpg` / `calib001.jpg`. */
  lemma FirstFilename(listing: seq<string>, base: string, ext: string)
    requires forall n :: n in listing ==> !Matches(n, base, ext)
    ensures NextFilename(listing, base, ext) == base + "001." + ext
  {
    assert DecimalString(1) == "1";
    assert Zeros(2) == "00";
  }

  /** When the greatest name is one this generator made for index `n`, the next
      name carries index `n + 1`. */
  lemma NextAfterGenerated(listing: seq<string>, base: string, ext: string, n: nat)
    requires DigitFree(base) && DigitFree(ext)
    requires Name(base, n, ext) in listing
    requires forall m :: m in listing && Matches(m, base, ext) ==> !StrLess(Name(base, n, ext), m)
    ensures NextFilename(listing, base, ext) == Name(base, n + 1, ext)
  {
    var name := Name(base, n, ext);
    var existing := Existing(listing, base, ext);
    NameMatches(base, n, ext);
    assert name in existing;
    GreatestUnique(existing, name);
    DigitsOfName(base, Format03d(n), ext);
    Format03dReadsBack(n);
  }

  // ---------------------------------------------------------------- the unguarded copy

  /** utils/capture_calibration_board.py: `int(''.join(...)) + 1` without the
      guard, so a greatest name without digits raises ValueError. */
  function NextCalibFilenameUnguarded(listing: seq<string>): (r: Result<string>)
    ensures r.Err? ==> r.error == ValueError
  {
    var existing := Existing(listing, "calib", "jpg");
    if existing == [] then Ok(Name("calib", 1, "jpg"))
    else
      var digits := Digits(Greatest(existing));
      if digits == [] then Err(ValueError)
      else Ok(Name("calib", DecimalValue(digits) + 1, "jpg"))
  }

  /** The unguarded copy agrees with the guarded one except that it raises where
      the guarded one falls back to index 1. */
  lemma UnguardedAgrees(listing: seq<string>)
    ensures NextCalibFilenameUnguarded(listing).Err? <==>
      Existing(listing, "calib", "jpg") != [] && Digits(Greatest(Existing(listing, "calib", "jpg"))) == []
    ensures NextCalibFilenameUnguarded(listing).Ok? ==>
      NextCalibFilenameUnguarded(listing).value == NextCalibFilename(listing)
  {
  }

  // ---------------------------------------------------------------- string order, continued

  lemma StrLessAsymmetric(a: string, b: string)
    requires StrLess(a, b)
    ensures !StrLess(b, a)
  {
    if StrLess(b, a) {
      StrLessTransitive(a, b, a);
      StrLessIrreflexive(a);
    }
  }

  /** A common prefix does not change the order. */
  lemma {:induction false} StrLessCommonPrefix(p: string, x: string, y: string)
    ensures StrLess(p + x, p + y) <==> StrLess(x, y)
    decreases |p|
  {
    if p != [] {
      StrLessCommonPrefix(p[1..], x, y);
      assert (p + x)[1..] == p[1..] + x && (p + y)[1..] == p[1..] + y;
      assert (p + x)[0] == (p + y)[0];
    } else {
      assert p + x == x && p + y == y;
    }
  }

  /** Between different strings of equal length, whatever follows does not
      change the order. */
  lemma {:induction false} StrLessEqualLength(x: string, y: string, s: string, t: string)
    requires |x| == |y| && x != y
    ensures StrLess(x + s, y + t) <==> StrLess(x, y)
    decreases |x|
  {
    if x[0] == y[0] {
      assert x[1..] != y[1..] by {
        assert x == [x[0]] + x[1..] && y == [y[0]] + y[1..];
      }
      StrLessEqualLength(x[1..], y[1..], s, t);
      assert (x + s)[1..] == x[1..] + s && (y + t)[1..] == y[1..] + t;
    }
  }

  /** Below 1000 the padded index is exactly three digits: hundreds, tens, units. */
  lemma Format03dDigits(n: nat)
    requires n < 1000
    ensures Format03d(n) == [DigitChar(n / 100), DigitChar(n / 10 % 10), DigitChar(n % 10)]
  {
    if n >= 100 {
      assert DecimalString(n) == DecimalString(n / 10) + [DigitChar(n % 10)];
      assert DecimalString(n / 10) == [DigitChar(n / 100), DigitChar(n / 10 % 10)];
    } else if n >= 10 {
      assert DecimalString(n) == [DigitChar(n / 10), DigitChar(n % 10)];
      assert Zeros(1) == ['0'];
    } else {
      assert Zeros(2) == ['0', '0'];
    }
  }

  lemma DigitCharOrder(i: nat, j: nat)
    requires i < 10 && j < 10
    ensures DigitChar(i) < DigitChar(j) <==> i < j
    ensures DigitChar(i) == DigitChar(j) <==> i == j
  {
  }

  /** Comparing three-digit numbers digit by digit is comparing them. */
  lemma ThreeDigitOrder(a: nat, b: nat)
    requires a < 1000 && b < 1000
    ensures a < b <==>
      a / 100 < b / 100 || (a / 100 == b / 100 &&
        (a / 10 % 10 < b / 10 % 10 || (a / 10 % 10 == b / 10 % 10 && a % 10 < b % 10)))
  {
    assert a == 100 * (a / 100) + 10 * (a / 10 % 10) + a % 10;
    assert b == 100 * (b / 100) + 10 * (b / 10 % 10) + b % 10;
  }

  /** Below 1000, string order on padded indices is numeric order. */
  lemma PaddedOrderIsNumeric(a: nat, b: nat)
    requires a < 1000 && b < 1000
    ensures StrLess(Format03d(a), Format03d(b)) <==> a < b
  {
    Format03dDigits(a);
    Format03dDigits(b);
    var x, y := Format03d(a), Format03d(b);
    DigitCharOrder(a / 100, b / 100);
    DigitCharOrder(a / 10 % 10, b / 10 % 10);
    DigitCharOrder(a % 10, b % 10);
    ThreeDigitOrder(a, b);
    assert x[1..] == [x[1], x[2]] && y[1..] == [y[1], y[2]];
    assert x[1..][1..] == [x[2]] && y[1..][1..] == [y[2]];
    assert StrLess([x[2]], [y[2]]) <==> x[2] < y[2] by {
      assert [x[2]][1..] == [] && [y[2]][1..] == [];
    }
  }

  /** Names this generator made for indices below 1000 sort like their indices. */
  lemma GeneratedOrderIsNumeric(base: string, ext: string, a: nat, b: nat)
    requires a < 1000 && b < 1000
    ensures StrLess(Name(base, a, ext), Name(base, b, ext)) <==> a < b
  {
    Format03dDigits(a);
    Format03dDigits(b);
    var tail := "." + ext;
    assert Name(base, a, ext) == base + (Format03d(a) + tail);
    assert Name(base, b, ext) == base + (Format03d(b) + tail);
    StrLessCommonPrefix(base, Format03d(a) + tail, Format03d(b) + tail);
    PaddedOrderIsNumeric(a, b);
    if a != b {
      assert Format03d(a) != Format03d(b) by {
        Format03dReadsBack(a);
        Format03dReadsBack(b);
      }
      StrLessEqualLength(Format03d(a), Format03d(b), tail, tail);
    } else {
      StrLessIrreflexive(Name(base, a, ext));
    }
  }

  // ---------------------------------------------------------------- the thousandth frame

  lemma ThousandFormatted()
    ensures Format03d(1000) == "1000" && Format03d(999) == "999"
  {
    assert DigitChar(0) == '0' && DigitChar(1) == '1';
    assert DecimalString(1) == "1";
    assert DecimalString(10) == "10";
    assert DecimalString(100) == "100";
    assert DecimalString(1000) == "1000";
    Format03dDigits(999);
  }

  /** Index 1000 sorts before index 999: '1' < '9'. */
  lemma ThousandSortsFirst(base: string, ext: string)
    ensures StrLess(Name(base, 1000, ext), Name(base, 999, ext))
  {
    ThousandFormatted();
    var tail := "." + ext;
    assert Name(base, 1000, ext) == base + ("1000" + tail);
    assert Name(base, 999, ext) == base + ("999" + tail);
    StrLessCommonPrefix(base, "1000" + tail, "999" + tail);
    assert ("1000" + tail)[0] == '1' && ("999" + tail)[0] == '9';
  }

  lemma GreatestOfPair(a: string, b: string)
    requires !StrLess(a, b)
    ensures Greatest([a, b]) == a
  {
    assert [a, b][..1] == [a];
  }

  /** Both names match the pattern, and the greater of the two under string
      order is the one for index 999. */
  lemma ThousandListing(base: string, ext: string)
    ensures var listing := [Name(base, 999, ext), Name(base, 1000, ext)];
      Existing(listing, base, ext) == listing
    ensures Greatest([Name(base, 999, ext), Name(base, 1000, ext)]) == Name(base, 999, ext)
  {
    var listing := [Name(base, 999, ext), Name(base, 1000, ext)];
    NameMatches(base, 999, ext);
    NameMatches(base, 1000, ext);
    FilterAll(listing, n => Matches(n, base, ext));
    ThousandSortsFirst(base, ext);
    StrLessAsymmetric(Name(base, 1000, ext), Name(base, 999, ext));
    GreatestOfPair(Name(base, 999, ext), Name(base, 1000, ext));
  }

  /** As written, once `frame999.jpg` and `frame1000.jpg` exist the greatest name
      under string order is `frame999.jpg`, so the generator proposes
      `frame1000.jpg` again and the next capture overwrites it (for any
      digit-free base and extension). */
  lemma ReusesNameAfterThousand(base: string, ext: string)
    requires DigitFree(base) && DigitFree(ext)
    ensures var listing := [Name(base, 999, ext), Name(base, 1000, ext)];
      NextFilename(listing, base, ext) == Name(base, 1000, ext) && Name(base, 1000, ext) in listing
  {
    ThousandListing(base, ext);
    DigitsOfName(base, Format03d(999), ext);
    Format03dReadsBack(999);
  }

  /** The largest index read from any matching name (0 when there is none). */
  function MaxIndex(existing: seq<string>): (m: nat)
    ensures forall n :: n in existing ==> DecimalValue(Digits(n)) <= m
  {
    if existing == [] then 0
    else MaxInt(MaxIndex(existing[..|existing| - 1]), DecimalValue(Digits(existing[|existing| - 1])))
  }

  /** The intended generator: one past the largest index under numeric order. */
  function NextFilenameNumeric(listing: seq<string>, base: string, ext: string): (name: string)
    ensures Existing(listing, base, ext) == [] ==> name == Name(base, 1, ext)
  {
    Name(base, MaxIndex(Existing(listing, base, ext)) + 1, ext)
  }

  /** The intended generator never proposes a name already in the listing. */
  lemma NumericNameIsFresh(listing: seq<string>, base: string, ext: string)
    requires DigitFree(base) && DigitFree(ext)
    ensures NextFilenameNumeric(listing, base, ext) !in listing
  {
    var existing := Existing(listing, base, ext);
    var index := MaxIndex(existing) + 1;
    var name := Name(base, index, ext);
    if name in listing {
      NameMatches(base, index, ext);
      assert name in existing;
      DigitsOfName(base, Format03d(index), ext);
      Format03dReadsBack(index);
      assert false;
    }
  }

  /** While every matching name is one this generator made for an index below
      1000, the two generators agree: three-digit zero-padded indices sort the
      same way as strings and as numbers. */
  lemma NumericAgreesBelowThousand(listing: seq<string>, base: string, ext: string, n: nat)
    requires DigitFree(base) && DigitFree(ext) && n < 1000
    requires Name(base, n, ext) in listing
    requires forall m :: m in listing && Matches(m, base, ext) ==> IsGenerated(m, base, ext)
    requires forall k: nat :: k < 1000 && Name(base, k, ext) in listing ==> k <= n
    ensures NextFilenameNumeric(listing, base, ext) == NextFilename(listing, base, ext)
  {
    GeneratedListingBounds(listing, base, ext, n);
    NextAfterGenerated(listing, base, ext, n);
    MaxIndexOfGenerated(listing, base, ext, n);
  }

  lemma MaxIndexOfGenerated(listing: seq<string>, base: string, ext: string, n: nat)
    requires DigitFree(base) && DigitFree(ext)
    requires Name(base, n, ext) in listing
    requires forall m :: m in listing && Matches(m, base, ext) ==> DecimalValue(Digits(m)) <= n
    ensures MaxIndex(Existing(listing, base, ext)) == n
  {
    var existing := Existing(listing, base, ext);
    var name := Name(base, n, ext);
    NameMatches(base, n, ext);
    assert name in existing;
    DigitsOfName(base, Format03d(n), ext);
    Format03dReadsBack(n);
    MaxIndexBounded(existing, n);
  }

  /** A name this generator made for an index below 1000. */
  predicate IsGenerated(name: string, base: string, ext: string) {
    exists k: nat :: k < 1000 && name == Name(base, k, ext)
  }

  lemma GeneratedListingBounds(listing: seq<string>, base: string, ext: string, n: nat)
    requires DigitFree(base) && DigitFree(ext) && n < 1000
    requires forall m :: m in listing && Matches(m, base, ext) ==> IsGenerated(m, base, ext)
    requires forall k: nat :: k < 1000 && Name(base, k, ext) in listing ==> k <= n
    ensures forall m :: m in listing && Matches(m, base, ext) ==>
      !StrLess(Name(base, n, ext), m) && DecimalValue(Digits(m)) <= n
  {
    forall m | m in listing && Matches(m, base, ext)
      ensures !StrLess(Name(base, n, ext), m) && DecimalValue(Digits(m)) <= n
    {
      assert IsGenerated(m, base, ext);
      var k: nat :| k < 1000 && m == Name(base, k, ext);
      GeneratedOrderIsNumeric(base, ext, n, k);
      DigitsOfName(base, Format03d(k), ext);
      Format03dReadsBack(k);
    }
  }

  /** The largest index is the index of some listed name. */
  lemma {:induction false} MaxIndexAttained(existing: seq<string>)
    requires existing != []
    ensures exists n :: n in existing && DecimalValue(Digits(n)) == MaxIndex(existing)
  {
    var init, last := existing[..|existing| - 1], existing[|existing| - 1];
    assert MaxIndex(existing) == MaxInt(MaxIndex(init), DecimalValue(Digits(last)));
    if DecimalValue(Digits(last)) >= MaxIndex(init) {
      assert last in existing;
    } else {
      MaxIndexAttained(init);
      var n :| n in init && DecimalValue(Digits(n)) == MaxIndex(init);
      assert n in existing;
    }
  }

  lemma {:induction false} MaxIndexBounded(existing: seq<string>, bound: nat)
    requires forall m :: m in existing ==> DecimalValue(Digits(m)) <= bound
    ensures MaxIndex(existing) <= bound
  {
    if existing != [] {
      var init := existing[..|existing| - 1];
      assert forall m :: m in init ==> m in existing;
      MaxIndexBounded(init, bound);
    }
  }
}

=== FILE: common.dfy ===
/** Helpers shared by every module of the model: Python's failure kinds, the
    numeric conversions Python applies to floats, and an order-preserving filter. */
module Common {

  datatype Option<+T> = None | Some(value: T)

  /** The Python exceptions the modelled code can raise. */
  datatype PyError =
    | ValueError
    | KeyError
    | IndexError
    | TypeError
    | FileNotFoundError
    | OverflowError

  /** Either a value or the exception that interrupted the computation. */
  datatype Result<+T> = Ok(value: T) | Err(error: PyError)

  function AbsReal(x: real): (r: real)
    ensures r >= 0.0 && (r == x || r == -x)
  {
    if x < 0.0 then -x else x
  }

  function AbsInt(x: int): (r: nat)
    ensures r == x || r == -x
  {
    if x < 0 then -x else x
  }

  function MaxInt(a: int, b: int): (r: int)
    ensures r >= a && r >= b && (r == a || r == b)
  {
    if a < b then b else a
  }

  /** Python's `int(x)` on a float: truncation toward zero. */
  function Trunc(x: real): (r: int)
    ensures 0.0 <= x ==> r as real <= x < r as real + 1.0
    ensures x < 0.0 ==> r as real - 1.0 < x <= r as real
  {
    if x >= 0.0 then x.Floor else -((-x).Floor)
  }

  lemma TruncOfInt(n: int)
    ensures Trunc(n as real) == n
  {
  }

  /** Python's `round(x)` on a float: the nearest integer, halves to the even neighbour. */
  function RoundHalfEven(x: real): (r: int)
    ensures -0.5 <= r as real - x <= 0.5
    ensures (r as real - x == 0.5 || x - r as real == 0.5) ==> r % 2 == 0
  {
    var f := x.Floor;
    var frac := x - f as real;
    if frac < 0.5 then f
    else if frac > 0.5 then f + 1
    else if f % 2 == 0 then f
    else f + 1
  }

  /** Python's `str.isdigit` on one character, for the ASCII digits the modelled
      strings can contain. */
  predicate IsDigit(c: char) {
    '0' <= c <= '9'
  }

  /** The elements of `s` that satisfy `keep`, in their original order
      (a Python list comprehension with an `if`, or a loop that appends). */
  function Filter<T>(s: seq<T>, keep: T -> bool): (r: seq<T>)
    ensures |r| <= |s|
  {
    if s == [] then []
    else Filter(s[..|s| - 1], keep) + (if keep(s[|s| - 1]) then [s[|s| - 1]] else [])
  }

  /** The positions of `s` whose elements `keep` selects, in increasing order. */
  function KeptIndices<T>(s: seq<T>, keep: T -> bool): (r: seq<nat>)
    ensures forall k :: 0 <= k < |r| ==> r[k] < |s|
  {
    if s == [] then []
    else KeptIndices(s[..|s| - 1], keep) + (if keep(s[|s| - 1]) then [|s| - 1] else [])
  }

  /** Filter keeps exactly the elements that `keep` selects, each once, in input order. */
  lemma FilterIsOrderedSelection<T>(s: seq<T>, keep: T -> bool)
    ensures |Filter(s, keep)| == |KeptIndices(s, keep)|
    ensures forall k :: 0 <= k < |Filter(s, keep)| ==>
      Filter(s, keep)[k] == s[KeptIndices(s, keep)[k]]
    ensures forall k, l :: 0 <= k < l < |KeptIndices(s, keep)| ==>
      KeptIndices(s, keep)[k] < KeptIndices(s, keep)[l]
    ensures forall i :: 0 <= i < |s| ==> (keep(s[i]) <==> i in KeptIndices(s, keep))
  {
    FilterAtKeptIndices(s, keep);
    KeptIndicesIncrease(s, keep);
    KeptIndicesExact(s, keep);
  }

  lemma {:induction false} FilterAtKeptIndices<T>(s: seq<T>, keep: T -> bool)
    ensures |Filter(s, keep)| == |KeptIndices(s, keep)|
    ensures forall k :: 0 <= k < |Filter(s, keep)| ==>
      Filter(s, keep)[k] == s[KeptIndices(s, keep)[k]]
  {
    if s != [] {
      var init := s[..|s| - 1];
      FilterAtKeptIndices(init, keep);
      var f, ks := Filter(init, keep), KeptIndices(init, keep);
      forall k | 0 <= k < |f|
        ensures Filter(s, keep)[k] == s[KeptIndices(s, keep)[k]]
      {
        assert Filter(s, keep)[k] == f[k] && KeptIndices(s, keep)[k] == ks[k];
        assert init[ks[k]] == s[ks[k]];
      }
    }
  }

  lemma {:induction false} KeptIndicesIncrease<T>(s: seq<T>, keep: T -> bool)
    ensures forall k, l :: 0 <= k < l < |KeptIndices(s, keep)| ==>
      KeptIndices(s, keep)[k] < KeptIndices(s, keep)[l]
  {
    if s != [] {
      KeptIndicesIncrease(s[..|s| - 1], keep);
    }
  }

  lemma {:induction false} KeptIndicesExact<T>(s: seq<T>, keep: T -> bool)
    ensures forall i :: 0 <= i < |s| ==> (keep(s[i]) <==> i in KeptIndices(s, keep))
  {
    if s != [] {
      var init := s[..|s| - 1];
      KeptIndicesExact(init, keep);
      var ks := KeptIndices(init, keep);
      var last: seq<nat> := if keep(s[|s| - 1]) then [|s| - 1] else [];
      assert KeptIndices(s, keep) == ks + last;
      forall i | 0 <= i < |s|
        ensures keep(s[i]) <==> i in ks + last
      {
        assert i in ks + last <==> i in ks || i in last;
        if i < |init| {
          assert init[i] == s[i];
          assert i !in last;
        } else {
          assert i !in ks;
        }
      }
    }
  }

  /** Nothing is kept when nothing satisfies `keep`. */
  lemma {:induction false} FilterNone<T>(s: seq<T>, keep: T -> bool)
    requires forall i :: 0 <= i < |s| ==> !keep(s[i])
    ensures Filter(s, keep) == []
  {
    if s != [] {
      FilterNone(s[..|s| - 1], keep);
    }
  }

  /** Appending one element extends the filtered sequence by that element iff it is kept. */
  lemma FilterSnoc<T>(s: seq<T>, x: T, keep: T -> bool)
    ensures Filter(s + [x], keep) == Filter(s, keep) + (if keep(x) then [x] else [])
  {
    assert (s + [x])[..|s + [x]| - 1] == s;
  }

  /** Filter distributes over concatenation. */
  lemma {:induction false} FilterAppend<T>(s: seq<T>, t: seq<T>, keep: T -> bool)
    ensures Filter(s + t, keep) == Filter(s, keep) + Filter(t, keep)
    decreases |t|
  {
    if t == [] {
      assert s + t == s;
    } else {
      var init, x := t[..|t| - 1], t[|t| - 1];
      var last := if keep(x) then [x] else [];
      calc {
        Filter(s + t, keep);
        { assert s + t == (s + init) + [x]; }
        Filter((s + init) + [x], keep);
        { FilterSnoc(s + init, x, keep); }
        Filter(s + init, keep) + last;
        { FilterAppend(s, init, keep); }
        (Filter(s, keep) + Filter(init, keep)) + last;
        Filter(s, keep) + (Filter(init, keep) + last);
        { FilterSnoc(init, x, keep); assert init + [x] == t; }
        Filter(s, keep) + Filter(t, keep);
      }
    }
  }

  /** Nothing is dropped when everything satisfies `keep`. */
  lemma {:induction false} FilterAll<T>(s: seq<T>, keep: T -> bool)
    requires forall i :: 0 <= i < |s| ==> keep(s[i])
    ensures Filter(s, keep) == s
  {
    if s != [] {
      FilterAll(s[..|s| - 1], keep);
    }
  }

  /** `f` applied to every element of `s`, in order. */
  function Map<A, B>(s: seq<A>, f: A -> B): (r: seq<B>)
    ensures |r| == |s|
    ensures forall i :: 0 <= i < |s| ==> r[i] == f(s[i])
  {
    seq(|s|, i requires 0 <= i < |s| => f(s[i]))
  }

  /** Mapping one element more of a prefix appends that element's image. */
  lemma MapPrefixSnoc<A, B>(s: seq<A>, i: nat, f: A -> B)
    requires i < |s|
    ensures Map(s[..i + 1], f) == Map(s[..i], f) + [f(s[i])]
  {
    var before, after := Map(s[..i], f), Map(s[..i + 1], f);
    forall k | 0 <= k < |after|
      ensures after[k] == (before + [f(s[i])])[k]
    {
      assert s[..i + 1][k] == s[k];
    }
  }

  /** `f` applied to every element of `s`, the results concatenated in order
      (a loop that extends one list by what each element contributes). */
  function FlatMap<A, B>(s: seq<A>, f: A -> seq<B>): seq<B> {
    if s == [] then [] else FlatMap(s[..|s| - 1], f) + f(s[|s| - 1])
  }

  lemma FlatMapSnoc<A, B>(s: seq<A>, x: A, f: A -> seq<B>)
    ensures FlatMap(s + [x], f) == FlatMap(s, f) + f(x)
  {
    assert (s + [x])[..|s|] == s;
  }

  lemma InAppend<T>(x: T, s: seq<T>, t: seq<T>)
    ensures x in s + t <==> x in s || x in t
  {
  }

  /** Moving one element from a work set to a done set keeps their union and
      keeps them disjoint. */
  lemma MoveElement<T>(todo: set<T>, done: set<T>, x: T)
    requires x in todo && todo !! done
    ensures (todo - {x}) + (done + {x}) == todo + done && (todo - {x}) !! (done + {x})
  {
  }

  /** FlatMap distributes over concatenation. */
  lemma {:induction false} FlatMapAppend<A, B>(s: seq<A>, t: seq<A>, f: A -> seq<B>)
    ensures FlatMap(s + t, f) == FlatMap(s, f) + FlatMap(t, f)
    decreases |t|
  {
    if t == [] {
      assert s + t == s;
    } else {
      var init, x := t[..|t| - 1], t[|t| - 1];
      calc {
        FlatMap(s + t, f);
        { assert s + t == (s + init) + [x]; }
        FlatMap((s + init) + [x], f);
        { FlatMapSnoc(s + init, x, f); }
        FlatMap(s + init, f) + f(x);
        { FlatMapAppend(s, init, f); }
        (FlatMap(s, f) + FlatMap(init, f)) + f(x);
        FlatMap(s, f) + (FlatMap(init, f) + f(x));
        { FlatMapSnoc(init, x, f); assert init + [x] == t; }
        FlatMap(s, f) + FlatMap(t, f);
      }
    }
  }
}

=== FILE: distance_controller.dfy ===
/** `DistanceMotorController` of auto_typing/motor_control/distance_controller.py.
    `move` validates the direction, signs the duty cycle and asks the motion model
    for a duration; the repeated `controller.run(duty, feedforward)` calls for that
    many seconds are what `MovePlan` describes. The motor driver and the
    wall-clock loop that repeats the command are not modelled. */
module DistanceController {
  import opened Common
  import opened MotionModel

  const DefaultChannel: int := 2
  const DefaultFeedforward: int := 50

  /** The controller's fields: the CAN channel of its driver, its motion model and
      the feedforward (ms) passed with every command. None changes after
      construction. */
  datatype DistanceMotorController = DistanceMotorController(
    channel: int, model: MotorMotionModel, feedforward: int)

  /** What `move` sends: `controller.run(duty, feedforward)`, repeated for
      `duration` seconds. */
  datatype MovePlan = MovePlan(duty: real, feedforward: int, duration: real)

  /** `DistanceMotorController(channel, default_feedforward)`. */
  function NewDistanceMotorController(channel: int, defaultFeedforward: int): (c: DistanceMotorController)
    ensures c.model == NewMotorMotionModel() && c.feedforward == defaultFeedforward
  {
    DistanceMotorController(channel, NewMotorMotionModel(), defaultFeedforward)
  }

  predicate IsDirection(direction: string) {
    direction == "left" || direction == "right"
  }

  /** `move(direction, distance_mm, duty)`: ValueError for any direction other
      than 'left' or 'right', raised before anything is sent; otherwise the duty
      keeps its magnitude and takes the sign of the direction (negative for
      left), and the duration is the model's time to travel. */
  function Move(c: DistanceMotorController, direction: string, distanceMm: real, duty: real): (r: Result<MovePlan>)
    ensures !IsDirection(direction) ==> r == Err(ValueError)
    ensures IsDirection(direction) ==>
      (r.Ok? <==> EstimateTimeToTravel(c.model, direction, distanceMm).Ok?)
    ensures r.Err? && IsDirection(direction) ==>
      r.error == EstimateTimeToTravel(c.model, direction, distanceMm).error
    ensures r.Ok? ==> Ok(r.value.duration) == EstimateTimeToTravel(c.model, direction, distanceMm)
    ensures r.Ok? ==> AbsReal(r.value.duty) == AbsReal(duty) && r.value.feedforward == c.feedforward
    ensures r.Ok? && direction == "left" ==> r.value.duty <= 0.0
    ensures r.Ok? && direction == "right" ==> r.value.duty >= 0.0
  {
    if !IsDirection(direction) then Err(ValueError)
    else
      var signedDuty := if direction == "left" then -AbsReal(duty) else AbsReal(duty);
      match EstimateTimeToTravel(c.model, direction, distanceMm)
      case Err(e) => Err(e)
      case Ok(duration) => Ok(MovePlan(signedDuty, c.feedforward, duration))
  }

  /** With the measured model a move fails only for a bad direction, and the two
      directions drive the motor with opposite duties of the same magnitude. */
  lemma MeasuredMoves(channel: int, feedforward: int, distanceMm: real, duty: real)
    ensures forall direction :: (IsDirection(direction) <==>
      Move(NewDistanceMotorController(channel, feedforward), direction, distanceMm, duty).Ok?)
    ensures Move(NewDistanceMotorController(channel, feedforward), "left", distanceMm, duty).value.duty
      == -Move(NewDistanceMotorController(channel, feedforward), "right", distanceMm, duty).value.duty
  {
    forall direction
      ensures Move(NewDistanceMotorController(channel, feedforward), direction, distanceMm, duty).Ok?
        <==> IsDirection(direction)
    {
      MeasuredDirections(direction, distanceMm);
    }
    MeasuredDirections("left", distanceMm);
    MeasuredDirections("right", distanceMm);
  }

  /** With the measured model, a leftward move is given a positive duration only
      beyond the left fit's intercept and a rightward one only short of the right
      fit's intercept; other distances get a duration of zero or less. */
  lemma MeasuredDurationSign(channel: int, feedforward: int, distanceMm: real, duty: real)
    ensures Move(NewDistanceMotorController(channel, feedforward), "left", distanceMm, duty).value.duration > 0.0
      <==> distanceMm > 12.749577693557118
    ensures Move(NewDistanceMotorController(channel, feedforward), "right", distanceMm, duty).value.duration > 0.0
      <==> distanceMm < 35.807557344064385
  {
    MeasuredDirections("left", distanceMm);
    MeasuredDirections("right", distanceMm);
    QuotientSign(distanceMm - 12.749577693557118, 2.523876556578235);
    QuotientSign(35.807557344064385 - distanceMm, 0.9399657947686118);
    assert (distanceMm - 35.807557344064385) / -0.9399657947686118
      == (35.807557344064385 - distanceMm) / 0.9399657947686118;
  }

  lemma QuotientSign(x: real, s: real)
    requires s > 0.0
    ensures x / s > 0.0 <==> x > 0.0
  {
    if x > 0.0 {
      assert x / s * s == x;
    }
  }
}

=== FILE: legacy_localizer.dfy ===
/** The older `Phase1KeyboardLocalization` in phase1_keyboard_localization.py:
    the same operations as the configurable localizer with the ratio threshold
    0.75, the confidence cutoff 60 and the placeholder focal length and baseline
    1.0 written into the code, and a camera matrix that stays None unless the
    caller passes one. Its `compute_keyboard_pose` (lines 76-83) is the same
    code as the configurable one and is modelled by `Localizer.ComputeKeyboardPose`. */
module LegacyLocalizer {
  import opened Common
  import opened Pinhole
  import opened Localizer

  const RatioThreshold: real := 0.75
  const MinConfidence: real := 60.0
  const PlaceholderFocalLength: real := 1.0
  const PlaceholderBaseline: real := 1.0

  /** An instance: only the optional camera matrix given to `__init__`. */
  datatype LegacyKeyboardLocalization = LegacyKeyboardLocalization(cameraMatrix: Option<Mat3>)

  /** `__init__(camera_matrix=None)`. */
  function Create(cameraMatrix: Option<Mat3>): (loc: LegacyKeyboardLocalization)
    ensures loc.cameraMatrix == cameraMatrix
  {
    LegacyKeyboardLocalization(cameraMatrix)
  }

  /** `match_features`: the loop that appends every first neighbour passing the
      0.75 ratio test; it computes the configurable comprehension with ratio 0.75. */
  method MatchFeatures(rows: seq<seq<DMatch>>) returns (r: Result<seq<DMatch>>)
    ensures r == GoodMatches(rows, RatioThreshold)
  {
    var good: seq<DMatch> := [];
    var i := 0;
    assert rows[..0] == [];
    while i < |rows|
      invariant 0 <= i <= |rows|
      invariant GoodMatches(rows[..i], RatioThreshold) == Ok(good)
    {
      var row := rows[i];
      if |row| != 2 {
        MalformedRowRaises(rows, i, RatioThreshold);
        return Err(ValueError);
      }
      var m, n := row[0], row[1];
      GoodMatchesStep(rows, i, RatioThreshold);
      if m.distance < RatioThreshold * n.distance {
        good := good + [m];
      } else {
        assert good + [] == good;
      }
      i := i + 1;
    }
    assert rows[..i] == rows;
    r := Ok(good);
  }

  /** `estimate_depth_map` with the placeholders f = B = 1.0: each depth is the
      reciprocal of the guarded disparity. */
  function EstimateDepthMap(disparity: seq<seq<int>>): (depth: seq<seq<real>>)
    ensures |depth| == |disparity|
    ensures forall i :: 0 <= i < |disparity| ==> |depth[i]| == |disparity[i]|
    ensures forall i, j :: 0 <= i < |disparity| && 0 <= j < |disparity[i]| ==>
      depth[i][j] * (disparity[i][j] as real + Eps) == 1.0
  {
    Localizer.EstimateDepthMap(disparity, PlaceholderFocalLength, PlaceholderBaseline)
  }

  /** `compute_3d_points_from_text` with the cutoff 60 and the instance's camera matrix. */
  method Compute3DPointsFromText(loc: LegacyKeyboardLocalization, boxes: seq<TextBox>, depth: seq<seq<real>>)
    returns (r: Result<seq<Point3>>)
    requires loc.cameraMatrix.Some? ==> loc.cameraMatrix.value.HasFocalLengths()
    ensures r == PointsFromText(boxes, depth, MinConfidence, loc.cameraMatrix)
  {
    r := CollectFromText(boxes, depth, MinConfidence, loc.cameraMatrix);
  }

  /** With the default camera matrix (None) the method succeeds exactly when no
      box has a confidence above 60, and then returns no point: the matrix is
      only read for a confident box. */
  lemma DefaultCameraOnlyWithoutConfidentBoxes(boxes: seq<TextBox>, depth: seq<seq<real>>)
    ensures PointsFromText(boxes, depth, MinConfidence, None).Ok? <==>
      forall i :: 0 <= i < |boxes| ==> Trunc(boxes[i].conf) as real <= MinConfidence
    ensures PointsFromText(boxes, depth, MinConfidence, None).Ok? ==>
      PointsFromText(boxes, depth, MinConfidence, None).value == []
  {
    var keep := Confident(MinConfidence);
    var kept := Filter(boxes, keep);
    FilterIsOrderedSelection(boxes, keep);
    if CollectPoints(kept, depth, None).Ok? {
      CollectPointsAt(kept, depth, None);
      if |kept| > 0 {
        assert false;
      }
      assert |KeptIndices(boxes, keep)| == 0;
    } else if forall i :: 0 <= i < |boxes| ==> Trunc(boxes[i].conf) as real <= MinConfidence {
      NoConfidentBoxesGiveNoPoints(boxes, depth, MinConfidence, None);
    }
  }
}

=== FILE: localizer.dfy ===
/** The configurable keyboard localizer, `Phase1KeyboardLocalization` in
    auto_typing/phase1/localizer.py. ORB, FLANN, StereoBM, tesseract and RANSAC are
    not modelled: their outputs (knn match rows, disparities, OCR boxes, plane
    coefficients) are the inputs of the operations below. */
module Localizer {
  import opened Common
  import opened Pinhole

  // ---------------------------------------------------------------- construction

  /** The `calibration` section of the configuration. */
  datatype CalibrationSection = CalibrationSection(loadFromFile: Option<bool>)

  /** The configuration values the localizer reads. */
  datatype Config = Config(
    calibration: Option<CalibrationSection>,
    focalLength: real,
    baseline: real,
    ratioTestThreshold: real,
    minConfidence: real)

  /** A constructed localizer: its configuration and camera matrix. */
  datatype Phase1KeyboardLocalization = Phase1KeyboardLocalization(config: Config, cameraMatrix: Mat3)

  /** `config.get('calibration', {}).get('load_from_file', False)`. */
  predicate LoadsFromFile(config: Config) {
    config.calibration.Some? && config.calibration.value.loadFromFile == Some(true)
  }

  /** The fallback intrinsics `[[f, 0, 320], [0, f, 240], [0, 0, 1]]`. */
  function DefaultCameraMatrix(f: real): (k: Mat3)
    ensures k.Fx() == f && k.Fy() == f && k.Cx() == 320.0 && k.Cy() == 240.0
    ensures k.m01 == k.m10 == k.m20 == k.m21 == 0.0 && k.m22 == 1.0
  {
    Mat3(f, 0.0, 320.0, 0.0, f, 240.0, 0.0, 0.0, 1.0)
  }

  /** `__init__`. `calibFile` is the camera matrix stored in the calibration file,
      or None when that file does not exist. */
  function Create(config: Config, calibFile: Option<Mat3>): (r: Result<Phase1KeyboardLocalization>)
    ensures LoadsFromFile(config) && calibFile.None? <==> r == Err(FileNotFoundError)
    ensures r.Ok? ==> r.value.config == config
    ensures LoadsFromFile(config) && calibFile.Some? ==> r.Ok? && r.value.cameraMatrix == calibFile.value
    ensures !LoadsFromFile(config) ==> r.Ok? && r.value.cameraMatrix == DefaultCameraMatrix(config.focalLength)
  {
    if LoadsFromFile(config) then
      if calibFile.None? then Err(FileNotFoundError)
      else Ok(Phase1KeyboardLocalization(config, calibFile.value))
    else Ok(Phase1KeyboardLocalization(config, DefaultCameraMatrix(config.focalLength)))
  }

  /** Without `load_from_file` the principal point is fixed at (320, 240),
      whatever the image size. */
  lemma FallbackPrincipalPoint(config: Config, calibFile: Option<Mat3>)
    requires !LoadsFromFile(config)
    ensures Create(config, calibFile).Ok?
    ensures Create(config, calibFile).value.cameraMatrix.Cx() == 320.0
    ensures Create(config, calibFile).value.cameraMatrix.Cy() == 240.0
  {
  }

  // ---------------------------------------------------------------- feature matching

  /** One match found by `knnMatch`: the descriptor distance is all the ratio test reads. */
  datatype DMatch = DMatch(queryIdx: int, trainIdx: int, distance: real)

  /** `for m, n in matches`: every knn row must unpack into exactly two matches,
      otherwise Python raises ValueError. */
  function UnpackPairs(rows: seq<seq<DMatch>>): (r: Result<seq<(DMatch, DMatch)>>)
    ensures r.Err? ==> r.error == ValueError
    ensures r.Ok? ==> |r.value| == |rows|
  {
    if rows == [] then Ok([])
    else
      match UnpackPairs(rows[..|rows| - 1])
      case Err(e) => Err(e)
      case Ok(pairs) =>
        var last := rows[|rows| - 1];
        if |last| != 2 then Err(ValueError) else Ok(pairs + [(last[0], last[1])])
  }

  /** Unpacking succeeds exactly when every row holds two matches, and then
      pairs each row's best and second-best neighbour. */
  lemma {:induction false} UnpackPairsExact(rows: seq<seq<DMatch>>)
    ensures UnpackPairs(rows).Ok? <==> forall i :: 0 <= i < |rows| ==> |rows[i]| == 2
    ensures UnpackPairs(rows).Ok? ==>
      forall i :: 0 <= i < |rows| ==> UnpackPairs(rows).value[i] == (rows[i][0], rows[i][1])
  {
    if rows != [] {
      var init := rows[..|rows| - 1];
      UnpackPairsExact(init);
      assert forall i :: 0 <= i < |init| ==> init[i] == rows[i];
    }
  }

  /** Lowe's ratio test with a strict comparison. */
  predicate PassesRatio(pair: (DMatch, DMatch), ratio: real) {
    pair.0.distance < ratio * pair.1.distance
  }

  function RatioTest(ratio: real): ((DMatch, DMatch)) -> bool {
    pair => PassesRatio(pair, ratio)
  }

  function Firsts(pairs: seq<(DMatch, DMatch)>): (ms: seq<DMatch>)
    ensures |ms| == |pairs| && forall i :: 0 <= i < |pairs| ==> ms[i] == pairs[i].0
  {
    seq(|pairs|, i requires 0 <= i < |pairs| => pairs[i].0)
  }

  lemma FirstsAppend(a: seq<(DMatch, DMatch)>, b: seq<(DMatch, DMatch)>)
    ensures Firsts(a + b) == Firsts(a) + Firsts(b)
  {
  }

  /** `[m for m, n in matches if m.distance < ratio_thresh * n.distance]`. */
  function GoodMatches(rows: seq<seq<DMatch>>, ratio: real): (r: Result<seq<DMatch>>)
    ensures r.Err? <==> UnpackPairs(rows).Err?
    ensures r.Err? ==> r.error == ValueError
    ensures r.Ok? ==> |r.value| <= |rows|
  {
    match UnpackPairs(rows)
    case Err(e) => Err(e)
    case Ok(pairs) => Ok(Firsts(Filter(pairs, RatioTest(ratio))))
  }

  /** A knn row that has two neighbours and passes the ratio test. */
  predicate RowPasses(row: seq<DMatch>, ratio: real) {
    |row| >= 2 && row[0].distance < ratio * row[1].distance
  }

  /** The ratio test as evidently intended: a row with fewer than two
      neighbours is skipped instead of aborting the whole comprehension. */
  function GoodMatchesSkippingShortRows(rows: seq<seq<DMatch>>, ratio: real): (good: seq<DMatch>)
    ensures |good| <= |rows|
  {
    if rows == [] then []
    else
      var last := rows[|rows| - 1];
      GoodMatchesSkippingShortRows(rows[..|rows| - 1], ratio)
        + (if RowPasses(last, ratio) then [last[0]] else [])
  }

  /** The positions of the rows that pass, in increasing order. */
  ghost function PassingRows(rows: seq<seq<DMatch>>, ratio: real): (idx: seq<nat>)
    ensures forall k :: 0 <= k < |idx| ==> idx[k] < |rows|
  {
    if rows == [] then []
    else
      PassingRows(rows[..|rows| - 1], ratio)
        + (if RowPasses(rows[|rows| - 1], ratio) then [|rows| - 1] else [])
  }

  /** The passing positions are increasing and are exactly the rows that pass. */
  lemma {:induction false} PassingRowsExact(rows: seq<seq<DMatch>>, ratio: real)
    ensures forall k, l :: 0 <= k < l < |PassingRows(rows, ratio)| ==>
      PassingRows(rows, ratio)[k] < PassingRows(rows, ratio)[l]
    ensures forall i :: 0 <= i < |rows| ==> (RowPasses(rows[i], ratio) <==> i in PassingRows(rows, ratio))
  {
    if rows != [] {
      var init := rows[..|rows| - 1];
      PassingRowsExact(init, ratio);
      assert forall i :: 0 <= i < |init| ==> init[i] == rows[i];
    }
  }

  /** The corrected ratio test keeps the first neighbour of each passing row. */
  lemma {:induction false} SkippingShortRowsSelects(rows: seq<seq<DMatch>>, ratio: real)
    ensures |GoodMatchesSkippingShortRows(rows, ratio)| == |PassingRows(rows, ratio)|
    ensures forall k :: 0 <= k < |PassingRows(rows, ratio)| ==>
      RowPasses(rows[PassingRows(rows, ratio)[k]], ratio) &&
      GoodMatchesSkippingShortRows(rows, ratio)[k] == rows[PassingRows(rows, ratio)[k]][0]
  {
    if rows != [] {
      var init := rows[..|rows| - 1];
      SkippingShortRowsSelects(init, ratio);
      var good, idx := GoodMatchesSkippingShortRows(rows, ratio), PassingRows(rows, ratio);
      var good0, idx0 := GoodMatchesSkippingShortRows(init, ratio), PassingRows(init, ratio);
      forall k | 0 <= k < |idx|
        ensures RowPasses(rows[idx[k]], ratio) && good[k] == rows[idx[k]][0]
      {
        if k < |idx0| {
          assert idx[k] == idx0[k] && good[k] == good0[k];
          assert init[idx0[k]] == rows[idx[k]];
        }
      }
    }
  }

  /** The corrected ratio test never fails and keeps the first neighbour of
      exactly the rows that have two neighbours and pass, in input order. */
  lemma SkippingShortRowsKeepsExactly(rows: seq<seq<DMatch>>, ratio: real)
    ensures |GoodMatchesSkippingShortRows(rows, ratio)| == |PassingRows(rows, ratio)|
    ensures forall k :: 0 <= k < |PassingRows(rows, ratio)| ==>
      RowPasses(rows[PassingRows(rows, ratio)[k]], ratio) &&
      GoodMatchesSkippingShortRows(rows, ratio)[k] == rows[PassingRows(rows, ratio)[k]][0]
    ensures forall k, l :: 0 <= k < l < |PassingRows(rows, ratio)| ==>
      PassingRows(rows, ratio)[k] < PassingRows(rows, ratio)[l]
    ensures forall i :: 0 <= i < |rows| ==> (RowPasses(rows[i], ratio) <==> i in PassingRows(rows, ratio))
  {
    SkippingShortRowsSelects(rows, ratio);
    PassingRowsExact(rows, ratio);
  }

  /** Whenever the code as written succeeds, it returns what the corrected
      ratio test returns. */
  lemma {:induction false} SkippingShortRowsAgrees(rows: seq<seq<DMatch>>, ratio: real)
    requires GoodMatches(rows, ratio).Ok?
    ensures GoodMatches(rows, ratio).value == GoodMatchesSkippingShortRows(rows, ratio)
  {
    if rows != [] {
      var init, last := rows[..|rows| - 1], rows[|rows| - 1];
      UnpackPairsSnoc(rows);
      var initPairs := UnpackPairs(init).value;
      var p := (last[0], last[1]);
      var tail := if PassesRatio(p, ratio) then [p] else [];
      SkippingShortRowsAgrees(init, ratio);
      calc {
        GoodMatches(rows, ratio).value;
        Firsts(Filter(initPairs + [p], RatioTest(ratio)));
        { FilterSnoc(initPairs, p, RatioTest(ratio)); }
        Firsts(Filter(initPairs, RatioTest(ratio)) + tail);
        { FirstsAppend(Filter(initPairs, RatioTest(ratio)), tail); }
        Firsts(Filter(initPairs, RatioTest(ratio))) + Firsts(tail);
        GoodMatchesSkippingShortRows(init, ratio) + Firsts(tail);
        { assert RowPasses(last, ratio) <==> PassesRatio(p, ratio); }
        GoodMatchesSkippingShortRows(rows, ratio);
      }
    }
  }

  /** Unpacking that succeeds on a list of rows succeeds on all but the last and
      then appends the last row's pair. */
  lemma UnpackPairsSnoc(rows: seq<seq<DMatch>>)
    requires rows != [] && UnpackPairs(rows).Ok?
    ensures UnpackPairs(rows[..|rows| - 1]).Ok? && |rows[|rows| - 1]| == 2
    ensures UnpackPairs(rows).value
      == UnpackPairs(rows[..|rows| - 1]).value + [(rows[|rows| - 1][0], rows[|rows| - 1][1])]
  {
  }

  /** `match_features` keeps the first neighbour of exactly the rows whose best
      distance is strictly below `ratio` times the second-best, in input order;
      a row at the boundary is dropped. */
  lemma MatchFeaturesKeepsExactly(rows: seq<seq<DMatch>>, ratio: real)
    requires forall i :: 0 <= i < |rows| ==> |rows[i]| == 2
    ensures GoodMatches(rows, ratio).Ok?
    ensures |GoodMatches(rows, ratio).value| == |PassingRows(rows, ratio)|
    ensures forall k :: 0 <= k < |PassingRows(rows, ratio)| ==>
      GoodMatches(rows, ratio).value[k] == rows[PassingRows(rows, ratio)[k]][0]
    ensures forall k, l :: 0 <= k < l < |PassingRows(rows, ratio)| ==>
      PassingRows(rows, ratio)[k] < PassingRows(rows, ratio)[l]
    ensures forall i :: 0 <= i < |rows| ==>
      (rows[i][0].distance < ratio * rows[i][1].distance <==> i in PassingRows(rows, ratio))
  {
    UnpackPairsExact(rows);
    SkippingShortRowsAgrees(rows, ratio);
    SkippingShortRowsKeepsExactly(rows, ratio);
  }

  /** A row that does not hold exactly two matches makes the whole comprehension
      raise ValueError, wherever it occurs. */
  lemma MalformedRowRaises(rows: seq<seq<DMatch>>, i: nat, ratio: real)
    requires i < |rows| && |rows[i]| != 2
    ensures GoodMatches(rows, ratio) == Err(ValueError)
  {
    UnpackPairsExact(rows);
  }

  /** One more well-formed row extends the good matches by its first neighbour
      exactly when that row passes the ratio test. */
  lemma GoodMatchesStep(rows: seq<seq<DMatch>>, i: nat, ratio: real)
    requires i < |rows| && |rows[i]| == 2
    requires GoodMatches(rows[..i], ratio).Ok?
    ensures GoodMatches(rows[..i + 1], ratio) == Ok(GoodMatches(rows[..i], ratio).value
      + (if rows[i][0].distance < ratio * rows[i][1].distance then [rows[i][0]] else []))
  {
    var prefix := rows[..i + 1];
    assert prefix[..|prefix| - 1] == rows[..i];
    assert prefix[|prefix| - 1] == rows[i];
    var pairs := UnpackPairs(rows[..i]).value;
    var pair := (rows[i][0], rows[i][1]);
    assert UnpackPairs(prefix) == Ok(pairs + [pair]);
    FilterSnoc(pairs, pair, RatioTest(ratio));
    var tail := if PassesRatio(pair, ratio) then [pair] else [];
    FirstsAppend(Filter(pairs, RatioTest(ratio)), tail);
    assert GoodMatches(prefix, ratio) == Ok(Firsts(Filter(pairs, RatioTest(ratio))) + Firsts(tail));
    assert GoodMatches(rows[..i], ratio) == Ok(Firsts(Filter(pairs, RatioTest(ratio))));
    assert Firsts(tail) == (if PassesRatio(pair, ratio) then [rows[i][0]] else []);
  }

  /** A row exactly at the ratio boundary is dropped. */
  lemma RatioBoundaryDropped(m: DMatch, n: DMatch, ratio: real)
    requires m.distance == ratio * n.distance
    ensures GoodMatches([[m, n]], ratio) == Ok([])
  {
    var rows := [[m, n]];
    assert rows[..0] == [];
    assert UnpackPairs(rows[..0]) == Ok([]);
    assert rows[0] == [m, n] && |rows[0]| == 2;
    assert UnpackPairs(rows) == Ok([] + [(m, n)]);
    assert [(m, n)][..0] == [];
    assert Filter([(m, n)], RatioTest(ratio)) == [];
  }

  /** Finding: a knn row with a single neighbour (FLANN returns fewer than k
      neighbours when it cannot find two) makes the unpacking raise ValueError. */
  lemma SingleNeighbourRowRaises(m: DMatch, ratio: real)
    ensures GoodMatches([[m]], ratio) == Err(ValueError)
  {
    assert [[m]][..0] == [];
  }

  // ---------------------------------------------------------------- stereo depth

  /** The `1e-6` guard added to every disparity. */
  const Eps: real := 0.000001

  /** `(focal_length * baseline) / (disparity + 1e-6)` elementwise. StereoBM
      disparities are 16-bit integers, so the divisor is never zero. */
  function EstimateDepthMap(disparity: seq<seq<int>>, focalLength: real, baseline: real): (depth: seq<seq<real>>)
    ensures |depth| == |disparity|
    ensures forall i :: 0 <= i < |disparity| ==> |depth[i]| == |disparity[i]|
    ensures forall i, j :: 0 <= i < |disparity| && 0 <= j < |disparity[i]| ==>
      depth[i][j] * (disparity[i][j] as real + Eps) == focalLength * baseline
  {
    seq(|disparity|, i requires 0 <= i < |disparity| =>
      seq(|disparity[i]|, j requires 0 <= j < |disparity[i]| =>
        DepthOfDisparity(disparity[i][j], focalLength, baseline)))
  }

  function DepthOfDisparity(d: int, focalLength: real, baseline: real): (z: real)
    ensures z * (d as real + Eps) == focalLength * baseline
  {
    assert d as real + Eps != 0.0 by {
      if d >= 0 { } else { assert d as real <= -1.0; }
    }
    (focalLength * baseline) / (d as real + Eps)
  }

  /** A zero disparity yields the finite depth `f * B * 10^6`. */
  lemma ZeroDisparityIsFinite(focalLength: real, baseline: real)
    ensures DepthOfDisparity(0, focalLength, baseline) == focalLength * baseline * 1000000.0
  {
  }

  /** With a positive `f * B`, a larger positive disparity means a smaller,
      still positive, depth. */
  lemma DepthDecreasesWithDisparity(d1: int, d2: int, focalLength: real, baseline: real)
    requires 0 <= d1 < d2 && focalLength * baseline > 0.0
    ensures 0.0 < DepthOfDisparity(d2, focalLength, baseline) < DepthOfDisparity(d1, focalLength, baseline)
  {
    var fb := focalLength * baseline;
    var z1 := DepthOfDisparity(d1, focalLength, baseline);
    var z2 := DepthOfDisparity(d2, focalLength, baseline);
    var a := d1 as real + Eps;
    var b := d2 as real + Eps;
    assert 0.0 < a < b;
    assert z1 * a == fb && z2 * b == fb;
    assert z2 > 0.0;
    assert z2 * a < z2 * b;
  }

  // ---------------------------------------------------------------- text to 3-D points

  /** One entry of tesseract's `image_to_data` dictionary. */
  datatype TextBox = TextBox(text: string, conf: real, left: int, top: int, width: int, height: int)

  /** `int(conf) > min_confidence`. */
  predicate IsConfident(b: TextBox, minConfidence: real) {
    Trunc(b.conf) as real > minConfidence
  }

  function Confident(minConfidence: real): TextBox -> bool {
    b => IsConfident(b, minConfidence)
  }

  /** The box centre `(x + w // 2, y + h // 2)`; Dafny's `/` by 2 is Python's `//` by 2. */
  function Centroid(b: TextBox): (c: (int, int))
    ensures 0 <= b.width ==> b.left <= c.0 <= b.left + b.width
    ensures 0 <= b.height ==> b.top <= c.1 <= b.top + b.height
  {
    (b.left + b.width / 2, b.top + b.height / 2)
  }

  /** numpy indexing along one axis of length n: negative indices count from the
      end; anything outside [-n, n) raises IndexError. */
  function NumpyIndex(i: int, n: nat): (r: Option<nat>)
    ensures r.Some? <==> -(n as int) <= i < n
    ensures r.Some? ==> r.value < n && (r.value == i || r.value == i + n)
  {
    if 0 <= i < n then Some(i) else if -(n as int) <= i < 0 then Some(i + n) else None
  }

  /** `depth_map[cy, cx]` on a depth map given row by row. */
  function LookupDepth(depth: seq<seq<real>>, cy: int, cx: int): (r: Result<real>)
    ensures r.Err? ==> r.error == IndexError
    ensures 0 <= cy < |depth| && 0 <= cx < |depth[cy]| ==> r == Ok(depth[cy][cx])
  {
    match NumpyIndex(cy, |depth|)
    case None => Err(IndexError)
    case Some(row) =>
      match NumpyIndex(cx, |depth[row]|)
      case None => Err(IndexError)
      case Some(col) => Ok(depth[row][col])
  }

  /** The 3-D point of one confident box: the depth lookup comes first, then the
      camera matrix is read (None in the hard-coded variant unless a caller set it). */
  function BoxPoint(b: TextBox, depth: seq<seq<real>>, camera: Option<Mat3>): (r: Result<Point3>)
    requires camera.Some? ==> camera.value.HasFocalLengths()
    ensures r.Ok? ==> camera.Some? && LookupDepth(depth, Centroid(b).1, Centroid(b).0) == Ok(r.value.z)
    ensures r.Ok? ==> r.value == ImageToCameraCoords(Centroid(b).0 as real, Centroid(b).1 as real, r.value.z, camera.value)
    ensures camera.None? ==> r.Err?
  {
    var c := Centroid(b);
    match LookupDepth(depth, c.1, c.0)
    case Err(e) => Err(e)
    case Ok(z) =>
      if camera.None? then Err(TypeError)
      else Ok(ImageToCameraCoords(c.0 as real, c.1 as real, z, camera.value))
  }

  /** The points of the given boxes in order; the first failure aborts. */
  function CollectPoints(boxes: seq<TextBox>, depth: seq<seq<real>>, camera: Option<Mat3>): (r: Result<seq<Point3>>)
    requires camera.Some? ==> camera.value.HasFocalLengths()
    ensures r.Ok? ==> |r.value| == |boxes|
  {
    if boxes == [] then Ok([])
    else
      match CollectPoints(boxes[..|boxes| - 1], depth, camera)
      case Err(e) => Err(e)
      case Ok(ps) =>
        match BoxPoint(boxes[|boxes| - 1], depth, camera)
        case Err(e) => Err(e)
        case Ok(p) => Ok(ps + [p])
  }

  /** A successful collection holds, at each position, the point of the box there. */
  lemma {:induction false} CollectPointsAt(boxes: seq<TextBox>, depth: seq<seq<real>>, camera: Option<Mat3>)
    requires camera.Some? ==> camera.value.HasFocalLengths()
    requires CollectPoints(boxes, depth, camera).Ok?
    ensures forall k :: 0 <= k < |boxes| ==>
      BoxPoint(boxes[k], depth, camera) == Ok(CollectPoints(boxes, depth, camera).value[k])
  {
    if boxes != [] {
      var init := boxes[..|boxes| - 1];
      CollectPointsAt(init, depth, camera);
      assert forall k :: 0 <= k < |init| ==> init[k] == boxes[k];
    }
  }

  /** Specification of `compute_3d_points_from_text`: the points of the boxes
      whose truncated confidence is strictly above `minConfidence`, in input order. */
  function PointsFromText(boxes: seq<TextBox>, depth: seq<seq<real>>, minConfidence: real, camera: Option<Mat3>): (r: Result<seq<Point3>>)
    requires camera.Some? ==> camera.value.HasFocalLengths()
    ensures r.Ok? ==> |r.value| <= |boxes|
  {
    CollectPoints(Filter(boxes, Confident(minConfidence)), depth, camera)
  }

  /** One more box: it contributes only when it is confident, and only after
      every earlier box succeeded. */
  lemma PointsFromTextStep(boxes: seq<TextBox>, i: nat, depth: seq<seq<real>>, minConfidence: real, camera: Option<Mat3>)
    requires i < |boxes|
    requires camera.Some? ==> camera.value.HasFocalLengths()
    ensures PointsFromText(boxes[..i + 1], depth, minConfidence, camera) ==
      match PointsFromText(boxes[..i], depth, minConfidence, camera)
      case Err(e) => Err(e)
      case Ok(ps) =>
        if !IsConfident(boxes[i], minConfidence) then Ok(ps)
        else
          match BoxPoint(boxes[i], depth, camera)
          case Err(e) => Err(e)
          case Ok(p) => Ok(ps + [p])
  {
    var keep := Confident(minConfidence);
    assert boxes[..i + 1] == boxes[..i] + [boxes[i]];
    FilterSnoc(boxes[..i], boxes[i], keep);
    var f := Filter(boxes[..i], keep);
    if keep(boxes[i]) {
      var g := f + [boxes[i]];
      assert Filter(boxes[..i + 1], keep) == g;
      assert g[..|g| - 1] == f && g[|g| - 1] == boxes[i];
      assert PointsFromText(boxes[..i + 1], depth, minConfidence, camera) == CollectPoints(g, depth, camera);
    } else {
      assert Filter(boxes[..i + 1], keep) == f;
    }
  }

  /** A box below the threshold leaves the collected points unchanged. */
  lemma StepSkipsUnconfident(boxes: seq<TextBox>, i: nat, depth: seq<seq<real>>, minConfidence: real, camera: Option<Mat3>)
    requires i < |boxes| && !IsConfident(boxes[i], minConfidence)
    requires camera.Some? ==> camera.value.HasFocalLengths()
    ensures PointsFromText(boxes[..i + 1], depth, minConfidence, camera) == PointsFromText(boxes[..i], depth, minConfidence, camera)
  {
    PointsFromTextStep(boxes, i, depth, minConfidence, camera);
  }

  /** A confident box whose point cannot be computed makes the prefix fail with its error. */
  lemma StepFails(boxes: seq<TextBox>, i: nat, depth: seq<seq<real>>, minConfidence: real, camera: Option<Mat3>, e: PyError)
    requires i < |boxes| && IsConfident(boxes[i], minConfidence)
    requires camera.Some? ==> camera.value.HasFocalLengths()
    requires PointsFromText(boxes[..i], depth, minConfidence, camera).Ok?
    requires BoxPoint(boxes[i], depth, camera) == Err(e)
    ensures PointsFromText(boxes[..i + 1], depth, minConfidence, camera) == Err(e)
  {
    PointsFromTextStep(boxes, i, depth, minConfidence, camera);
  }

  /** A confident box with a point appends that point. */
  lemma StepAppends(boxes: seq<TextBox>, i: nat, depth: seq<seq<real>>, minConfidence: real, camera: Option<Mat3>, ps: seq<Point3>, p: Point3)
    requires i < |boxes| && IsConfident(boxes[i], minConfidence)
    requires camera.Some? ==> camera.value.HasFocalLengths()
    requires PointsFromText(boxes[..i], depth, minConfidence, camera) == Ok(ps)
    requires BoxPoint(boxes[i], depth, camera) == Ok(p)
    ensures PointsFromText(boxes[..i + 1], depth, minConfidence, camera) == Ok(ps + [p])
  {
    PointsFromTextStep(boxes, i, depth, minConfidence, camera);
  }

  /** Once a prefix of the boxes fails, the whole list fails with the same error. */
  lemma {:induction false} FailurePersists(boxes: seq<TextBox>, n: nat, depth: seq<seq<real>>, minConfidence: real, camera: Option<Mat3>)
    requires n <= |boxes|
    requires camera.Some? ==> camera.value.HasFocalLengths()
    requires PointsFromText(boxes[..n], depth, minConfidence, camera).Err?
    ensures PointsFromText(boxes, depth, minConfidence, camera) == PointsFromText(boxes[..n], depth, minConfidence, camera)
    decreases |boxes| - n
  {
    if n < |boxes| {
      PointsFromTextStep(boxes, n, depth, minConfidence, camera);
      FailurePersists(boxes, n + 1, depth, minConfidence, camera);
    } else {
      assert boxes[..n] == boxes;
    }
  }

  /** `compute_3d_points_from_text` of the configured localizer. */
  method Compute3DPointsFromText(loc: Phase1KeyboardLocalization, boxes: seq<TextBox>, depth: seq<seq<real>>)
    returns (r: Result<seq<Point3>>)
    requires loc.cameraMatrix.HasFocalLengths()
    ensures r == PointsFromText(boxes, depth, loc.config.minConfidence, Some(loc.cameraMatrix))
  {
    r := CollectFromText(boxes, depth, loc.config.minConfidence, Some(loc.cameraMatrix));
  }

  /** The loop both localizer variants run: one point appended per confident box.
      They differ only in the threshold and in where the camera matrix comes from. */
  method CollectFromText(boxes: seq<TextBox>, depth: seq<seq<real>>, minConfidence: real, camera: Option<Mat3>)
    returns (r: Result<seq<Point3>>)
    requires camera.Some? ==> camera.value.HasFocalLengths()
    ensures r == PointsFromText(boxes, depth, minConfidence, camera)
  {
    var points3d: seq<Point3> := [];
    var i := 0;
    assert boxes[..0] == [];
    while i < |boxes|
      invariant 0 <= i <= |boxes|
      invariant PointsFromText(boxes[..i], depth, minConfidence, camera) == Ok(points3d)
    {
      var b := boxes[i];
      if Trunc(b.conf) as real > minConfidence {
        var c := Centroid(b);
        var z := LookupDepth(depth, c.1, c.0);
        if z.Err? {
          StepFails(boxes, i, depth, minConfidence, camera, z.error);
          FailurePersists(boxes, i + 1, depth, minConfidence, camera);
          return Err(z.error);
        }
        if camera.None? {
          StepFails(boxes, i, depth, minConfidence, camera, TypeError);
          FailurePersists(boxes, i + 1, depth, minConfidence, camera);
          return Err(TypeError);
        }
        var k := camera.value;
        var x := (c.0 as real - k.m02) * z.value / k.m00;
        var y := (c.1 as real - k.m12) * z.value / k.m11;
        BackProjectionAgrees(c.0 as real, c.1 as real, z.value, x, y, k);
        assert BoxPoint(b, depth, camera) == Ok(Point3(x, y, z.value));
        StepAppends(boxes, i, depth, minConfidence, camera, points3d, Point3(x, y, z.value));
        points3d := points3d + [Point3(x, y, z.value)];
      } else {
        StepSkipsUnconfident(boxes, i, depth, minConfidence, camera);
      }
      i := i + 1;
    }
    assert boxes[..i] == boxes;
    r := Ok(points3d);
  }

  /** The inline arithmetic of the loop is the pinhole back-projection. */
  lemma BackProjectionAgrees(u: real, v: real, z: real, x: real, y: real, k: Mat3)
    requires k.HasFocalLengths()
    requires x == (u - k.m02) * z / k.m00 && y == (v - k.m12) * z / k.m11
    ensures Point3(x, y, z) == ImageToCameraCoords(u, v, z, k)
  {
  }

  /** The positions of the confident boxes, in increasing order. */
  ghost function ConfidentIndices(boxes: seq<TextBox>, minConfidence: real): seq<nat> {
    KeptIndices(boxes, Confident(minConfidence))
  }

  /** Every emitted point comes from a confident box, in input order, as the box
      centre back-projected with the depth found there; no other point is emitted. */
  lemma PointsFromTextExact(boxes: seq<TextBox>, depth: seq<seq<real>>, minConfidence: real, k: Mat3)
    requires k.HasFocalLengths()
    requires PointsFromText(boxes, depth, minConfidence, Some(k)).Ok?
    ensures |PointsFromText(boxes, depth, minConfidence, Some(k)).value| == |ConfidentIndices(boxes, minConfidence)|
    ensures forall a, b :: 0 <= a < b < |ConfidentIndices(boxes, minConfidence)| ==>
      ConfidentIndices(boxes, minConfidence)[a] < ConfidentIndices(boxes, minConfidence)[b]
    ensures forall i :: 0 <= i < |boxes| ==>
      (Trunc(boxes[i].conf) as real > minConfidence <==> i in ConfidentIndices(boxes, minConfidence))
    ensures forall a :: 0 <= a < |ConfidentIndices(boxes, minConfidence)| ==>
      var b := boxes[ConfidentIndices(boxes, minConfidence)[a]];
      var p := PointsFromText(boxes, depth, minConfidence, Some(k)).value[a];
      && LookupDepth(depth, Centroid(b).1, Centroid(b).0) == Ok(p.z)
      && p == ImageToCameraCoords(Centroid(b).0 as real, Centroid(b).1 as real, p.z, k)
  {
    var keep := Confident(minConfidence);
    FilterIsOrderedSelection(boxes, keep);
    CollectPointsAt(Filter(boxes, keep), depth, Some(k));
  }

  /** With no confident box the result is empty and the camera matrix is never read. */
  lemma NoConfidentBoxesGiveNoPoints(boxes: seq<TextBox>, depth: seq<seq<real>>, minConfidence: real, camera: Option<Mat3>)
    requires camera.Some? ==> camera.value.HasFocalLengths()
    requires forall i :: 0 <= i < |boxes| ==> Trunc(boxes[i].conf) as real <= minConfidence
    ensures PointsFromText(boxes, depth, minConfidence, camera) == Ok([])
  {
    FilterNone(boxes, Confident(minConfidence));
  }

  // ---------------------------------------------------------------- pose

  datatype Vec3 = Vec3(x: real, y: real, z: real)

  /** A pose: unit normal of the keyboard plane and the (stub) translation. */
  datatype Pose = Pose(normal: Vec3, translation: Vec3)

  /** `compute_keyboard_pose` for the fitted plane `z = coef0*x + coef1*y + c`.
      `norm` is the Euclidean length of `(-coef0, -coef1, 1)`, the value
      `np.linalg.norm` returns. */
  function ComputeKeyboardPose(coef0: real, coef1: real, norm: real): (pose: Pose)
    requires norm > 0.0 && norm * norm == coef0 * coef0 + coef1 * coef1 + 1.0
    ensures pose.translation == Vec3(0.0, 0.0, 0.0)
    ensures pose.normal.z > 0.0
    ensures pose.normal.x == -coef0 * pose.normal.z && pose.normal.y == -coef1 * pose.normal.z
    ensures pose.normal.x * pose.normal.x + pose.normal.y * pose.normal.y + pose.normal.z * pose.normal.z == 1.0
  {
    var n := Vec3(-coef0 / norm, -coef1 / norm, 1.0 / norm);
    UnitLength(coef0, coef1, norm);
    Pose(n, Vec3(0.0, 0.0, 0.0))
  }

  lemma UnitLength(a: real, b: real, norm: real)
    requires norm > 0.0 && norm * norm == a * a + b * b + 1.0
    ensures (-a / norm) * (-a / norm) + (-b / norm) * (-b / norm) + (1.0 / norm) * (1.0 / norm) == 1.0
  {
    var x, y, z := -a / norm, -b / norm, 1.0 / norm;
    assert x * norm == -a && y * norm == -b && z * norm == 1.0;
    assert (x * x + y * y + z * z) * (norm * norm) == a * a + b * b + 1.0;
  }
}

=== FILE: motion_model.dfy ===
/** `MotorMotionModel` of auto_typing/motor_control/motion_model.py: one linear
    position/time fit per direction, and its inverse. The table is written once by
    the constructor and only read afterwards, so the model is a value. */
module MotionModel {
  import opened Common

  /** A fitted line `position = slope * time + intercept` (millimetres, seconds). */
  datatype LinearFit = LinearFit(slope: real, intercept: real)

  /** The `models` table, keyed by direction name. */
  datatype MotorMotionModel = MotorMotionModel(models: map<string, LinearFit>)

  /** `MotorMotionModel()`: the fits measured for the rig. */
  function NewMotorMotionModel(): (m: MotorMotionModel)
    ensures m.models.Keys == {"left", "right"}
    ensures m.models["left"].slope > 0.0 && m.models["right"].slope < 0.0
  {
    MotorMotionModel(map[
      "left" := LinearFit(2.523876556578235, 12.749577693557118),
      "right" := LinearFit(-0.9399657947686118, 35.807557344064385)])
  }

  /** `estimate_position(direction, time_sec)`; an unknown direction is a KeyError. */
  function EstimatePosition(m: MotorMotionModel, direction: string, timeSec: real): (r: Result<real>)
    ensures r.Err? <==> direction !in m.models
    ensures r.Err? ==> r.error == KeyError
  {
    if direction !in m.models then Err(KeyError)
    else
      var fit := m.models[direction];
      Ok(fit.slope * timeSec + fit.intercept)
  }

  /** `estimate_time_to_travel(direction, distance_mm)`: the time at which the fit
      reaches `distance_mm`. KeyError for an unknown direction, ValueError for a
      flat fit. */
  function EstimateTimeToTravel(m: MotorMotionModel, direction: string, distanceMm: real): (r: Result<real>)
    ensures direction !in m.models ==> r == Err(KeyError)
    ensures direction in m.models && m.models[direction].slope == 0.0 ==> r == Err(ValueError)
    ensures direction in m.models && m.models[direction].slope != 0.0 ==> r.Ok?
    ensures r.Ok? ==> EstimatePosition(m, direction, r.value) == Ok(distanceMm)
  {
    if direction !in m.models then Err(KeyError)
    else
      var fit := m.models[direction];
      if fit.slope == 0.0 then Err(ValueError)
      else
        var t := (distanceMm - fit.intercept) / fit.slope;
        DivideThenMultiply(distanceMm - fit.intercept, fit.slope);
        assert EstimatePosition(m, direction, t).value == fit.slope * t + fit.intercept == distanceMm;
        Ok(t)
  }

  lemma DivideThenMultiply(x: real, s: real)
    requires s != 0.0
    ensures s * (x / s) == x
  {
  }

  /** The other round trip: the time to reach the position estimated for `t` is `t`. */
  lemma TimeOfEstimatedPosition(m: MotorMotionModel, direction: string, t: real)
    requires direction in m.models && m.models[direction].slope != 0.0
    ensures EstimateTimeToTravel(m, direction, EstimatePosition(m, direction, t).value) == Ok(t)
  {
    var fit := m.models[direction];
    var d := fit.slope * t + fit.intercept;
    MultiplyThenDivide(t, fit.slope);
    assert EstimatePosition(m, direction, t).value == d;
    assert EstimateTimeToTravel(m, direction, d).value == (d - fit.intercept) / fit.slope == t;
  }

  /** With the measured fits only 'left' and 'right' are accepted, and neither
      raises ValueError. */
  lemma MeasuredDirections(direction: string, distanceMm: real)
    ensures EstimateTimeToTravel(NewMotorMotionModel(), direction, distanceMm).Ok?
      <==> direction == "left" || direction == "right"
    ensures EstimatePosition(NewMotorMotionModel(), direction, distanceMm).Ok?
      <==> direction == "left" || direction == "right"
  {
  }

  /** Moving left, a farther target takes longer; moving right, a farther target
      (larger position) takes less time, because the right-hand fit falls. */
  lemma {:induction false} MeasuredTimeMonotone(d1: real, d2: real)
    requires d1 < d2
    ensures EstimateTimeToTravel(NewMotorMotionModel(), "left", d1).value
      < EstimateTimeToTravel(NewMotorMotionModel(), "left", d2).value
    ensures EstimateTimeToTravel(NewMotorMotionModel(), "right", d1).value
      > EstimateTimeToTravel(NewMotorMotionModel(), "right", d2).value
  {
    var m := NewMotorMotionModel();
    var l, r := m.models["left"], m.models["right"];
    DivideKeepsOrder(d1 - l.intercept, d2 - l.intercept, l.slope);
    DivideKeepsOrder(r.intercept - d2, r.intercept - d1, -r.slope);
    assert (d1 - r.intercept) / r.slope == (r.intercept - d1) / -r.slope;
    assert (d2 - r.intercept) / r.slope == (r.intercept - d2) / -r.slope;
  }

  lemma MultiplyThenDivide(t: real, s: real)
    requires s != 0.0
    ensures (s * t) / s == t
  {
  }

  lemma DivideKeepsOrder(x: real, y: real, s: real)
    requires x < y && s > 0.0
    ensures x / s < y / s
  {
    assert y / s - x / s == (y - x) / s;
  }
}

=== FILE: pinhole.dfy ===
/** The pinhole camera model shared by the localizer and the pipeline:
    back-projection of a pixel with a known depth (phase2/phase2_camera_translation.py)
    and the forward projection the pipeline uses to draw reconstructed points. */
module Pinhole {

  /** A 3x3 camera matrix, row by row; only fx = m00, fy = m11, cx = m02 and
      cy = m12 are ever read. */
  datatype Mat3 = Mat3(
    m00: real, m01: real, m02: real,
    m10: real, m11: real, m12: real,
    m20: real, m21: real, m22: real)
  {
    function Fx(): real { m00 }
    function Fy(): real { m11 }
    function Cx(): real { m02 }
    function Cy(): real { m12 }
    predicate HasFocalLengths() { m00 != 0.0 && m11 != 0.0 }
  }

  /** A point in camera space. */
  datatype Point3 = Point3(x: real, y: real, z: real)

  /** `CameraTranslation.image_to_camera_coords(u, v, depth, K)`. */
  function ImageToCameraCoords(u: real, v: real, depth: real, k: Mat3): (p: Point3)
    requires k.HasFocalLengths()
    ensures p.z == depth
    ensures p.x * k.Fx() == (u - k.Cx()) * depth
    ensures p.y * k.Fy() == (v - k.Cy()) * depth
  {
    Point3((u - k.Cx()) * depth / k.Fx(), (v - k.Cy()) * depth / k.Fy(), depth)
  }

  /** Projection of a camera-space point back onto the image plane, before any
      conversion to integer pixels: `X*fx/Z + cx`, `Y*fy/Z + cy`. */
  function Project(p: Point3, k: Mat3): (uv: (real, real))
    requires p.z != 0.0
    ensures (uv.0 - k.Cx()) * p.z == p.x * k.Fx()
    ensures (uv.1 - k.Cy()) * p.z == p.y * k.Fy()
  {
    (p.x * k.Fx() / p.z + k.Cx(), p.y * k.Fy() / p.z + k.Cy())
  }

  /** A pixel at the principal point lies on the optical axis, whatever its depth. */
  lemma PrincipalPointOnAxis(depth: real, k: Mat3)
    requires k.HasFocalLengths()
    ensures ImageToCameraCoords(k.Cx(), k.Cy(), depth, k) == Point3(0.0, 0.0, depth)
  {
  }

  /** Projecting a back-projected pixel returns the pixel (for a nonzero depth). */
  lemma ProjectAfterBackProject(u: real, v: real, depth: real, k: Mat3)
    requires k.HasFocalLengths() && depth != 0.0
    ensures Project(ImageToCameraCoords(u, v, depth, k), k) == (u, v)
  {
    var p := ImageToCameraCoords(u, v, depth, k);
    var uv := Project(p, k);
    assert (uv.0 - k.Cx()) * depth == (u - k.Cx()) * depth;
    assert (uv.1 - k.Cy()) * depth == (v - k.Cy()) * depth;
  }

  /** Back-projecting the projection of a point at its own depth returns the point. */
  lemma BackProjectAfterProject(p: Point3, k: Mat3)
    requires k.HasFocalLengths() && p.z != 0.0
    ensures ImageToCameraCoords(Project(p, k).0, Project(p, k).1, p.z, k) == p
  {
    var uv := Project(p, k);
    var q := ImageToCameraCoords(uv.0, uv.1, p.z, k);
    assert q.x * k.Fx() == p.x * k.Fx();
    assert q.y * k.Fy() == p.y * k.Fy();
  }

  /** Scaling the depth by `s` scales all three camera coordinates by `s`. */
  lemma DepthScalesPoint(u: real, v: real, depth: real, s: real, k: Mat3)
    requires k.HasFocalLengths()
    ensures ImageToCameraCoords(u, v, s * depth, k).x == s * ImageToCameraCoords(u, v, depth, k).x
    ensures ImageToCameraCoords(u, v, s * depth, k).y == s * ImageToCameraCoords(u, v, depth, k).y
    ensures ImageToCameraCoords(u, v, s * depth, k).z == s * ImageToCameraCoords(u, v, depth, k).z
  {
    var p := ImageToCameraCoords(u, v, depth, k);
    var q := ImageToCameraCoords(u, v, s * depth, k);
    assert q.x * k.Fx() == s * (p.x * k.Fx());
    assert q.y * k.Fy() == s * (p.y * k.Fy());
  }

  /** Only fx, fy, cx and cy influence the result: matrices that agree on them agree. */
  lemma OnlyIntrinsicsMatter(u: real, v: real, depth: real, k1: Mat3, k2: Mat3)
    requires k1.HasFocalLengths()
    requires k1.Fx() == k2.Fx() && k1.Fy() == k2.Fy() && k1.Cx() == k2.Cx() && k1.Cy() == k2.Cy()
    ensures ImageToCameraCoords(u, v, depth, k1) == ImageToCameraCoords(u, v, depth, k2)
  {
  }
}

=== FILE: pipeline.dfy ===
/** `run_phase1_pipeline` in tests/test_phase1_full_pipeline.py: the sparse depth
    map written sample by sample into a zero-initialised buffer, the two early
    exits, and the re-projection of the localized text points onto the image.
    Image reading, optical flow, OCR, RANSAC, drawing and file output are not
    modelled: flow samples, text boxes and the plane fit are inputs. */
module Pipeline {
  import opened Common
  import opened Pinhole
  import opened Localizer

  // ---------------------------------------------------------------- sparse depth map

  /** One optical-flow sample: its pixel position and its depth. */
  datatype Sample = Sample(x: real, y: real, z: real)

  /** `zip(pts_2d, depths)`: pairs up to the shorter input. */
  function Zip(pts: seq<(real, real)>, depths: seq<real>): (samples: seq<Sample>)
    ensures |samples| == if |pts| < |depths| then |pts| else |depths|
    ensures forall i :: 0 <= i < |samples| ==> samples[i] == Sample(pts[i].0, pts[i].1, depths[i])
  {
    var n := if |pts| < |depths| then |pts| else |depths|;
    seq(n, i requires 0 <= i < n => Sample(pts[i].0, pts[i].1, depths[i]))
  }

  /** The sample lands on cell (r, c) once its coordinates are rounded. */
  predicate Hits(s: Sample, r: int, c: int) {
    RoundHalfEven(s.y) == r && RoundHalfEven(s.x) == c
  }

  /** The value of cell (r, c) of the grid after all samples are written: the depth
      of the last sample landing there, or the initial 0. Samples that land outside
      the grid never match an in-grid cell, so the bounds check needs no case here. */
  function SparseDepthAt(samples: seq<Sample>, r: int, c: int): real {
    if samples == [] then 0.0
    else if Hits(samples[|samples| - 1], r, c) then samples[|samples| - 1].z
    else SparseDepthAt(samples[..|samples| - 1], r, c)
  }

  /** When several samples land on one cell, the last of them wins. */
  lemma {:induction false} LastWriteWins(samples: seq<Sample>, k: nat, r: int, c: int)
    requires k < |samples| && Hits(samples[k], r, c)
    requires forall j :: k < j < |samples| ==> !Hits(samples[j], r, c)
    ensures SparseDepthAt(samples, r, c) == samples[k].z
  {
    if k < |samples| - 1 {
      var init := samples[..|samples| - 1];
      assert forall j :: k < j < |init| ==> init[j] == samples[j];
      LastWriteWins(init, k, r, c);
    }
  }

  /** A cell no sample lands on keeps its initial 0. */
  lemma {:induction false} UntouchedCellsStayZero(samples: seq<Sample>, r: int, c: int)
    requires forall j :: 0 <= j < |samples| ==> !Hits(samples[j], r, c)
    ensures SparseDepthAt(samples, r, c) == 0.0
  {
    if samples != [] {
      var init := samples[..|samples| - 1];
      assert forall j :: 0 <= j < |init| ==> init[j] == samples[j];
      UntouchedCellsStayZero(init, r, c);
    }
  }

  /** The whole grid, row by row, as `compute_3d_points_from_text` indexes it. */
  function SparseDepthGrid(samples: seq<Sample>, height: nat, width: nat): (g: seq<seq<real>>)
    ensures |g| == height && forall r :: 0 <= r < height ==> |g[r]| == width
  {
    seq(height, r requires 0 <= r < height =>
      seq(width, c requires 0 <= c < width => SparseDepthAt(samples, r, c)))
  }

  /** The contents of a 2-D buffer, row by row. */
  function Grid(a: array2<real>): (g: seq<seq<real>>)
    reads a
    ensures |g| == a.Length0
    ensures forall r :: 0 <= r < a.Length0 ==> |g[r]| == a.Length1
    ensures forall r, c :: 0 <= r < a.Length0 && 0 <= c < a.Length1 ==> g[r][c] == a[r, c]
  {
    seq(a.Length0, r requires 0 <= r < a.Length0 reads a =>
      seq(a.Length1, c requires 0 <= c < a.Length1 reads a => a[r, c]))
  }

  /** A buffer holding the sparse depth of every pixel has the sparse depth grid as contents. */
  lemma GridOfDepthMap(depth: array2<real>, samples: seq<Sample>, height: nat, width: nat)
    requires depth.Length0 == height && depth.Length1 == width
    requires forall r, c :: 0 <= r < height && 0 <= c < width ==> depth[r, c] == SparseDepthAt(samples, r, c)
    ensures Grid(depth) == SparseDepthGrid(samples, height, width)
  {
    forall r | 0 <= r < height
      ensures Grid(depth)[r] == SparseDepthGrid(samples, height, width)[r]
    {
    }
  }

  /** Step 2 of the pipeline: a zero buffer of the image's size, then every sample
      written at its rounded position when that position lies inside the image. */
  method BuildSparseDepthMap(samples: seq<Sample>, height: nat, width: nat) returns (depth: array2<real>)
    ensures fresh(depth)
    ensures depth.Length0 == height && depth.Length1 == width
    ensures forall r, c :: 0 <= r < height && 0 <= c < width ==> depth[r, c] == SparseDepthAt(samples, r, c)
  {
    depth := new real[height, width]((r, c) => 0.0);
    for k := 0 to |samples|
      invariant forall r, c :: 0 <= r < height && 0 <= c < width ==>
        depth[r, c] == SparseDepthAt(samples[..k], r, c)
    {
      var x, y := RoundHalfEven(samples[k].x), RoundHalfEven(samples[k].y);
      assert samples[..k + 1][..k] == samples[..k];
      if 0 <= y < height && 0 <= x < width {
        depth[y, x] := samples[k].z;
      }
    }
    assert samples[..|samples|] == samples;
  }

  // ---------------------------------------------------------------- re-projection

  /** A pixel inside an image of the given size. */
  predicate InImage(uv: (int, int), width: int, height: int) {
    0 <= uv.0 < width && 0 <= uv.1 < height
  }

  /** The integer pixel a point with depth is drawn at: its projection truncated
      toward zero. */
  function Pixel(p: Point3, k: Mat3): (uv: (int, int))
    requires p.z != 0.0
  {
    (Trunc(Project(p, k).0), Trunc(Project(p, k).1))
  }

  /** `u = int(X*fx/Z + cx)`, `v = int(Y*fy/Z + cy)` as written. With Z = 0 numpy
      yields NaN when X*fx is 0 and an infinity otherwise, and `int` of those raises
      ValueError and OverflowError respectively; `u` is computed, and fails, first. */
  function ReprojectAsWritten(p: Point3, k: Mat3): (r: Result<(int, int)>)
    ensures p.z != 0.0 <==> r.Ok?
    ensures r.Ok? ==> r.value == Pixel(p, k)
    ensures p.z == 0.0 && p.x * k.Fx() == 0.0 ==> r == Err(ValueError)
    ensures p.z == 0.0 && p.x * k.Fx() != 0.0 ==> r == Err(OverflowError)
  {
    if p.z == 0.0 then
      if p.x * k.Fx() == 0.0 then Err(ValueError) else Err(OverflowError)
    else Ok(Pixel(p, k))
  }

  /** Some point of the list has no depth. */
  predicate SomeDepthless(points: seq<Point3>) {
    exists i :: 0 <= i < |points| && points[i].z == 0.0
  }

  /** The marker loop as written: a marker for every in-image projection, the
      first failing conversion aborting the pipeline. */
  function MarkersAsWritten(points: seq<Point3>, k: Mat3, width: int, height: int): (r: Result<seq<(int, int)>>)
    ensures r.Ok? ==> |r.value| <= |points|
    ensures r.Ok? ==> forall i :: 0 <= i < |r.value| ==> InImage(r.value[i], width, height)
    ensures r.Err? ==> r.error == ValueError || r.error == OverflowError
  {
    if points == [] then Ok([])
    else NextMarker(MarkersAsWritten(points[..|points| - 1], k, width, height), points[|points| - 1], k, width, height)
  }

  /** One turn of the marker loop: an earlier error stands, otherwise the point's
      conversion either raises or adds its pixel when that lies in the image. */
  function NextMarker(prev: Result<seq<(int, int)>>, p: Point3, k: Mat3, width: int, height: int): Result<seq<(int, int)>> {
    match prev
    case Err(e) => Err(e)
    case Ok(ms) =>
      match ReprojectAsWritten(p, k)
      case Err(e) => Err(e)
      case Ok(uv) => Ok(ms + if InImage(uv, width, height) then [uv] else [])
  }

  /** The loop as written fails exactly when some point has no depth. */
  lemma {:induction false} MarkersAsWrittenFailsIff(points: seq<Point3>, k: Mat3, width: int, height: int)
    ensures MarkersAsWritten(points, k, width, height).Err? <==> SomeDepthless(points)
  {
    if points != [] {
      var init := points[..|points| - 1];
      MarkersAsWrittenFailsIff(init, k, width, height);
      assert forall i :: 0 <= i < |init| ==> init[i] == points[i];
      if SomeDepthless(points) && !SomeDepthless(init) {
        var i :| 0 <= i < |points| && points[i].z == 0.0;
        assert i == |points| - 1;
      }
    }
  }

  /** Finding: a point without depth whose X is 0, as every text point whose centroid
      no flow sample hit is, makes the loop raise ValueError, wherever it stands in
      the list, as long as every other depthless point has X = 0 too. */
  lemma {:induction false} DepthlessTextPointRaises(points: seq<Point3>, k: Mat3, width: int, height: int)
    requires SomeDepthless(points)
    requires forall i :: 0 <= i < |points| && points[i].z == 0.0 ==> points[i].x == 0.0
    ensures MarkersAsWritten(points, k, width, height) == Err(ValueError)
  {
    var init := points[..|points| - 1];
    var last := points[|points| - 1];
    assert forall i :: 0 <= i < |init| ==> init[i] == points[i];
    MarkersAsWrittenFailsIff(init, k, width, height);
    if SomeDepthless(init) {
      DepthlessTextPointRaises(init, k, width, height);
    } else {
      var i :| 0 <= i < |points| && points[i].z == 0.0;
      assert i == |points| - 1;
      assert last.x * k.Fx() == 0.0;
    }
  }

  /** A text point without depth lies at the camera centre: X = Y = 0. */
  lemma DepthlessBackProjectionIsOrigin(u: real, v: real, k: Mat3)
    requires k.HasFocalLengths()
    ensures ImageToCameraCoords(u, v, 0.0, k) == Point3(0.0, 0.0, 0.0)
  {
    var p := ImageToCameraCoords(u, v, 0.0, k);
    assert p.x * k.Fx() == 0.0 && p.y * k.Fy() == 0.0;
  }

  /** Every text point the localizer returns with depth 0 has X = 0. */
  lemma TextPointsWithoutDepth(boxes: seq<TextBox>, grid: seq<seq<real>>, minConfidence: real, k: Mat3)
    requires k.HasFocalLengths()
    requires PointsFromText(boxes, grid, minConfidence, Some(k)).Ok?
    ensures var points := PointsFromText(boxes, grid, minConfidence, Some(k)).value;
      forall i :: 0 <= i < |points| && points[i].z == 0.0 ==> points[i].x == 0.0
  {
    var points := PointsFromText(boxes, grid, minConfidence, Some(k)).value;
    PointsFromTextExact(boxes, grid, minConfidence, k);
    forall i | 0 <= i < |points| && points[i].z == 0.0
      ensures points[i].x == 0.0
    {
      var b := boxes[ConfidentIndices(boxes, minConfidence)[i]];
      DepthlessBackProjectionIsOrigin(Centroid(b).0 as real, Centroid(b).1 as real, k);
    }
  }

  /** Re-projection as evidently intended: points without depth are skipped. */
  function Markers(points: seq<Point3>, k: Mat3, width: int, height: int): (ms: seq<(int, int)>)
    ensures |ms| <= |points|
    ensures forall i :: 0 <= i < |ms| ==> InImage(ms[i], width, height)
  {
    if points == [] then []
    else
      var p := points[|points| - 1];
      Markers(points[..|points| - 1], k, width, height)
        + if p.z == 0.0 then []
          else if InImage(Pixel(p, k), width, height) then [Pixel(p, k)] else []
  }

  /** Where no point lacks depth, the corrected loop draws what the code as written draws. */
  lemma {:induction false} MarkersAgreeWithDepth(points: seq<Point3>, k: Mat3, width: int, height: int)
    requires forall i :: 0 <= i < |points| ==> points[i].z != 0.0
    ensures MarkersAsWritten(points, k, width, height) == Ok(Markers(points, k, width, height))
  {
    if points != [] {
      var init := points[..|points| - 1];
      assert forall i :: 0 <= i < |init| ==> init[i] == points[i];
      MarkersAgreeWithDepth(init, k, width, height);
    }
  }

  /** A point back-projected from an integer pixel with a nonzero depth is drawn
      exactly at that pixel. */
  lemma ReprojectRecoversPixel(u: int, v: int, depth: real, k: Mat3)
    requires k.HasFocalLengths() && depth != 0.0
    ensures ReprojectAsWritten(ImageToCameraCoords(u as real, v as real, depth, k), k) == Ok((u, v))
  {
    ProjectAfterBackProject(u as real, v as real, depth, k);
    TruncOfInt(u);
    TruncOfInt(v);
  }

  /** One more point: the loop stops at its error, or adds its pixel when it lands
      in the image. */
  lemma MarkersStep(points: seq<Point3>, i: nat, k: Mat3, width: int, height: int)
    requires i < |points|
    ensures MarkersAsWritten(points[..i + 1], k, width, height) ==
      NextMarker(MarkersAsWritten(points[..i], k, width, height), points[i], k, width, height)
  {
    var prefix := points[..i + 1];
    assert prefix[..|prefix| - 1] == points[..i];
    assert prefix[|prefix| - 1] == points[i];
  }

  /** A point whose conversion succeeds adds its pixel when that lies in the image. */
  lemma NextMarkerOk(ms: seq<(int, int)>, p: Point3, k: Mat3, width: int, height: int)
    requires ReprojectAsWritten(p, k).Ok?
    ensures var uv := ReprojectAsWritten(p, k).value;
      NextMarker(Ok(ms), p, k, width, height) == Ok(ms + if InImage(uv, width, height) then [uv] else [])
  {
  }

  /** Once a prefix of the points fails, the whole loop fails with the same error. */
  lemma {:induction false} MarkersFailurePersists(points: seq<Point3>, n: nat, k: Mat3, width: int, height: int)
    requires n <= |points|
    requires MarkersAsWritten(points[..n], k, width, height).Err?
    ensures MarkersAsWritten(points, k, width, height) == MarkersAsWritten(points[..n], k, width, height)
    decreases |points| - n
  {
    if n < |points| {
      MarkersStep(points, n, k, width, height);
      MarkersFailurePersists(points, n + 1, k, width, height);
    } else {
      assert points[..n] == points;
    }
  }

  /** The marker loop of lines 54-58: `int` of each projection, the first failure
      ending the run. */
  method DrawMarkers(points: seq<Point3>, k: Mat3, width: int, height: int) returns (r: Result<seq<(int, int)>>)
    ensures r == MarkersAsWritten(points, k, width, height)
  {
    var markers: seq<(int, int)> := [];
    assert points[..0] == [];
    for i := 0 to |points|
      invariant MarkersAsWritten(points[..i], k, width, height).Ok?
      invariant MarkersAsWritten(points[..i], k, width, height).value == markers
    {
      var pt := points[i];
      MarkersStep(points, i, k, width, height);
      var uv := ReprojectAsWritten(pt, k);
      if uv.Err? {
        MarkersFailurePersists(points, i + 1, k, width, height);
        return Err(uv.error);
      }
      NextMarkerOk(markers, pt, k, width, height);
      var (u, v) := uv.value;
      if 0 <= u < width && 0 <= v < height {
        markers := markers + [(u, v)];
      }
    }
    assert points[..|points|] == points;
    r := Ok(markers);
  }

  // ---------------------------------------------------------------- the pipeline

  /** What `fit_plane_svm` and `np.linalg.norm` supply to the pose: the plane
      coefficients and the length of `(-coef0, -coef1, 1)`. */
  datatype PlaneFit = PlaneFit(coef0: real, coef1: real, norm: real)
  {
    predicate Valid() {
      norm > 0.0 && norm * norm == coef0 * coef0 + coef1 * coef1 + 1.0
    }
  }

  /** Every plane fit that succeeds supplies a consistent norm. The fit itself may
      fail: RANSAC raises ValueError, for one, on too few samples. */
  ghost predicate FitsValid(fitPlane: seq<Point3> -> Result<PlaneFit>) {
    forall ps :: fitPlane(ps).Ok? ==> fitPlane(ps).value.Valid()
  }

  /** How the pipeline ends when no exception interrupts it. */
  datatype Outcome =
    | NoFlowPoints
    | NoTextPoints
    | Localized(points: seq<Point3>, pose: Pose, markers: seq<(int, int)>)

  /** The pipeline's result as a function of its inputs. */
  function Phase1Pipeline(loc: Phase1KeyboardLocalization, pts: seq<(real, real)>, depths: seq<real>,
                          height: nat, width: nat, boxes: seq<TextBox>, fitPlane: seq<Point3> -> Result<PlaneFit>): (r: Result<Outcome>)
    requires loc.cameraMatrix.HasFocalLengths()
    requires FitsValid(fitPlane)
    ensures r == Ok(NoFlowPoints) <==> |pts| == 0
    ensures r.Ok? && r.value.Localized? ==> |r.value.points| > 0 && forall i :: 0 <= i < |r.value.points| ==> r.value.points[i].z != 0.0
  {
    if |pts| == 0 then Ok(NoFlowPoints)
    else LocalizeOnDepth(loc, SparseDepthGrid(Zip(pts, depths), height, width), height, width, boxes, fitPlane)
  }

  /** Finding, end to end: a confident box whose centroid lies in the image but
      that no flow sample lands on makes the whole run raise ValueError, once the
      text points themselves were found and the plane fitted to them; a failing
      fit raises first. */
  lemma UnsampledCentroidRaises(loc: Phase1KeyboardLocalization, pts: seq<(real, real)>, depths: seq<real>,
                                height: nat, width: nat, boxes: seq<TextBox>, fitPlane: seq<Point3> -> Result<PlaneFit>, j: nat)
    requires loc.cameraMatrix.HasFocalLengths()
    requires FitsValid(fitPlane)
    requires |pts| > 0
    requires PointsFromText(boxes, SparseDepthGrid(Zip(pts, depths), height, width), loc.config.minConfidence, Some(loc.cameraMatrix)).Ok?
    requires j < |boxes| && Trunc(boxes[j].conf) as real > loc.config.minConfidence
    requires 0 <= Centroid(boxes[j]).1 < height && 0 <= Centroid(boxes[j]).0 < width
    requires forall s :: 0 <= s < |Zip(pts, depths)| ==> !Hits(Zip(pts, depths)[s], Centroid(boxes[j]).1, Centroid(boxes[j]).0)
    ensures var fit := fitPlane(PointsFromText(boxes, SparseDepthGrid(Zip(pts, depths), height, width), loc.config.minConfidence, Some(loc.cameraMatrix)).value);
      Phase1Pipeline(loc, pts, depths, height, width, boxes, fitPlane) == if fit.Err? then Err(fit.error) else Err(ValueError)
  {
    var samples := Zip(pts, depths);
    var grid := SparseDepthGrid(samples, height, width);
    var minConfidence, k := loc.config.minConfidence, loc.cameraMatrix;
    var points := PointsFromText(boxes, grid, minConfidence, Some(k)).value;
    var c := Centroid(boxes[j]);
    PointsFromTextExact(boxes, grid, minConfidence, k);
    var a :| 0 <= a < |ConfidentIndices(boxes, minConfidence)| && ConfidentIndices(boxes, minConfidence)[a] == j;
    UntouchedCellsStayZero(samples, c.1, c.0);
    assert LookupDepth(grid, c.1, c.0) == Ok(0.0);
    assert points[a].z == 0.0;
    assert SomeDepthless(points);
    assert points != [];
  }

  /** Steps 3 to 5 of the pipeline, once the sparse depth grid is built. */
  function LocalizeOnDepth(loc: Phase1KeyboardLocalization, grid: seq<seq<real>>,
                           height: nat, width: nat, boxes: seq<TextBox>, fitPlane: seq<Point3> -> Result<PlaneFit>): (r: Result<Outcome>)
    requires loc.cameraMatrix.HasFocalLengths()
    requires FitsValid(fitPlane)
    ensures r.Ok? ==> !r.value.NoFlowPoints?
    ensures var text := PointsFromText(boxes, grid, loc.config.minConfidence, Some(loc.cameraMatrix));
      r.Err? <==> text.Err? || (text.value != [] && fitPlane(text.value).Err?) || SomeDepthless(text.value)
    ensures var text := PointsFromText(boxes, grid, loc.config.minConfidence, Some(loc.cameraMatrix));
      text.Ok? && text.value != [] && fitPlane(text.value).Err? ==> r == Err(fitPlane(text.value).error)
    ensures var text := PointsFromText(boxes, grid, loc.config.minConfidence, Some(loc.cameraMatrix));
      text.Ok? && SomeDepthless(text.value) && fitPlane(text.value).Ok? ==> r == Err(ValueError)
    ensures r == Ok(NoTextPoints) <==> PointsFromText(boxes, grid, loc.config.minConfidence, Some(loc.cameraMatrix)) == Ok([])
    ensures r.Ok? && r.value.Localized? ==>
      PointsFromText(boxes, grid, loc.config.minConfidence, Some(loc.cameraMatrix)) == Ok(r.value.points)
      && |r.value.points| > 0 && forall i :: 0 <= i < |r.value.points| ==> r.value.points[i].z != 0.0
    ensures r.Ok? && r.value.Localized? ==> fitPlane(r.value.points).Ok?
    ensures r.Ok? && r.value.Localized? ==>
      r.value.markers == Markers(r.value.points, loc.cameraMatrix, width, height)
      && forall i :: 0 <= i < |r.value.markers| ==> InImage(r.value.markers[i], width, height)
    ensures r.Ok? && r.value.Localized? ==> var n := r.value.pose.normal;
      n.x * n.x + n.y * n.y + n.z * n.z == 1.0 && n.z > 0.0
  {
    match PointsFromText(boxes, grid, loc.config.minConfidence, Some(loc.cameraMatrix))
    case Err(e) => Err(e)
    case Ok(points) =>
      if |points| == 0 then Ok(NoTextPoints)
      else
        match fitPlane(points)
        case Err(e) => Err(e)
        case Ok(fit) =>
        assert fit.Valid();
        MarkersAsWrittenFailsIff(points, loc.cameraMatrix, width, height);
        match MarkersAsWritten(points, loc.cameraMatrix, width, height)
        case Err(e) =>
          TextPointsWithoutDepth(boxes, grid, loc.config.minConfidence, loc.cameraMatrix);
          DepthlessTextPointRaises(points, loc.cameraMatrix, width, height);
          Err(e)
        case Ok(markers) =>
          MarkersAgreeWithDepth(points, loc.cameraMatrix, width, height);
          Ok(Localized(points, ComputeKeyboardPose(fit.coef0, fit.coef1, fit.norm), markers))
  }

  /** Steps 3 to 5 with the corrected marker loop: the run fails only when the text
      points or the plane fit do, and agrees with the code as written wherever that
      succeeds. */
  function LocalizeSkippingDepthless(loc: Phase1KeyboardLocalization, grid: seq<seq<real>>,
                                     height: nat, width: nat, boxes: seq<TextBox>, fitPlane: seq<Point3> -> Result<PlaneFit>): (r: Result<Outcome>)
    requires loc.cameraMatrix.HasFocalLengths()
    requires FitsValid(fitPlane)
    ensures var text := PointsFromText(boxes, grid, loc.config.minConfidence, Some(loc.cameraMatrix));
      r.Err? <==> text.Err? || (text.value != [] && fitPlane(text.value).Err?)
    ensures LocalizeOnDepth(loc, grid, height, width, boxes, fitPlane).Ok? ==> r == LocalizeOnDepth(loc, grid, height, width, boxes, fitPlane)
  {
    match PointsFromText(boxes, grid, loc.config.minConfidence, Some(loc.cameraMatrix))
    case Err(e) => Err(e)
    case Ok(points) =>
      if |points| == 0 then Ok(NoTextPoints)
      else
        match fitPlane(points)
        case Err(e) => Err(e)
        case Ok(fit) =>
        assert fit.Valid();
        Ok(Localized(points, ComputeKeyboardPose(fit.coef0, fit.coef1, fit.norm),
                        Markers(points, loc.cameraMatrix, width, height)))
  }

  /** `run_phase1_pipeline` from step 1 on. `fitPlane` stands for RANSAC, which
      may raise, and the norm computation. */
  method RunPhase1Pipeline(loc: Phase1KeyboardLocalization, pts: seq<(real, real)>, depths: seq<real>,
                           height: nat, width: nat, boxes: seq<TextBox>, fitPlane: seq<Point3> -> Result<PlaneFit>)
    returns (r: Result<Outcome>)
    requires loc.cameraMatrix.HasFocalLengths()
    requires FitsValid(fitPlane)
    ensures r == Phase1Pipeline(loc, pts, depths, height, width, boxes, fitPlane)
  {
    if |pts| == 0 {
      return Ok(NoFlowPoints);
    }
    var samples := Zip(pts, depths);
    var depthMap := BuildSparseDepthMap(samples, height, width);
    GridOfDepthMap(depthMap, samples, height, width);
    r := LocalizeOnText(loc, Grid(depthMap), height, width, boxes, fitPlane);
  }

  /** Steps 3 to 5 of `run_phase1_pipeline`: the text points, the plane fitted to
      them, the pose and the markers, whose conversion can still raise. */
  method LocalizeOnText(loc: Phase1KeyboardLocalization, grid: seq<seq<real>>,
                        height: nat, width: nat, boxes: seq<TextBox>, fitPlane: seq<Point3> -> Result<PlaneFit>)
    returns (r: Result<Outcome>)
    requires loc.cameraMatrix.HasFocalLengths()
    requires FitsValid(fitPlane)
    ensures r == LocalizeOnDepth(loc, grid, height, width, boxes, fitPlane)
  {
    var points3d := Compute3DPointsFromText(loc, boxes, grid);
    if points3d.Err? {
      return Err(points3d.error);
    }
    if |points3d.value| == 0 {
      return Ok(NoTextPoints);
    }
    var model := fitPlane(points3d.value);
    if model.Err? {
      return Err(model.error);
    }
    var fit := model.value;
    assert fit.Valid();
    var pose := ComputeKeyboardPose(fit.coef0, fit.coef1, fit.norm);
    var markers := DrawMarkers(points3d.value, loc.cameraMatrix, width, height);
    if markers.Err? {
      return Err(markers.error);
    }
    r := Ok(Localized(points3d.value, pose, markers.value));
  }
}

=== FILE: position_aware_controller.dfy ===
/** `PositionAwareMotor` of auto_typing/motor_control/position_aware_controller.py:
    a dead-reckoning position tracker over a `DistanceMotorController`. The motor
    itself is not modelled; every `self.motor.move(...)` call is recorded in
    `calls`, so the tracked position can be related to the commands issued. */
module PositionAwareController {
  import opened Common
  import opened MotionModel
  import opened DistanceController

  /** The distance below which `move_to` considers the target reached (mm). */
  const Tolerance: real := 0.01

  /** One call `self.motor.move(direction, distance_mm, duty=duty)`. */
  datatype MotorCall = MotorCall(direction: string, distanceMm: real, duty: real)

  /** The change of position a call stands for: a leftward move adds its distance,
      any other move subtracts it. */
  function Displacement(call: MotorCall): real {
    if call.direction == "left" then call.distanceMm else -call.distanceMm
  }

  /** The summed displacement of a sequence of calls. */
  function Net(calls: seq<MotorCall>): real {
    if calls == [] then 0.0 else Net(calls[..|calls| - 1]) + Displacement(calls[|calls| - 1])
  }

  lemma NetSnoc(calls: seq<MotorCall>, call: MotorCall)
    ensures Net(calls + [call]) == Net(calls) + Displacement(call)
  {
    assert (calls + [call])[..|calls|] == calls;
  }

  class PositionAwareMotor {
    var currentPosition: real
    /** The motor commands issued so far, oldest first: a record of the
        `self.motor.move` effects, not state of the source object. */
    ghost var calls: seq<MotorCall>
    const motor: DistanceMotorController
    ghost const initialPosition: real

    /** The tracked position is the initial one plus the displacement of every
        command issued, each command names a valid direction, and the motor runs
        on the measured motion model. */
    ghost predicate Valid()
      reads this
    {
      && currentPosition == initialPosition + Net(calls)
      && (forall call :: call in calls ==> IsDirection(call.direction))
      && motor.model == NewMotorMotionModel()
    }

    /** `PositionAwareMotor(initial_position_mm, channel)`. */
    constructor (initialPositionMm: real, channel: int)
      ensures currentPosition == initialPositionMm && calls == []
      ensures motor == NewDistanceMotorController(channel, DefaultFeedforward)
      ensures initialPosition == initialPositionMm
      ensures Valid()
    {
      currentPosition := initialPositionMm;
      calls := [];
      motor := NewDistanceMotorController(channel, DefaultFeedforward);
      initialPosition := initialPositionMm;
    }

    /** `move_relative(direction, distance_mm, duty)`: the position moves by the
        distance (up for left, down for right) before the motor is commanded; any
        other direction is a ValueError that changes nothing and sends nothing.
        The result is what the motor is asked to do. */
    method MoveRelative(direction: string, distanceMm: real, duty: real) returns (r: Result<MovePlan>)
      requires Valid()
      modifies this
      ensures Valid()
      ensures !IsDirection(direction) ==>
        r == Err(ValueError) && currentPosition == old(currentPosition) && calls == old(calls)
      ensures direction == "left" ==> currentPosition == old(currentPosition) + distanceMm
      ensures direction == "right" ==> currentPosition == old(currentPosition) - distanceMm
      ensures IsDirection(direction) ==> calls == old(calls) + [MotorCall(direction, distanceMm, duty)]
      ensures IsDirection(direction) ==> r.Ok? && r == Move(motor, direction, distanceMm, duty)
    {
      if direction == "left" {
        currentPosition := currentPosition + distanceMm;
      } else if direction == "right" {
        currentPosition := currentPosition - distanceMm;
      } else {
        return Err(ValueError);
      }
      NetSnoc(calls, MotorCall(direction, distanceMm, duty));
      calls := calls + [MotorCall(direction, distanceMm, duty)];
      MeasuredDirections(direction, distanceMm);
      r := Move(motor, direction, distanceMm, duty);
    }

    /** `move_to(target_position_mm, duty)`: within the tolerance nothing changes
        and no command is sent; otherwise one command moves by the (non-negative)
        distance to the target, leftward when the target is larger, and the
        position becomes the target. */
    method MoveTo(targetPositionMm: real, duty: real) returns (plan: Option<MovePlan>)
      requires Valid()
      modifies this
      ensures Valid()
      ensures AbsReal(targetPositionMm - old(currentPosition)) < Tolerance ==>
        plan == None && currentPosition == old(currentPosition) && calls == old(calls)
      ensures AbsReal(targetPositionMm - old(currentPosition)) >= Tolerance ==>
        currentPosition == targetPositionMm && plan.Some?
      ensures AbsReal(targetPositionMm - old(currentPosition)) >= Tolerance ==>
        var direction := if targetPositionMm > old(currentPosition) then "left" else "right";
        var distance := AbsReal(targetPositionMm - old(currentPosition));
        calls == old(calls) + [MotorCall(direction, distance, duty)]
        && Ok(plan.value) == Move(motor, direction, distance, duty)
    {
      var delta := targetPositionMm - currentPosition;
      if AbsReal(delta) < Tolerance {
        return None;
      }
      var direction := if delta > 0.0 then "left" else "right";
      var r := MoveRelative(direction, AbsReal(delta), duty);
      plan := Some(r.value);
    }

    /** `get_position()`: the tracked position; nothing changes. */
    method GetPosition() returns (p: real)
      requires Valid()
      ensures p == currentPosition
      ensures p == initialPosition + Net(calls)
    {
      p := currentPosition;
    }
  }
}

=== FILE: talon_srx.dfy ===
/** The Talon SRX CAN frame encoder of auto_typing/motor_control/talon_srx.py:
    the revolution-to-tick conversion, the 29-bit extended arbitration
    identifiers (CAN 2.0 Part B) and the two 8-byte payloads. The socketcan bus,
    the 0.1 s pause and the console messages are not modelled: `SendMotorCommand`
    returns the frames that would be put on the bus, in order. */
module TalonSrx {
  import opened Common

  const DeviceId: nat := 0x02
  const EncoderTicksPerRev: nat := 4096

  /** One byte of a CAN payload. */
  type Byte = x: int | 0 <= x < 256

  /** `can.Message(arbitration_id=..., data=..., is_extended_id=...)`. */
  datatype CanMessage = CanMessage(arbitrationId: nat, data: seq<Byte>, isExtendedId: bool)

  // ---------------------------------------------------------------- ticks

  /** `ticks_for_revolutions`: `int(revolutions * 4096)`, truncated toward zero. */
  function TicksForRevolutions(revolutions: real): (ticks: int)
    ensures 0.0 <= revolutions ==> 0 <= ticks && ticks as real <= revolutions * 4096.0 < ticks as real + 1.0
    ensures revolutions < 0.0 ==> ticks <= 0 && ticks as real - 1.0 < revolutions * 4096.0 <= ticks as real
  {
    Trunc(revolutions * EncoderTicksPerRev as real)
  }

  /** A whole number of revolutions gives exactly 4096 ticks per revolution. */
  lemma TicksOfWholeRevolutions(n: int)
    ensures TicksForRevolutions(n as real) == n * 4096
  {
    TruncOfInt(n * 4096);
  }

  /** More revolutions never give fewer ticks. */
  lemma TicksMonotone(a: real, b: real)
    requires a <= b
    ensures TicksForRevolutions(a) <= TicksForRevolutions(b)
  {
  }

  // ---------------------------------------------------------------- identifiers

  function Pow2(n: nat): (p: nat)
    ensures p >= 1
  {
    if n == 0 then 1 else 2 * Pow2(n - 1)
  }

  /** Python's `|` on non-negative integers, one binary digit at a time. */
  function BitOr(a: nat, b: nat): nat
    decreases a + b
  {
    if a == 0 then b
    else if b == 0 then a
    else 2 * BitOr(a / 2, b / 2) + (if a % 2 == 1 || b % 2 == 1 then 1 else 0)
  }

  /** Binary digit `k` of `n`. */
  predicate Bit(n: nat, k: nat) {
    if k == 0 then n % 2 == 1 else Bit(n / 2, k - 1)
  }

  /** BitOr agrees with the digit-wise definition of `|`: a digit of the result is
      set iff it is set in either operand. */
  lemma {:induction false} BitOrDigits(a: nat, b: nat, k: nat)
    ensures Bit(BitOr(a, b), k) <==> Bit(a, k) || Bit(b, k)
    decreases k
  {
    if a == 0 {
      ZeroHasNoDigits(k);
    } else if b == 0 {
      ZeroHasNoDigits(k);
    } else if k > 0 {
      BitOrDigits(a / 2, b / 2, k - 1);
    }
  }

  lemma {:induction false} ZeroHasNoDigits(k: nat)
    ensures !Bit(0, k)
  {
    if k > 0 {
      ZeroHasNoDigits(k - 1);
    }
  }

  /** `|` never loses magnitude and never exceeds the sum. */
  lemma {:induction false} BitOrBounds(a: nat, b: nat)
    ensures a <= BitOr(a, b) && b <= BitOr(a, b) && BitOr(a, b) <= a + b
    decreases a + b
  {
    if a != 0 && b != 0 {
      BitOrBounds(a / 2, b / 2);
    }
  }

  /** Operands below `2^n` give a result below `2^n`. */
  lemma {:induction false} BitOrBelow(a: nat, b: nat, n: nat)
    requires a < Pow2(n) && b < Pow2(n)
    ensures BitOr(a, b) < Pow2(n)
    decreases n
  {
    if a != 0 && b != 0 {
      BitOrBelow(a / 2, b / 2, n - 1);
    }
  }

  /** Doubling both operands doubles the result. */
  lemma BitOrDoubled(a: nat, b: nat)
    ensures BitOr(2 * a, 2 * b) == 2 * BitOr(a, b)
  {
  }

  /** Python's `a << n` on a non-negative integer: `n` doublings. */
  function Shl(a: nat, n: nat): nat {
    if n == 0 then a else 2 * Shl(a, n - 1)
  }

  /** `a << n` is `a * 2^n`. */
  lemma {:induction false} ShlIsMultiply(a: nat, n: nat)
    ensures Shl(a, n) == a * Pow2(n)
  {
    if n > 0 {
      ShlIsMultiply(a, n - 1);
      assert a * Pow2(n) == 2 * (a * Pow2(n - 1));
    }
  }

  /** Shifting both operands left by `n` digits shifts the result by `n` digits. */
  lemma {:induction false} BitOrShifted(a: nat, b: nat, n: nat)
    ensures BitOr(Shl(a, n), Shl(b, n)) == Shl(BitOr(a, b), n)
  {
    if n > 0 {
      BitOrShifted(a, b, n - 1);
      BitOrDoubled(Shl(a, n - 1), Shl(b, n - 1));
    }
  }

  lemma Pow2Values()
    ensures Pow2(2) == 4 && Pow2(13) == 0x2000 && Pow2(16) == 0x1_0000 && Pow2(29) == 0x2000_0000
  {
  }

  lemma ShlValues()
    ensures Shl(0x0204, 16) == 0x02040000 && Shl(0x0400, 16) == 0x04000000
    ensures Shl(0x81, 2) == 0x0204 && Shl(0x100, 2) == 0x0400
  {
    Pow2Values();
    ShlIsMultiply(0x0204, 16);
    ShlIsMultiply(0x0400, 16);
  }

  /** When `b` fits below the digits of `a << n`, `(a << n) | b == (a << n) + b`. */
  lemma {:induction false} BitOrDisjoint(m: nat, b: nat, n: nat)
    requires b < Pow2(n)
    ensures BitOr(Shl(m, n), b) == Shl(m, n) + b
  {
    if n > 0 && Shl(m, n) != 0 && b != 0 {
      var x := Shl(m, n - 1);
      BitOrDisjoint(m, b / 2, n - 1);
      assert (2 * x) / 2 == x && (2 * x) % 2 == 0;
    }
  }

  /** `0x02040000 | (device_id << 16)`. */
  function ControlFrameId(deviceId: nat): (id: nat)
    ensures id == 65536 * BitOr(0x0204, deviceId)
  {
    ShlValues();
    Pow2Values();
    BitOrShifted(0x0204, deviceId, 16);
    ShlIsMultiply(BitOr(0x0204, deviceId), 16);
    BitOr(0x02040000, Shl(deviceId, 16))
  }

  /** `0x04000000 | (device_id << 16)`. */
  function PositionCommandId(deviceId: nat): (id: nat)
    ensures id == 65536 * BitOr(0x0400, deviceId)
  {
    ShlValues();
    Pow2Values();
    BitOrShifted(0x0400, deviceId, 16);
    ShlIsMultiply(BitOr(0x0400, deviceId), 16);
    BitOr(0x04000000, Shl(deviceId, 16))
  }

  /** Both identifiers fit the 29 bits of an extended CAN identifier exactly when
      the device id fits in 13 bits. */
  lemma ExtendedIdFits(deviceId: nat)
    ensures ControlFrameId(deviceId) < 0x2000_0000 <==> deviceId < 0x2000
    ensures PositionCommandId(deviceId) < 0x2000_0000 <==> deviceId < 0x2000
  {
    Pow2Values();
    BitOrBounds(0x0204, deviceId);
    BitOrBounds(0x0400, deviceId);
    if deviceId < Pow2(13) {
      BitOrBelow(0x0204, deviceId, 13);
      BitOrBelow(0x0400, deviceId, 13);
    }
  }

  /** The low 16 bits of both identifiers are zero: the device id and the API
      number live entirely in bits 16 to 28. */
  lemma IdsLeaveLowBitsClear(deviceId: nat)
    ensures ControlFrameId(deviceId) % 65536 == 0
    ensures PositionCommandId(deviceId) % 65536 == 0
  {
    var c, p := BitOr(0x0204, deviceId), BitOr(0x0400, deviceId);
    assert ControlFrameId(deviceId) == 65536 * c;
    assert PositionCommandId(deviceId) == 65536 * p;
  }

  /** For small device ids the `|` is an addition: the device id occupies the
      digits just above bit 16 that the API number leaves free. */
  lemma SmallDeviceIds(deviceId: nat)
    requires deviceId < 4
    ensures ControlFrameId(deviceId) == 0x02040000 + 65536 * deviceId
    ensures PositionCommandId(deviceId) == 0x04000000 + 65536 * deviceId
  {
    Pow2Values();
    ShlValues();
    BitOrDisjoint(0x81, deviceId, 2);
    BitOrDisjoint(0x100, deviceId, 2);
  }

  /** With the configured `DEVICE_ID` 0x02 the identifiers are 0x02060000 and 0x04020000. */
  lemma ConfiguredDeviceIds()
    ensures ControlFrameId(DeviceId) == 0x02060000
    ensures PositionCommandId(DeviceId) == 0x04020000
  {
    SmallDeviceIds(DeviceId);
  }

  /** Device id 4 shares its only digit with the API number of the control frame,
      so its control frame carries the same identifier as device 0's. */
  lemma ControlIdsOverlap()
    ensures ControlFrameId(4) == ControlFrameId(0)
  {
    assert BitOr(0x0204, 4) == 0x0204 == BitOr(0x0204, 0);
  }

  // ---------------------------------------------------------------- payloads

  const Int32Min: int := -0x8000_0000
  const Int32Limit: int := 0x8000_0000

  /** `int.to_bytes(4, byteorder='little', signed=True)`: two's complement, least
      significant byte first; OverflowError outside the 32-bit signed range. */
  function ToBytesLE32(v: int): (r: Result<seq<Byte>>)
    ensures r.Err? <==> v < Int32Min || Int32Limit <= v
    ensures r.Err? ==> r.error == OverflowError
    ensures r.Ok? ==> |r.value| == 4
  {
    if v < Int32Min || Int32Limit <= v then Err(OverflowError)
    else
      var u := if v < 0 then v + 0x1_0000_0000 else v;
      Ok([u % 256, (u / 256) % 256, (u / 65536) % 256, u / 16777216])
  }

  /** `int.from_bytes(b, byteorder='little', signed=True)` on four bytes. */
  function FromBytesLE32(b: seq<Byte>): (v: int)
    requires |b| == 4
    ensures Int32Min <= v < Int32Limit
  {
    var u := b[0] as int + 256 * (b[1] as int + 256 * (b[2] as int + 256 * b[3] as int));
    if u >= Int32Limit then u - 0x1_0000_0000 else u
  }

  /** Decoding the encoded bytes returns the value. */
  lemma DecodeEncode(v: int)
    requires Int32Min <= v < Int32Limit
    ensures FromBytesLE32(ToBytesLE32(v).value) == v
  {
    var u := if v < 0 then v + 0x1_0000_0000 else v;
    var q1, q2 := u / 256, u / 65536;
    assert u == u % 256 + 256 * q1;
    assert q1 == q1 % 256 + 256 * (q1 / 256);
    assert q1 / 256 == q2;
    assert q2 == q2 % 256 + 256 * (q2 / 256);
    assert q2 / 256 == u / 16777216;
  }

  /** Encoding a decoded 4-byte sequence returns the bytes, so the encoding is onto
      the 4-byte sequences and decoding is injective. */
  lemma EncodeDecode(b: seq<Byte>)
    requires |b| == 4
    ensures ToBytesLE32(FromBytesLE32(b)) == Ok(b)
  {
    var u := b[0] as int + 256 * (b[1] as int + 256 * (b[2] as int + 256 * b[3] as int));
    var w := b[1] as int + 256 * (b[2] as int + 256 * b[3] as int);
    var z := b[2] as int + 256 * b[3] as int;
    assert u / 256 == w && u % 256 == b[0];
    assert w / 256 == z && w % 256 == b[1];
    assert u / 65536 == z by {
      assert u == b[0] as int + 256 * b[1] as int + 65536 * z;
    }
    assert u / 16777216 == b[3] by {
      assert u == b[0] as int + 256 * b[1] as int + 65536 * b[2] as int + 16777216 * b[3] as int;
    }
    var r := ToBytesLE32(FromBytesLE32(b));
    assert b == [b[0], b[1], b[2], b[3]];
    assert r.value == [b[0], b[1], b[2], b[3]];
  }

  /** `build_control_frame`: the enable frame, whose payload does not depend on
      the device. */
  function BuildControlFrame(deviceId: nat): (msg: CanMessage)
    ensures msg.arbitrationId == ControlFrameId(deviceId)
    ensures msg.data == [0x0F, 0, 0, 0, 0, 0, 0, 0]
    ensures msg.isExtendedId
  {
    CanMessage(ControlFrameId(deviceId), [0x0F, 0x00, 0x00, 0x00, 0x00, 0x00, 0x00, 0x00], true)
  }

  /** `build_position_command`: mode byte 0x01, the demand as four little-endian
      two's-complement bytes, three zero bytes. */
  function BuildPositionCommand(deviceId: nat, positionTicks: int): (r: Result<CanMessage>)
    ensures r.Err? <==> positionTicks < Int32Min || Int32Limit <= positionTicks
    ensures r.Err? ==> r.error == OverflowError
    ensures r.Ok? ==> r.value.arbitrationId == PositionCommandId(deviceId) && r.value.isExtendedId
    ensures r.Ok? ==> |r.value.data| == 8 && r.value.data[0] == 0x01
    ensures r.Ok? ==> r.value.data[5..] == [0, 0, 0]
    ensures r.Ok? ==> FromBytesLE32(r.value.data[1..5]) == positionTicks
  {
    match ToBytesLE32(positionTicks)
    case Err(e) => Err(e)
    case Ok(demand) =>
      DecodeEncode(positionTicks);
      var data := [0x01] + demand + [0, 0, 0];
      assert data[1..5] == demand;
      Ok(CanMessage(PositionCommandId(deviceId), data, true))
  }

  /** `send_motor_command`: the frames put on the bus, control frame first. When
      the tick count does not fit in 32 bits, `to_bytes` raises before anything
      is sent. */
  function SendMotorCommand(revolutions: real): (r: Result<seq<CanMessage>>)
    ensures r.Ok? ==> |r.value| == 2 && r.value[0] == BuildControlFrame(DeviceId)
    ensures r.Ok? ==> Ok(r.value[1]) == BuildPositionCommand(DeviceId, TicksForRevolutions(revolutions))
  {
    var ticks := TicksForRevolutions(revolutions);
    var control := BuildControlFrame(DeviceId);
    match BuildPositionCommand(DeviceId, ticks)
    case Err(e) => Err(e)
    case Ok(position) => Ok([control, position])
  }

  /** A command is sent iff `revolutions * 4096` truncates into the signed 32-bit
      range, and then the position frame carries exactly that tick count. */
  lemma SendMotorCommandOutcome(revolutions: real)
    ensures SendMotorCommand(revolutions).Ok? <==>
      -2147483649.0 < revolutions * 4096.0 < 2147483648.0
    ensures SendMotorCommand(revolutions).Err? ==> SendMotorCommand(revolutions).error == OverflowError
    ensures SendMotorCommand(revolutions).Ok? ==>
      FromBytesLE32(SendMotorCommand(revolutions).value[1].data[1..5]) == TicksForRevolutions(revolutions)
  {
    var x := revolutions * 4096.0;
    var t := TicksForRevolutions(revolutions);
    if -2147483649.0 < x < 2147483648.0 {
      assert Int32Min <= t < Int32Limit;
    } else {
      assert t < Int32Min || Int32Limit <= t;
    }
  }
}

=== FILE: text_detection.dfy ===
/** The key-text post-processing of tests/test_text_detection.py: the contour
    filter, ROI padding and OCR acceptance (`extract_key_contours`,
    `recognize_keys`), the pixel-per-millimetre scale from pairs of recognised
    keys (`compute_pixel_to_mm_scale`) and the position estimate of keys that
    were not recognised (`estimate_missing_key_positions`). Thresholding,
    `findContours`, `contourArea`, `boundingRect`, resizing and tesseract are not
    modelled: contour areas and boxes are inputs and OCR is a function parameter. */
module TextDetection {
  import opened Common

  // ---------------------------------------------------------------- contours

  /** An axis-aligned box `(x, y, w, h)` in pixels. */
  datatype Rect = Rect(x: int, y: int, w: int, h: int)

  /** A contour as the filter sees it: its area and its bounding box. */
  datatype Contour = Contour(area: real, bounds: Rect)

  /** The first row the mask keeps: `int(height * 0.25)`, which is `height // 4`. */
  function MaskStartRow(height: nat): (start: nat)
    ensures start == height / 4
  {
    var q, r := height / 4, height % 4;
    assert height as real * 0.25 == q as real + r as real * 0.25;
    Trunc(height as real * 0.25)
  }

  /** `cv2.bitwise_and(thresh, mask)` with the mask 255 from the start row down
      and 0 above it. */
  function ApplyLowerMask(thresh: seq<seq<bv8>>): (masked: seq<seq<bv8>>)
    ensures |masked| == |thresh|
    ensures forall r :: 0 <= r < |thresh| ==> |masked[r]| == |thresh[r]|
    ensures forall r, c :: 0 <= r < |thresh| && 0 <= c < |thresh[r]| ==>
      masked[r][c] == if r >= MaskStartRow(|thresh|) then thresh[r][c] else 0
  {
    var start := MaskStartRow(|thresh|);
    seq(|thresh|, r requires 0 <= r < |thresh| =>
      seq(|thresh[r]|, c requires 0 <= c < |thresh[r]| =>
        thresh[r][c] & (if r >= start then 0xFF else 0)))
  }

  /** The area window of a key-sized contour, both bounds strict. */
  predicate IsKeySized(c: Contour) {
    100.0 < c.area < 10000.0
  }

  function KeySized(): Contour -> bool {
    c => IsKeySized(c)
  }

  /** `[cnt for cnt in contours if 100 < cv2.contourArea(cnt) < 10000]`. */
  function ExtractKeyContours(contours: seq<Contour>): (keys: seq<Contour>)
    ensures |keys| <= |contours|
  {
    Filter(contours, KeySized())
  }

  /** The filter keeps exactly the contours strictly between the two areas, in
      their original order. */
  lemma ExtractKeyContoursKeepsExactly(contours: seq<Contour>)
    ensures |ExtractKeyContours(contours)| == |KeptIndices(contours, KeySized())|
    ensures forall k :: 0 <= k < |ExtractKeyContours(contours)| ==>
      ExtractKeyContours(contours)[k] == contours[KeptIndices(contours, KeySized())[k]]
    ensures forall k, l :: 0 <= k < l < |KeptIndices(contours, KeySized())| ==>
      KeptIndices(contours, KeySized())[k] < KeptIndices(contours, KeySized())[l]
    ensures forall i :: 0 <= i < |contours| ==>
      (100.0 < contours[i].area < 10000.0 <==> i in KeptIndices(contours, KeySized()))
  {
    FilterIsOrderedSelection(contours, KeySized());
  }

  // ---------------------------------------------------------------- recognition

  /** The ROI around a box: shifted by `tolerance` up and left without leaving the
      image, and grown by `2 * tolerance` in both directions. */
  function PadRect(b: Rect, tolerance: int): (p: Rect)
    ensures p.x >= 0 && p.y >= 0
    ensures b.x >= tolerance ==> p.x == b.x - tolerance
    ensures b.x < tolerance ==> p.x == 0
    ensures b.y >= tolerance ==> p.y == b.y - tolerance
    ensures b.y < tolerance ==> p.y == 0
    ensures tolerance >= 0 ==> p.x + p.w >= b.x + b.w + tolerance && p.y + p.h >= b.y + b.h + tolerance
    ensures p.w - b.w == 2 * tolerance && p.h - b.h == 2 * tolerance
  {
    Rect(MaxInt(0, b.x - tolerance), MaxInt(0, b.y - tolerance), b.w + 2 * tolerance, b.h + 2 * tolerance)
  }

  /** The characters `str.strip()` removes: Python's whitespace. */
  predicate IsSpace(c: char)
    ensures ' ' as int <= c as int <= ' ' as int ==> IsSpace(c)
    ensures '\t' as int <= c as int <= '\r' as int ==> IsSpace(c)
    ensures IsSpace(c) ==> !('0' <= c <= '9') && !('A' <= c <= 'Z') && !('a' <= c <= 'z')
  {
    var n := c as int;
    (9 <= n <= 13) || (28 <= n <= 32) || n == 0x85 || n == 0xA0 || n == 0x1680
    || (0x2000 <= n <= 0x200A) || n == 0x2028 || n == 0x2029 || n == 0x202F
    || n == 0x205F || n == 0x3000
  }

  /** The first position at or after `i` that does not hold whitespace. */
  function LeadingEnd(s: string, i: nat): (a: nat)
    requires i <= |s|
    ensures i <= a <= |s|
    ensures forall k :: i <= k < a ==> IsSpace(s[k])
    ensures a < |s| ==> !IsSpace(s[a])
    decreases |s| - i
  {
    if i < |s| && IsSpace(s[i]) then LeadingEnd(s, i + 1) else i
  }

  /** The end of the text in `s[a..j]` once trailing whitespace is dropped. */
  function TrailingStart(s: string, a: nat, j: nat): (b: nat)
    requires a <= j <= |s|
    ensures a <= b <= j
    ensures forall k :: b <= k < j ==> IsSpace(s[k])
    ensures b > a ==> !IsSpace(s[b - 1])
    decreases j
  {
    if j > a && IsSpace(s[j - 1]) then TrailingStart(s, a, j - 1) else j
  }

  /** `str.strip()`: the text between the leading and the trailing whitespace. */
  function Strip(s: string): (r: string)
    ensures |r| <= |s|
    ensures r != [] ==> !IsSpace(r[0]) && !IsSpace(r[|r| - 1])
  {
    var a := LeadingEnd(s, 0);
    s[a..TrailingStart(s, a, |s|)]
  }

  /** Stripping removes only whitespace, from both ends, and keeps the middle:
      `s` is leading whitespace, then the stripped text, then trailing whitespace. */
  lemma StripIsInfix(s: string)
    ensures var a := LeadingEnd(s, 0);
      && a + |Strip(s)| <= |s|
      && Strip(s) == s[a..a + |Strip(s)|]
      && (forall i :: 0 <= i < a ==> IsSpace(s[i]))
      && (forall i :: a + |Strip(s)| <= i < |s| ==> IsSpace(s[i]))
  {
  }

  /** Stripping twice is stripping once. */
  lemma StripIdempotent(s: string)
    ensures Strip(Strip(s)) == Strip(s)
  {
    var r := Strip(s);
    assert LeadingEnd(r, 0) == 0;
    assert TrailingStart(r, 0, |r|) == |r|;
    assert r[0..|r|] == r;
  }

  /** `str.upper()` on ASCII letters. */
  function Upper(s: string): (u: string)
    ensures |u| == |s|
    ensures forall i :: 0 <= i < |u| ==> !('a' <= u[i] <= 'z')
    ensures forall i :: 0 <= i < |s| && !('a' <= s[i] <= 'z') ==> u[i] == s[i]
  {
    seq(|s|, i requires 0 <= i < |s| => if 'a' <= s[i] <= 'z' then (s[i] as int - 32) as char else s[i])
  }

  /** `str.lower()` on ASCII letters. */
  function Lower(s: string): (l: string)
    ensures |l| == |s|
    ensures forall i :: 0 <= i < |l| ==> !('A' <= l[i] <= 'Z')
    ensures forall i :: 0 <= i < |s| && !('A' <= s[i] <= 'Z') ==> l[i] == s[i]
  {
    seq(|s|, i requires 0 <= i < |s| => if 'A' <= s[i] <= 'Z' then (s[i] as int + 32) as char else s[i])
  }

  /** `char.upper() != 'P'` rejects exactly the two spellings of the letter P. */
  lemma UpperIsPExactly(s: string)
    ensures Upper(s) == "P" <==> s == "P" || s == "p"
  {
    if Upper(s) == "P" {
      assert |s| == 1 && Upper(s)[0] == 'P';
    }
    if s == "p" {
      assert Upper(s)[0] == 'P';
    }
  }

  /** `char and not char.isdigit() and char.upper() != 'P'`. */
  predicate IsAcceptedLabel(text: string)
    ensures |text| == 1 && 'A' <= text[0] <= 'Z' && text[0] != 'P' ==> IsAcceptedLabel(text)
    ensures text == "P" || text == "p" || (text != [] && forall i :: 0 <= i < |text| ==> IsDigit(text[i])) ==> !IsAcceptedLabel(text)
  {
    text != [] && !(forall i :: 0 <= i < |text| ==> IsDigit(text[i])) && Upper(text) != "P"
  }

  /** One recognised key: the padded box and the stripped OCR text. */
  datatype Detection = Detection(box: Rect, text: string)

  predicate IsAccepted(d: Detection) {
    IsAcceptedLabel(d.text)
  }

  function Accepted(): Detection -> bool {
    d => IsAccepted(d)
  }

  /** The detection every contour proposes before the acceptance test. `ocr`
      stands for tesseract run on the image region of the given box. */
  function Candidate(c: Contour, ocr: Rect -> string, tolerance: int): Detection {
    var b := PadRect(c.bounds, tolerance);
    Detection(b, Strip(ocr(b)))
  }

  function CandidateOf(ocr: Rect -> string, tolerance: int): Contour -> Detection {
    c => Candidate(c, ocr, tolerance)
  }

  function Candidates(contours: seq<Contour>, ocr: Rect -> string, tolerance: int): (ds: seq<Detection>)
    ensures |ds| == |contours|
    ensures forall i :: 0 <= i < |contours| ==> ds[i] == Candidate(contours[i], ocr, tolerance)
  {
    Map(contours, CandidateOf(ocr, tolerance))
  }

  /** The detections `recognize_keys` returns. */
  function RecognizedKeys(contours: seq<Contour>, ocr: Rect -> string, tolerance: int): seq<Detection> {
    Filter(Candidates(contours, ocr, tolerance), Accepted())
  }

  lemma CandidatesSnoc(contours: seq<Contour>, i: nat, ocr: Rect -> string, tolerance: int)
    requires i < |contours|
    ensures Candidates(contours[..i + 1], ocr, tolerance)
      == Candidates(contours[..i], ocr, tolerance) + [Candidate(contours[i], ocr, tolerance)]
  {
    MapPrefixSnoc(contours, i, CandidateOf(ocr, tolerance));
  }

  /** One more contour adds its candidate exactly when the candidate is accepted. */
  lemma RecognizedKeysStep(contours: seq<Contour>, i: nat, ocr: Rect -> string, tolerance: int)
    requires i < |contours|
    ensures RecognizedKeys(contours[..i + 1], ocr, tolerance) == RecognizedKeys(contours[..i], ocr, tolerance)
      + if IsAccepted(Candidate(contours[i], ocr, tolerance)) then [Candidate(contours[i], ocr, tolerance)] else []
  {
    CandidatesSnoc(contours, i, ocr, tolerance);
    FilterSnoc(Candidates(contours[..i], ocr, tolerance), Candidate(contours[i], ocr, tolerance), Accepted());
  }

  /** `recognize_keys`: pad each box, read it, keep the accepted labels in
      contour order. */
  method RecognizeKeys(contours: seq<Contour>, ocr: Rect -> string, tolerance: int) returns (results: seq<Detection>)
    ensures results == RecognizedKeys(contours, ocr, tolerance)
  {
    results := [];
    for i := 0 to |contours|
      invariant results == RecognizedKeys(contours[..i], ocr, tolerance)
    {
      var roi := PadRect(contours[i].bounds, tolerance);
      var text := Strip(ocr(roi));
      RecognizedKeysStep(contours, i, ocr, tolerance);
      if IsAcceptedLabel(text) {
        results := results + [Detection(roi, text)];
      }
    }
    assert contours[..|contours|] == contours;
  }

  /** Every contour yields a result exactly when its stripped OCR text is accepted;
      results keep contour order, carry the padded box and a text that is
      non-empty, not all digits and not P. */
  lemma RecognizedKeysExactly(contours: seq<Contour>, ocr: Rect -> string, tolerance: int)
    ensures var ks := KeptIndices(Candidates(contours, ocr, tolerance), Accepted());
      && |RecognizedKeys(contours, ocr, tolerance)| == |ks|
      && (forall k, l :: 0 <= k < l < |ks| ==> ks[k] < ks[l])
      && (forall i :: 0 <= i < |contours| ==>
            (IsAcceptedLabel(Strip(ocr(PadRect(contours[i].bounds, tolerance)))) <==> i in ks))
      && (forall k :: 0 <= k < |ks| ==>
            RecognizedKeys(contours, ocr, tolerance)[k].box == PadRect(contours[ks[k]].bounds, tolerance)
            && RecognizedKeys(contours, ocr, tolerance)[k].text == Strip(ocr(PadRect(contours[ks[k]].bounds, tolerance))))
  {
    var ds := Candidates(contours, ocr, tolerance);
    var ks := KeptIndices(ds, Accepted());
    var rs := RecognizedKeys(contours, ocr, tolerance);
    FilterIsOrderedSelection(ds, Accepted());
    forall i | 0 <= i < |contours|
      ensures IsAcceptedLabel(Strip(ocr(PadRect(contours[i].bounds, tolerance)))) <==> i in ks
    {
      assert Accepted()(ds[i]) == IsAcceptedLabel(ds[i].text);
    }
    forall k | 0 <= k < |ks|
      ensures rs[k].box == PadRect(contours[ks[k]].bounds, tolerance)
      ensures rs[k].text == Strip(ocr(PadRect(contours[ks[k]].bounds, tolerance)))
    {
      assert rs[k] == ds[ks[k]];
    }
  }

  // ---------------------------------------------------------------- pixel/mm scale

  /** The key layout: `(x_mm, y_mm, z_mm)` of each letter key, by lower-case name. */
  const KeyPositions: map<string, (real, real, real)> := map[
    "z" := (55.0, 32.5, 30.665), "x" := (74.0, 32.5, 30.665), "c" := (92.0, 32.5, 30.665),
    "v" := (110.0, 32.5, 30.665), "b" := (131.0, 32.5, 30.665), "n" := (150.0, 32.5, 30.665),
    "m" := (169.0, 32.5, 30.665), "a" := (45.0, 51.5, 31.115), "s" := (64.0, 51.5, 31.115),
    "d" := (84.0, 51.5, 31.115), "f" := (102.0, 51.5, 31.115), "g" := (121.0, 51.5, 31.115),
    "h" := (141.0, 51.5, 31.115), "j" := (159.0, 51.5, 31.115), "k" := (178.0, 51.5, 31.115),
    "l" := (197.0, 51.5, 31.115), "r" := (98.0, 70.5, 33.345), "t" := (117.0, 70.5, 33.345),
    "y" := (136.0, 70.5, 33.345), "u" := (154.0, 70.5, 33.345), "i" := (173.0, 70.5, 33.345),
    "o" := (193.0, 70.5, 33.345), "p" := (262.0, 70.5, 33.345)]

  /** The centre of a detection's box, `(x + w // 2, y + h // 2)`. */
  function Centre(b: Rect): (int, int) {
    (b.x + b.w / 2, b.y + b.h / 2)
  }

  /** A recognised key with a known layout position: its pixel centre and its
      position in millimetres (one entry of the four parallel lists). */
  datatype Reference = Reference(px: int, py: int, xMm: real, yMm: real)

  predicate IsKnownKey(d: Detection, table: map<string, (real, real, real)>) {
    Lower(d.text) in table
  }

  function KnownKey(table: map<string, (real, real, real)>): Detection -> bool {
    d => IsKnownKey(d, table)
  }

  function ReferenceOf(d: Detection, table: map<string, (real, real, real)>): Reference
    requires IsKnownKey(d, table)
  {
    var pos := table[Lower(d.text)];
    Reference(Centre(d.box).0, Centre(d.box).1, pos.0, pos.1)
  }

  /** The references, in detection order: detections whose lower-cased text is not
      a key of the layout are ignored. */
  function References(dets: seq<Detection>, table: map<string, (real, real, real)>): (refs: seq<Reference>)
    ensures |refs| <= |dets|
  {
    if dets == [] then []
    else
      var d := dets[|dets| - 1];
      References(dets[..|dets| - 1], table) + if IsKnownKey(d, table) then [ReferenceOf(d, table)] else []
  }

  /** The references are the known keys' detections, in order. */
  lemma {:induction false} ReferencesExact(dets: seq<Detection>, table: map<string, (real, real, real)>)
    ensures |References(dets, table)| == |KeptIndices(dets, KnownKey(table))|
    ensures forall k :: 0 <= k < |References(dets, table)| ==>
      IsKnownKey(dets[KeptIndices(dets, KnownKey(table))[k]], table) &&
      References(dets, table)[k] == ReferenceOf(dets[KeptIndices(dets, KnownKey(table))[k]], table)
  {
    if dets != [] {
      var init := dets[..|dets| - 1];
      ReferencesExact(init, table);
      assert forall i :: 0 <= i < |init| ==> init[i] == dets[i];
    }
  }

  /** The two image axes. */
  datatype Axis = X | Y

  function Pixel(r: Reference, axis: Axis): int {
    if axis == X then r.px else r.py
  }

  function Mm(r: Reference, axis: Axis): real {
    if axis == X then r.xMm else r.yMm
  }

  /** The pairs `(i, k)` with `i < k < j` in increasing `k`: what the inner loop
      visits for outer index `i` before inner index `j`. */
  function RowPairs(i: nat, j: nat): (ps: seq<(nat, nat)>)
    decreases j
  {
    if j <= i + 1 then [] else RowPairs(i, j - 1) + [(i, j - 1)]
  }

  /** The pairs the nested loops over `n` references visit before outer index `i`. */
  function PairsBefore(i: nat, n: nat): (ps: seq<(nat, nat)>)
  {
    if i == 0 then [] else PairsBefore(i - 1, n) + RowPairs(i - 1, n)
  }

  /** Every pair of positions `i < j < n`, in the order the nested loops visit them. */
  function AllPairs(n: nat): (ps: seq<(nat, nat)>)
    ensures forall k :: 0 <= k < |ps| ==> ps[k].0 < ps[k].1 < n
  {
    PairsBeforeBounds(n, n);
    PairsBefore(n, n)
  }

  predicate LexLess(p: (nat, nat), q: (nat, nat)) {
    p.0 < q.0 || (p.0 == q.0 && p.1 < q.1)
  }

  /** The inner loop visits `(i, i + 1), (i, i + 2), ...` up to `(i, j - 1)`. */
  lemma {:induction false} RowPairsExact(i: nat, j: nat)
    ensures |RowPairs(i, j)| == if j <= i + 1 then 0 else j - i - 1
    ensures forall k :: 0 <= k < |RowPairs(i, j)| ==> RowPairs(i, j)[k] == (i, i + 1 + k)
    ensures forall a, b :: (a, b) in RowPairs(i, j) <==> a == i && i < b < j
    decreases j
  {
    if j > i + 1 {
      RowPairsExact(i, j - 1);
      var row := RowPairs(i, j);
      forall a, b | a == i && i < b < j
        ensures (a, b) in row
      {
        assert row[b - i - 1] == (a, b);
      }
    }
  }

  /** Every pair visited before outer index `i` starts below `i` and is ordered. */
  lemma {:induction false} PairsBeforeBounds(i: nat, n: nat)
    ensures forall k :: 0 <= k < |PairsBefore(i, n)| ==>
      PairsBefore(i, n)[k].0 < i && PairsBefore(i, n)[k].0 < PairsBefore(i, n)[k].1 < n
  {
    if i > 0 {
      PairsBeforeBounds(i - 1, n);
      RowPairsExact(i - 1, n);
    }
  }

  lemma {:induction false} RowPairsMember(i: nat, j: nat, a: nat, b: nat)
    ensures (a, b) in RowPairs(i, j) <==> a == i && i < b < j
    decreases j
  {
    if j > i + 1 {
      RowPairsMember(i, j - 1, a, b);
      var prev := RowPairs(i, j - 1);
      assert RowPairs(i, j) == prev + [(i, j - 1)];
      InAppend((a, b), prev, [(i, j - 1)]);
    }
  }

  /** The pair `(a, b)` is visited before outer index `i` exactly when `a < i`
      and `a < b < n`. */
  lemma {:induction false} PairsBeforeMember(i: nat, n: nat, a: nat, b: nat)
    ensures (a, b) in PairsBefore(i, n) <==> a < i && a < b < n
  {
    if i > 0 {
      PairsBeforeMember(i - 1, n, a, b);
      RowPairsMember(i - 1, n, a, b);
      var before, row := PairsBefore(i - 1, n), RowPairs(i - 1, n);
      assert PairsBefore(i, n) == before + row;
      InAppend((a, b), before, row);
    }
  }

  lemma PairsBeforeMembers(i: nat, n: nat)
    ensures forall a, b :: (a, b) in PairsBefore(i, n) <==> 0 <= a < i && a < b < n
  {
    forall a, b
      ensures (a, b) in PairsBefore(i, n) <==> 0 <= a < i && a < b < n
    {
      if a >= 0 && b >= 0 {
        PairsBeforeMember(i, n, a, b);
      }
    }
  }

  lemma TriangleStep(i: int, n: int)
    ensures (i - 1) * (2 * n - i) + 2 * (n - i) == i * (2 * n - i - 1)
  {
    var m := 2 * n - i;
    assert (i - 1) * m == i * m - m;
    assert i * (m - 1) == i * m - i;
  }

  lemma {:induction false} PairsBeforeLength(i: nat, n: nat)
    requires i <= n
    ensures 2 * |PairsBefore(i, n)| == i * (2 * n - i - 1)
  {
    if i > 0 {
      PairsBeforeLength(i - 1, n);
      RowPairsExact(i - 1, n);
      var before, row := PairsBefore(i - 1, n), RowPairs(i - 1, n);
      assert |PairsBefore(i, n)| == |before| + |row|;
      assert |row| == n - i;
      TriangleStep(i, n);
    }
  }

  lemma {:induction false} PairsBeforeSorted(i: nat, n: nat)
    ensures forall k, l :: 0 <= k < l < |PairsBefore(i, n)| ==> LexLess(PairsBefore(i, n)[k], PairsBefore(i, n)[l])
  {
    if i > 0 {
      PairsBeforeSorted(i - 1, n);
      PairsBeforeBounds(i - 1, n);
      RowPairsExact(i - 1, n);
      var before, row := PairsBefore(i - 1, n), RowPairs(i - 1, n);
      var all := PairsBefore(i, n);
      assert all == before + row;
      forall k, l | 0 <= k < l < |all|
        ensures LexLess(all[k], all[l])
      {
        if l < |before| {
          assert all[k] == before[k] && all[l] == before[l];
        } else if k < |before| {
          assert all[k] == before[k] && all[l] == row[l - |before|];
        } else {
          assert all[k] == row[k - |before|] && all[l] == row[l - |before|];
        }
      }
    }
  }

  /** Every unordered pair of `n` references is visited exactly once: the visited
      pairs are precisely those `(a, b)` with `a < b < n`, there are
      `n * (n - 1) / 2` of them, and they come in strictly increasing
      lexicographic order, so none repeats. */
  lemma AllPairsExact(n: nat)
    ensures forall a, b :: (a, b) in AllPairs(n) <==> 0 <= a < b < n
    ensures 2 * |AllPairs(n)| == n * (n - 1)
    ensures forall k, l :: 0 <= k < l < |AllPairs(n)| ==> LexLess(AllPairs(n)[k], AllPairs(n)[l])
  {
    PairsBeforeMembers(n, n);
    PairsBeforeLength(n, n);
    PairsBeforeSorted(n, n);
  }

  /** A strictly positive millimetre distance. */
  type PositiveReal = r: real | r > 0.0 witness 1.0

  /** One position of the parallel lists `dxs`/`dx_mm` (or `dys`/`dy_mm`); only
      pairs whose millimetre distance is positive are appended. */
  datatype Entry = Entry(pixels: int, mm: PositiveReal)

  predicate ValidPairs(refs: seq<Reference>, pairs: seq<(nat, nat)>) {
    forall k :: 0 <= k < |pairs| ==> pairs[k].0 < |refs| && pairs[k].1 < |refs|
  }

  /** What visiting the pair `(a, b)` appends along one axis: the absolute pixel
      and millimetre differences when the millimetre coordinates differ. */
  function PairEntry(ra: Reference, rb: Reference, axis: Axis): seq<Entry> {
    if AbsReal(Mm(ra, axis) - Mm(rb, axis)) > 0.0
    then [Entry(AbsInt(Pixel(ra, axis) - Pixel(rb, axis)), AbsReal(Mm(ra, axis) - Mm(rb, axis)))]
    else []
  }

  /** What visiting the pair of positions `p` appends (pairs outside the
      references, which the loops never visit, append nothing). */
  function VisitEntry(refs: seq<Reference>, p: (nat, nat), axis: Axis): seq<Entry> {
    if p.0 < |refs| && p.1 < |refs| then PairEntry(refs[p.0], refs[p.1], axis) else []
  }

  function Visit(refs: seq<Reference>, axis: Axis): ((nat, nat)) -> seq<Entry> {
    p => VisitEntry(refs, p, axis)
  }

  /** What the visited pairs append along one axis: the absolute pixel and
      millimetre differences of every pair whose millimetre coordinates differ. */
  function AxisEntries(refs: seq<Reference>, pairs: seq<(nat, nat)>, axis: Axis): seq<Entry> {
    FlatMap(pairs, Visit(refs, axis))
  }

  /** Nothing is appended exactly when no visited pair differs along the axis. */
  lemma {:induction false} AxisEntriesEmptyIff(refs: seq<Reference>, pairs: seq<(nat, nat)>, axis: Axis)
    requires ValidPairs(refs, pairs)
    ensures AxisEntries(refs, pairs, axis) == [] <==>
      forall k :: 0 <= k < |pairs| ==> Mm(refs[pairs[k].0], axis) == Mm(refs[pairs[k].1], axis)
  {
    if pairs != [] {
      var init, p := pairs[..|pairs| - 1], pairs[|pairs| - 1];
      AxisEntriesEmptyIff(refs, init, axis);
      AxisEntriesSnoc(refs, pairs, axis);
      assert VisitEntry(refs, p, axis) == [] <==> Mm(refs[p.0], axis) == Mm(refs[p.1], axis);
      assert forall k :: 0 <= k < |init| ==> init[k] == pairs[k];
    }
  }

  /** The references lie on an exact linear layout along the axis: pixel
      coordinate `c + s * mm`. */
  predicate LinearLayout(refs: seq<Reference>, axis: Axis, c: real, s: real) {
    forall a :: 0 <= a < |refs| ==> Pixel(refs[a], axis) as real == c + s * Mm(refs[a], axis)
  }

  /** On a linear layout, pixel distances are `|s|` times millimetre distances. */
  lemma PairRatio(ra: Reference, rb: Reference, axis: Axis, c: real, s: real)
    requires Pixel(ra, axis) as real == c + s * Mm(ra, axis)
    requires Pixel(rb, axis) as real == c + s * Mm(rb, axis)
    ensures AbsInt(Pixel(ra, axis) - Pixel(rb, axis)) as real == AbsReal(s) * AbsReal(Mm(ra, axis) - Mm(rb, axis))
  {
    var d := Mm(ra, axis) - Mm(rb, axis);
    assert (Pixel(ra, axis) - Pixel(rb, axis)) as real == s * d;
    if s < 0.0 && d < 0.0 {
      assert s * d == (-s) * (-d);
    } else if s < 0.0 {
      assert -(s * d) == (-s) * d;
    } else if d < 0.0 {
      assert -(s * d) == s * (-d);
    }
  }

  /** An entry whose pixel distance is `r` times its millimetre distance. */
  predicate HasRatio(e: Entry, r: real) {
    e.pixels as real == r * e.mm
  }

  /** Every appended entry has the ratio `|s|` on a linear layout with slope `s`. */
  lemma {:induction false} AxisEntriesProportional(refs: seq<Reference>, pairs: seq<(nat, nat)>, axis: Axis, c: real, s: real)
    requires LinearLayout(refs, axis, c, s)
    ensures forall k :: 0 <= k < |AxisEntries(refs, pairs, axis)| ==> HasRatio(AxisEntries(refs, pairs, axis)[k], AbsReal(s))
  {
    if pairs != [] {
      var init, p := pairs[..|pairs| - 1], pairs[|pairs| - 1];
      AxisEntriesProportional(refs, init, axis, c, s);
      var prev, last := AxisEntries(refs, init, axis), VisitEntry(refs, p, axis);
      AxisEntriesSnoc(refs, pairs, axis);
      VisitEntryProportional(refs, p, axis, c, s);
      forall k | 0 <= k < |prev + last|
        ensures HasRatio((prev + last)[k], AbsReal(s))
      {
        if k >= |prev| {
          assert (prev + last)[k] == last[k - |prev|];
        }
      }
    }
  }

  /** The entries of a list of pairs are those of all but the last pair, then
      the last pair's. */
  lemma AxisEntriesSnoc(refs: seq<Reference>, pairs: seq<(nat, nat)>, axis: Axis)
    requires pairs != []
    ensures AxisEntries(refs, pairs, axis)
      == AxisEntries(refs, pairs[..|pairs| - 1], axis) + VisitEntry(refs, pairs[|pairs| - 1], axis)
  {
  }

  /** What one pair appends has the ratio `|s|` on a linear layout. */
  lemma VisitEntryProportional(refs: seq<Reference>, p: (nat, nat), axis: Axis, c: real, s: real)
    requires LinearLayout(refs, axis, c, s)
    ensures forall k :: 0 <= k < |VisitEntry(refs, p, axis)| ==> HasRatio(VisitEntry(refs, p, axis)[k], AbsReal(s))
  {
    if p.0 < |refs| && p.1 < |refs| {
      var a, b := refs[p.0], refs[p.1];
      PairRatio(a, b, axis, c, s);
    }
  }

  /** The sum of the ratios `pixels / mm`. */
  function SumRatios(es: seq<Entry>): real {
    if es == [] then 0.0 else SumRatios(es[..|es| - 1]) + es[|es| - 1].pixels as real / es[|es| - 1].mm
  }

  /** `np.mean(np.array(pixels) / np.array(mm)) if mm else float('nan')`, with
      NaN as None. */
  function MeanRatio(es: seq<Entry>): (m: Option<real>)
    ensures m.None? <==> es == []
  {
    if es == [] then None else Some(SumRatios(es) / |es| as real)
  }

  /** Ratios that all equal `s` sum to `s` times their number. */
  lemma {:induction false} SumOfEqualRatios(es: seq<Entry>, s: real)
    requires forall k :: 0 <= k < |es| ==> HasRatio(es[k], s)
    ensures SumRatios(es) == s * |es| as real
  {
    if es != [] {
      var init := es[..|es| - 1];
      assert forall k :: 0 <= k < |init| ==> init[k] == es[k];
      SumOfEqualRatios(init, s);
      var e := es[|es| - 1];
      assert e.pixels as real / e.mm == s;
    }
  }

  lemma MeanOfEqualRatios(sum: real, r: real, n: nat)
    requires n > 0 && sum == r * n as real
    ensures sum / n as real == r
  {
  }

  /** The scale along one axis of `compute_pixel_to_mm_scale`. */
  function PixelToMmScale(dets: seq<Detection>, table: map<string, (real, real, real)>, axis: Axis): Option<real> {
    var refs := References(dets, table);
    MeanRatio(AxisEntries(refs, AllPairs(|refs|), axis))
  }

  /** The first loop of `compute_pixel_to_mm_scale`: the four parallel lists of
      centres and layout positions of the known keys. */
  method CollectReferences(dets: seq<Detection>, table: map<string, (real, real, real)>) returns (refs: seq<Reference>)
    ensures refs == References(dets, table)
  {
    refs := [];
    for i := 0 to |dets|
      invariant refs == References(dets[..i], table)
    {
      var d := dets[i];
      assert dets[..i + 1][..i] == dets[..i];
      if Lower(d.text) in table {
        var pos := table[Lower(d.text)];
        refs := refs + [Reference(d.box.x + d.box.w / 2, d.box.y + d.box.h / 2, pos.0, pos.1)];
      }
    }
    assert dets[..|dets|] == dets;
  }

  /** What the inner loop for outer index `i` appends before inner index `j`. */
  function RowEntries(refs: seq<Reference>, i: nat, j: nat, axis: Axis): (es: seq<Entry>)
    requires j <= |refs|
    decreases j
  {
    if j <= i + 1 then [] else RowEntries(refs, i, j - 1, axis) + PairEntry(refs[i], refs[j - 1], axis)
  }

  /** The row's pairs append exactly the row's entries. */
  lemma {:induction false} RowEntriesOfRowPairs(refs: seq<Reference>, i: nat, j: nat, axis: Axis)
    requires i < |refs| && j <= |refs|
    ensures AxisEntries(refs, RowPairs(i, j), axis) == RowEntries(refs, i, j, axis)
    decreases j
  {
    if j > i + 1 {
      calc {
        AxisEntries(refs, RowPairs(i, j), axis);
        { RowPairsStep(refs, i, j, axis); }
        AxisEntries(refs, RowPairs(i, j - 1), axis) + PairEntry(refs[i], refs[j - 1], axis);
        { RowEntriesOfRowPairs(refs, i, j - 1, axis); }
        RowEntries(refs, i, j - 1, axis) + PairEntry(refs[i], refs[j - 1], axis);
      }
    }
  }

  /** One more inner-loop step appends what the pair `(i, j - 1)` contributes. */
  lemma RowPairsStep(refs: seq<Reference>, i: nat, j: nat, axis: Axis)
    requires i + 1 < j <= |refs|
    ensures AxisEntries(refs, RowPairs(i, j), axis)
      == AxisEntries(refs, RowPairs(i, j - 1), axis) + PairEntry(refs[i], refs[j - 1], axis)
  {
    var p: (nat, nat) := (i, j - 1);
    RowPairsSnoc(i, j);
    AxisEntriesAppendPair(refs, RowPairs(i, j - 1), p, axis);
    assert VisitEntry(refs, p, axis) == PairEntry(refs[i], refs[j - 1], axis);
  }

  lemma RowPairsSnoc(i: nat, j: nat)
    requires i + 1 < j
    ensures RowPairs(i, j) == RowPairs(i, j - 1) + [(i, j - 1)]
  {
  }

  lemma AxisEntriesAppendPair(refs: seq<Reference>, prev: seq<(nat, nat)>, p: (nat, nat), axis: Axis)
    ensures AxisEntries(refs, prev + [p], axis) == AxisEntries(refs, prev, axis) + VisitEntry(refs, p, axis)
  {
    FlatMapSnoc(prev, p, Visit(refs, axis));
  }

  /** The inner loop of `compute_pixel_to_mm_scale` for outer index `i`: the
      pairs `(i, j)` with `i < j`, appended after the lists built so far. */
  method RowDifferences(refs: seq<Reference>, i: nat, dxs0: seq<Entry>, dys0: seq<Entry>)
    returns (dxs: seq<Entry>, dys: seq<Entry>)
    requires i < |refs|
    ensures dxs == dxs0 + RowEntries(refs, i, |refs|, X)
    ensures dys == dys0 + RowEntries(refs, i, |refs|, Y)
  {
    dxs, dys := dxs0, dys0;
    for j := i + 1 to |refs|
      invariant dxs == dxs0 + RowEntries(refs, i, j, X)
      invariant dys == dys0 + RowEntries(refs, i, j, Y)
    {
      var dxReal := AbsReal(refs[i].xMm - refs[j].xMm);
      var dyReal := AbsReal(refs[i].yMm - refs[j].yMm);
      if dxReal > 0.0 {
        dxs := dxs + [Entry(AbsInt(refs[i].px - refs[j].px), dxReal)];
      }
      if dyReal > 0.0 {
        dys := dys + [Entry(AbsInt(refs[i].py - refs[j].py), dyReal)];
      }
    }
  }

  /** The nested loops of `compute_pixel_to_mm_scale`: every pair `i < j` once,
      appending to the x lists when the x positions differ and to the y lists
      when the y positions differ. */
  method PairDifferences(refs: seq<Reference>) returns (dxs: seq<Entry>, dys: seq<Entry>)
    ensures dxs == AxisEntries(refs, AllPairs(|refs|), X)
    ensures dys == AxisEntries(refs, AllPairs(|refs|), Y)
  {
    var n := |refs|;
    dxs, dys := [], [];
    for i := 0 to n
      invariant dxs == AxisEntries(refs, PairsBefore(i, n), X)
      invariant dys == AxisEntries(refs, PairsBefore(i, n), Y)
    {
      dxs, dys := RowDifferences(refs, i, dxs, dys);
      FlatMapAppend(PairsBefore(i, n), RowPairs(i, n), Visit(refs, X));
      FlatMapAppend(PairsBefore(i, n), RowPairs(i, n), Visit(refs, Y));
      RowEntriesOfRowPairs(refs, i, n, X);
      RowEntriesOfRowPairs(refs, i, n, Y);
      assert PairsBefore(i + 1, n) == PairsBefore(i, n) + RowPairs(i, n);
    }
  }

  /** `compute_pixel_to_mm_scale`: each scale is the mean pixel/mm ratio of its
      lists, or NaN when they are empty. */
  method ComputePixelToMmScale(dets: seq<Detection>, table: map<string, (real, real, real)>)
    returns (scaleX: Option<real>, scaleY: Option<real>)
    ensures scaleX == PixelToMmScale(dets, table, X)
    ensures scaleY == PixelToMmScale(dets, table, Y)
  {
    var refs := CollectReferences(dets, table);
    var dxs, dys := PairDifferences(refs);
    scaleX := MeanRatio(dxs);
    scaleY := MeanRatio(dys);
  }

  /** No two references differ along the axis. */
  predicate AllEqualAlong(refs: seq<Reference>, axis: Axis) {
    forall a, b :: 0 <= a < b < |refs| ==> Mm(refs[a], axis) == Mm(refs[b], axis)
  }

  /** Checking every visited pair is checking every pair of references. */
  lemma VisitedPairsEqualIff(refs: seq<Reference>, axis: Axis)
    ensures (forall k :: 0 <= k < |AllPairs(|refs|)| ==>
               Mm(refs[AllPairs(|refs|)[k].0], axis) == Mm(refs[AllPairs(|refs|)[k].1], axis))
            <==> AllEqualAlong(refs, axis)
  {
    var pairs := AllPairs(|refs|);
    if forall k :: 0 <= k < |pairs| ==> Mm(refs[pairs[k].0], axis) == Mm(refs[pairs[k].1], axis) {
      PairsBeforeMembers(|refs|, |refs|);
      forall a, b | 0 <= a < b < |refs|
        ensures Mm(refs[a], axis) == Mm(refs[b], axis)
      {
        assert (a, b) in pairs;
        var k :| 0 <= k < |pairs| && pairs[k] == (a, b);
      }
    }
  }

  /** A scale is NaN exactly when no two references differ along its axis. */
  lemma ScaleUndefinedIff(dets: seq<Detection>, table: map<string, (real, real, real)>, axis: Axis)
    ensures PixelToMmScale(dets, table, axis).None? <==> AllEqualAlong(References(dets, table), axis)
  {
    var refs := References(dets, table);
    AxisEntriesEmptyIff(refs, AllPairs(|refs|), axis);
    VisitedPairsEqualIff(refs, axis);
  }

  /** When the references lie on an exact linear layout with slope `s` along an
      axis, that axis's scale is `|s|` (or NaN when no two references differ). */
  lemma ExactScaleRecovered(dets: seq<Detection>, table: map<string, (real, real, real)>, axis: Axis, c: real, s: real)
    requires LinearLayout(References(dets, table), axis, c, s)
    ensures PixelToMmScale(dets, table, axis) == None || PixelToMmScale(dets, table, axis) == Some(AbsReal(s))
  {
    var refs := References(dets, table);
    var es := AxisEntries(refs, AllPairs(|refs|), axis);
    AxisEntriesProportional(refs, AllPairs(|refs|), axis, c, s);
    SumOfEqualRatios(es, AbsReal(s));
    if es != [] {
      MeanOfEqualRatios(SumRatios(es), AbsReal(s), |es|);
    }
  }

  // ---------------------------------------------------------------- missing keys

  /** `pixel_map`: lower-cased text to centre, as a Python dict keeps it: one
      entry per key, in the order keys were first inserted. */
  type PixelMap = seq<(string, int, int)>

  predicate DistinctKeys(m: PixelMap) {
    forall i, j :: 0 <= i < j < |m| ==> m[i].0 != m[j].0
  }

  function KeysOf(m: PixelMap): set<string> {
    set i | 0 <= i < |m| :: m[i].0
  }

  /** The position of key `k` in `m`, if it is there. */
  function IndexOfKey(m: PixelMap, k: string): (r: Option<nat>)
    ensures r.Some? ==> r.value < |m| && m[r.value].0 == k
    ensures r.None? ==> forall i :: 0 <= i < |m| ==> m[i].0 != k
  {
    if m == [] then None
    else if m[0].0 == k then Some(0)
    else match IndexOfKey(m[1..], k)
      case None => None
      case Some(i) => Some(i + 1)
  }

  /** `d[k] = v`: an existing key keeps its position and takes the new value;
      a new key goes last. */
  function Put(m: PixelMap, k: string, v: (int, int)): PixelMap {
    match IndexOfKey(m, k)
    case Some(i) => m[i := (k, v.0, v.1)]
    case None => m + [(k, v.0, v.1)]
  }

  /** Assigning a key leaves the keys distinct, adds exactly that key, gives it
      the new value and leaves every other entry where and what it was. */
  lemma PutExact(m: PixelMap, k: string, v: (int, int))
    requires DistinctKeys(m)
    ensures DistinctKeys(Put(m, k, v))
    ensures KeysOf(Put(m, k, v)) == KeysOf(m) + {k}
    ensures forall i :: 0 <= i < |Put(m, k, v)| && Put(m, k, v)[i].0 == k ==> (Put(m, k, v)[i].1, Put(m, k, v)[i].2) == v
    ensures forall i :: 0 <= i < |m| && m[i].0 != k ==> i < |Put(m, k, v)| && Put(m, k, v)[i] == m[i]
  {
    var r := Put(m, k, v);
    match IndexOfKey(m, k)
    case Some(i) =>
      assert KeysOf(r) == KeysOf(m) + {k} by {
        forall x | x in KeysOf(m) + {k}
          ensures x in KeysOf(r)
        {
          if x == k {
            assert r[i].0 == x;
          } else {
            var j :| 0 <= j < |m| && m[j].0 == x;
            assert r[j].0 == x;
          }
        }
      }
    case None =>
      assert KeysOf(r) == KeysOf(m) + {k} by {
        forall x | x in KeysOf(m) + {k}
          ensures x in KeysOf(r)
        {
          if x == k {
            assert r[|m|].0 == x;
          } else {
            var j :| 0 <= j < |m| && m[j].0 == x;
            assert r[j].0 == x;
          }
        }
      }
  }

  /** Every entry after an assignment is either the assigned one or an entry
      that was there before. */
  lemma PutMembers(m: PixelMap, k: string, v: (int, int))
    requires DistinctKeys(m)
    ensures forall e :: e in Put(m, k, v) ==> e == (k, v.0, v.1) || (e.0 != k && e in m)
  {
    var r := Put(m, k, v);
    forall e | e in r
      ensures e == (k, v.0, v.1) || (e.0 != k && e in m)
    {
      var p :| 0 <= p < |r| && r[p] == e;
      match IndexOfKey(m, k)
      case Some(i) =>
        if p != i {
          assert m[p] == e;
        }
      case None =>
        if p < |m| {
          assert m[p] == e;
        }
    }
  }

  /** `{char.lower(): (x + w // 2, y + h // 2) for (x, y, w, h), char in detections}`. */
  function PixelMapOf(dets: seq<Detection>): PixelMap {
    if dets == [] then []
    else
      var d := dets[|dets| - 1];
      Put(PixelMapOf(dets[..|dets| - 1]), Lower(d.text), Centre(d.box))
  }

  /** Detection `i` is the last one whose lower-cased text is `k`. */
  predicate IsLastWith(dets: seq<Detection>, i: int, k: string) {
    0 <= i < |dets| && Lower(dets[i].text) == k
    && forall j :: i < j < |dets| ==> Lower(dets[j].text) != k
  }

  /** The pixel map has one entry per distinct lower-cased text. */
  lemma {:induction false} PixelMapKeys(dets: seq<Detection>)
    ensures DistinctKeys(PixelMapOf(dets))
    ensures KeysOf(PixelMapOf(dets)) == set i | 0 <= i < |dets| :: Lower(dets[i].text)
  {
    if dets != [] {
      var init, d := dets[..|dets| - 1], dets[|dets| - 1];
      PixelMapKeys(init);
      PutExact(PixelMapOf(init), Lower(d.text), Centre(d.box));
      var r := PixelMapOf(dets);
      forall x | x in set i | 0 <= i < |dets| :: Lower(dets[i].text)
        ensures x in KeysOf(r)
      {
        var i :| 0 <= i < |dets| && Lower(dets[i].text) == x;
        if i < |init| {
          assert Lower(init[i].text) == x;
        }
      }
      forall x | x in KeysOf(r)
        ensures x in set i | 0 <= i < |dets| :: Lower(dets[i].text)
      {
        if x != Lower(d.text) {
          var i :| 0 <= i < |init| && Lower(init[i].text) == x;
          assert Lower(dets[i].text) == x;
        }
      }
    }
  }

  /** A later detection with another text keeps detection `i` the last with its text. */
  lemma LastWithExtends(dets: seq<Detection>, i: int, k: string)
    requires dets != [] && IsLastWith(dets[..|dets| - 1], i, k) && Lower(dets[|dets| - 1].text) != k
    ensures IsLastWith(dets, i, k)
  {
    var init := dets[..|dets| - 1];
    forall j | i < j < |dets|
      ensures Lower(dets[j].text) != k
    {
      if j < |init| {
        assert dets[j] == init[j];
      }
    }
  }

  /** Each key of the pixel map holds the centre of the last detection with that
      text (a later detection overwrites an earlier one). */
  lemma {:induction false} PixelMapLastWins(dets: seq<Detection>)
    ensures forall e :: e in PixelMapOf(dets) ==>
      exists i :: IsLastWith(dets, i, e.0) && Centre(dets[i].box) == (e.1, e.2)
  {
    if dets != [] {
      var init, d := dets[..|dets| - 1], dets[|dets| - 1];
      PixelMapLastWins(init);
      PixelMapKeys(init);
      var k := Lower(d.text);
      PutMembers(PixelMapOf(init), k, Centre(d.box));
      forall e | e in PixelMapOf(dets)
        ensures exists i :: IsLastWith(dets, i, e.0) && Centre(dets[i].box) == (e.1, e.2)
      {
        if e.0 == k {
          assert IsLastWith(dets, |dets| - 1, e.0);
        } else {
          var i :| IsLastWith(init, i, e.0) && Centre(init[i].box) == (e.1, e.2);
          LastWithExtends(dets, i, e.0);
        }
      }
    }
  }

  /** A float that may be NaN (None); only the operations the estimate uses. */
  function AddNaN(a: Option<real>, b: Option<real>): (r: Option<real>)
    ensures r.Some? <==> a.Some? && b.Some?
  {
    if a.Some? && b.Some? then Some(a.value + b.value) else None
  }

  /** `px + dx_mm * scale`: NaN when the scale is NaN. */
  function Shift(px: int, dMm: real, scale: Option<real>): (r: Option<real>)
    ensures r.Some? <==> scale.Some?
  {
    if scale.Some? then Some(px as real + dMm * scale.value) else None
  }

  /** `int(total / count)`: truncation toward zero, ValueError for NaN. */
  function IntOfMean(total: Option<real>, count: nat): (r: Result<int>)
    requires count > 0
    ensures r.Err? <==> total.None?
  {
    if total.Some? then Ok(Trunc(total.value / count as real)) else Err(ValueError)
  }

  /** The accumulators `(px_total, py_total, count)` after visiting the entries of
      `m` for the target position `(xt, yt)`: entries whose key has no layout
      position are skipped. */
  function Totals(m: PixelMap, table: map<string, (real, real, real)>, xt: real, yt: real,
                  scaleX: Option<real>, scaleY: Option<real>): (Option<real>, Option<real>, nat)
  {
    if m == [] then (Some(0.0), Some(0.0), 0)
    else
      var t := Totals(m[..|m| - 1], table, xt, yt, scaleX, scaleY);
      var e := m[|m| - 1];
      if e.0 !in table then t
      else
        var ref := table[e.0];
        (AddNaN(t.0, Shift(e.1, xt - ref.0, scaleX)),
         AddNaN(t.1, Shift(e.2, -(yt - ref.1), scaleY)),
         t.2 + 1)
  }

  /** The number of reference entries: pixel-map keys with a layout position. */
  function KnownCount(m: PixelMap, table: map<string, (real, real, real)>): (c: nat)
    ensures c <= |m|
  {
    if m == [] then 0 else KnownCount(m[..|m| - 1], table) + if m[|m| - 1].0 in table then 1 else 0
  }

  /** The count is the number of references, whatever the target, and a total is
      NaN exactly when there is a reference and its scale is NaN. */
  lemma {:induction false} TotalsShape(m: PixelMap, table: map<string, (real, real, real)>, xt: real, yt: real,
                                       scaleX: Option<real>, scaleY: Option<real>)
    ensures Totals(m, table, xt, yt, scaleX, scaleY).2 == KnownCount(m, table)
    ensures Totals(m, table, xt, yt, scaleX, scaleY).0.None? <==> KnownCount(m, table) > 0 && scaleX.None?
    ensures Totals(m, table, xt, yt, scaleX, scaleY).1.None? <==> KnownCount(m, table) > 0 && scaleY.None?
  {
    if m != [] {
      TotalsShape(m[..|m| - 1], table, xt, yt, scaleX, scaleY);
    }
  }

  /** The estimate for one missing key: no entry when it has no reference. */
  function EstimateKey(m: PixelMap, table: map<string, (real, real, real)>, key: string,
                       scaleX: Option<real>, scaleY: Option<real>): Result<Option<(int, int)>>
    requires key in table
  {
    var t := Totals(m, table, table[key].0, table[key].1, scaleX, scaleY);
    if t.2 == 0 then Ok(None)
    else
      var x, y := IntOfMean(t.0, t.2), IntOfMean(t.1, t.2);
      if x.Err? || y.Err? then Err(ValueError) else Ok(Some((x.value, y.value)))
  }

  /** The layout keys that were not detected. */
  function MissingKeys(m: PixelMap, table: map<string, (real, real, real)>): (ks: set<string>)
    ensures ks <= table.Keys
  {
    table.Keys - KeysOf(m)
  }

  /** The estimates of the keys in `keys` that have references. */
  function Estimates(m: PixelMap, table: map<string, (real, real, real)>, keys: set<string>,
                     scaleX: Option<real>, scaleY: Option<real>): map<string, (int, int)>
    requires keys <= table.Keys
  {
    map key | key in keys && EstimateKey(m, table, key, scaleX, scaleY).Ok?
                          && EstimateKey(m, table, key, scaleX, scaleY).value.Some?
            :: EstimateKey(m, table, key, scaleX, scaleY).value.value
  }

  /** The `estimated` dictionary of `estimate_missing_key_positions`, independent
      of the order in which the missing keys are visited: ValueError when any
      estimate hits a NaN, otherwise the estimate of every missing key that has a
      reference. */
  function EstimateMissing(m: PixelMap, table: map<string, (real, real, real)>,
                           scaleX: Option<real>, scaleY: Option<real>): Result<map<string, (int, int)>>
  {
    var missing := MissingKeys(m, table);
    if exists key :: key in missing && EstimateKey(m, table, key, scaleX, scaleY).Err? then Err(ValueError)
    else Ok(Estimates(m, table, missing, scaleX, scaleY))
  }

  /** All or nothing: the estimate fails exactly when some layout key is missing,
      some detected key has a layout position and a scale is NaN; otherwise the
      estimated keys are all the missing keys when there is a reference and none
      when there is not, so no detected key is ever estimated. */
  lemma EstimateOutcome(m: PixelMap, table: map<string, (real, real, real)>,
                        scaleX: Option<real>, scaleY: Option<real>)
    ensures EstimateMissing(m, table, scaleX, scaleY).Err? <==>
      MissingKeys(m, table) != {} && KnownCount(m, table) > 0 && (scaleX.None? || scaleY.None?)
    ensures EstimateMissing(m, table, scaleX, scaleY).Ok? ==>
      EstimateMissing(m, table, scaleX, scaleY).value.Keys
        == if KnownCount(m, table) > 0 then MissingKeys(m, table) else {}
    ensures EstimateMissing(m, table, scaleX, scaleY).Ok? ==>
      EstimateMissing(m, table, scaleX, scaleY).value.Keys !! KeysOf(m)
  {
    forall key | key in table
      ensures Totals(m, table, table[key].0, table[key].1, scaleX, scaleY).2 == KnownCount(m, table)
      ensures Totals(m, table, table[key].0, table[key].1, scaleX, scaleY).0.None? <==> KnownCount(m, table) > 0 && scaleX.None?
      ensures Totals(m, table, table[key].0, table[key].1, scaleX, scaleY).1.None? <==> KnownCount(m, table) > 0 && scaleY.None?
    {
      TotalsShape(m, table, table[key].0, table[key].1, scaleX, scaleY);
    }
    if MissingKeys(m, table) != {} && KnownCount(m, table) > 0 && (scaleX.None? || scaleY.None?) {
      var key :| key in MissingKeys(m, table);
      assert EstimateKey(m, table, key, scaleX, scaleY).Err?;
    }
  }

  /** The detected references sit exactly on a layout mapped to pixels by
      `x = ax + sx * x_mm` and `y = ay - sy * y_mm` (the image y axis points
      down, the layout's up). */
  predicate AffineLayout(m: PixelMap, table: map<string, (real, real, real)>, ax: real, ay: real, sx: real, sy: real) {
    forall e :: e in m && e.0 in table ==> OnAffineLayout(e, table[e.0], ax, ay, sx, sy)
  }

  /** One pixel-map entry sits at the pixel position of its layout position. */
  predicate OnAffineLayout(e: (string, int, int), pos: (real, real, real), ax: real, ay: real, sx: real, sy: real) {
    e.1 as real == LayoutX(ax, sx, pos.0) && e.2 as real == LayoutY(ay, sy, pos.1)
  }

  /** The pixel coordinates of layout position `(xMm, yMm)`. */
  function LayoutX(ax: real, sx: real, xMm: real): real { ax + sx * xMm }
  function LayoutY(ay: real, sy: real, yMm: real): real { ay - sy * yMm }

  lemma ShiftOnLayout(p: real, ref: real, target: real, a: real, s: real)
    requires p == LayoutX(a, s, ref)
    ensures p + (target - ref) * s == LayoutX(a, s, target)
  {
    assert (target - ref) * s == s * target - s * ref;
  }

  lemma ShiftDownOnLayout(p: real, ref: real, target: real, a: real, s: real)
    requires p == LayoutY(a, s, ref)
    ensures p + -(target - ref) * s == LayoutY(a, s, target)
  {
    assert -(target - ref) * s == s * ref - s * target;
  }

  /** The sum of `c` copies of `e`. */
  function Copies(c: nat, e: real): real {
    if c == 0 then 0.0 else Copies(c - 1, e) + e
  }

  /** `c` copies of `e`, divided by `c`, give `e` back. */
  lemma {:induction false} MeanOfCopies(c: nat, e: real)
    requires c > 0
    ensures Copies(c, e) / c as real == e
  {
    CopiesIsProduct(c, e);
  }

  lemma {:induction false} CopiesIsProduct(c: nat, e: real)
    ensures Copies(c, e) == c as real * e
  {
    if c > 0 {
      CopiesIsProduct(c - 1, e);
      assert (c - 1) as real * e + e == c as real * e;
    }
  }

  /** Every reference predicts the position `(ex, ey)` for the target at
      layout position `(xt, yt)`. */
  predicate Consensus(m: PixelMap, table: map<string, (real, real, real)>, xt: real, yt: real,
                      sx: real, sy: real, ex: real, ey: real) {
    forall e :: e in m && e.0 in table ==> Predicts(e, table[e.0], xt, yt, sx, sy, ex, ey)
  }

  predicate Predicts(e: (string, int, int), ref: (real, real, real), xt: real, yt: real,
                     sx: real, sy: real, ex: real, ey: real) {
    Shift(e.1, xt - ref.0, Some(sx)) == Some(ex) && Shift(e.2, -(yt - ref.1), Some(sy)) == Some(ey)
  }

  /** When all references agree, the totals are `count` copies of the agreed position. */
  lemma {:induction false} TotalsOfConsensus(m: PixelMap, table: map<string, (real, real, real)>, xt: real, yt: real,
                                             sx: real, sy: real, ex: real, ey: real)
    requires Consensus(m, table, xt, yt, sx, sy, ex, ey)
    ensures Totals(m, table, xt, yt, Some(sx), Some(sy))
      == (Some(Copies(KnownCount(m, table), ex)), Some(Copies(KnownCount(m, table), ey)), KnownCount(m, table))
  {
    if m != [] {
      var init, e := m[..|m| - 1], m[|m| - 1];
      assert Consensus(init, table, xt, yt, sx, sy, ex, ey) by {
        forall x | x in init ensures x in m {
          var i :| 0 <= i < |init| && init[i] == x;
          assert m[i] == x;
        }
      }
      TotalsOfConsensus(init, table, xt, yt, sx, sy, ex, ey);
      if e.0 in table {
        assert e in m;
      }
    }
  }

  /** When all references agree on a position, the estimate is that position,
      truncated toward zero. */
  lemma EstimateKeyOfConsensus(m: PixelMap, table: map<string, (real, real, real)>, key: string,
                               sx: real, sy: real, ex: real, ey: real)
    requires key in table && KnownCount(m, table) > 0
    requires Consensus(m, table, table[key].0, table[key].1, sx, sy, ex, ey)
    ensures EstimateKey(m, table, key, Some(sx), Some(sy)) == Ok(Some((Trunc(ex), Trunc(ey))))
  {
    TotalsOfConsensus(m, table, table[key].0, table[key].1, sx, sy, ex, ey);
    MeanOfCopies(KnownCount(m, table), ex);
    MeanOfCopies(KnownCount(m, table), ey);
  }

  /** On an affine layout every reference predicts the target's own layout position. */
  lemma AffineLayoutConsensus(m: PixelMap, table: map<string, (real, real, real)>,
                              ax: real, ay: real, sx: real, sy: real, xt: real, yt: real)
    requires AffineLayout(m, table, ax, ay, sx, sy)
    ensures Consensus(m, table, xt, yt, sx, sy, LayoutX(ax, sx, xt), LayoutY(ay, sy, yt))
  {
    forall e | e in m && e.0 in table
      ensures Predicts(e, table[e.0], xt, yt, sx, sy, LayoutX(ax, sx, xt), LayoutY(ay, sy, yt))
    {
      assert OnAffineLayout(e, table[e.0], ax, ay, sx, sy);
      ShiftOnLayout(e.1 as real, table[e.0].0, xt, ax, sx);
      ShiftDownOnLayout(e.2 as real, table[e.0].1, yt, ay, sy);
      assert Shift(e.1, xt - table[e.0].0, Some(sx)).value == LayoutX(ax, sx, xt);
      assert Shift(e.2, -(yt - table[e.0].1), Some(sy)).value == LayoutY(ay, sy, yt);
    }
  }

  /** On such a layout a key with references is placed at its own layout
      position, truncated. */
  lemma EstimateKeyOnAffineLayout(m: PixelMap, table: map<string, (real, real, real)>, key: string,
                                  ax: real, ay: real, sx: real, sy: real)
    requires AffineLayout(m, table, ax, ay, sx, sy)
    requires KnownCount(m, table) > 0 && key in table
    ensures EstimateKey(m, table, key, Some(sx), Some(sy)) == Ok(Some((Trunc(LayoutX(ax, sx, table[key].0)), Trunc(LayoutY(ay, sy, table[key].1)))))
  {
    AffineLayoutConsensus(m, table, ax, ay, sx, sy, table[key].0, table[key].1);
    EstimateKeyOfConsensus(m, table, key, sx, sy, LayoutX(ax, sx, table[key].0), LayoutY(ay, sy, table[key].1));
  }

  /** When the detected references sit exactly on an affine layout with finite
      scales, every missing key, and nothing else, is placed at its own layout
      position, truncated. */
  lemma EstimateOnAffineLayout(m: PixelMap, table: map<string, (real, real, real)>, ax: real, ay: real, sx: real, sy: real)
    requires AffineLayout(m, table, ax, ay, sx, sy)
    requires KnownCount(m, table) > 0
    ensures EstimateMissing(m, table, Some(sx), Some(sy)).Ok?
    ensures EstimateMissing(m, table, Some(sx), Some(sy)).value.Keys == MissingKeys(m, table)
    ensures forall key :: key in MissingKeys(m, table) ==>
      EstimateMissing(m, table, Some(sx), Some(sy)).value[key] == (Trunc(LayoutX(ax, sx, table[key].0)), Trunc(LayoutY(ay, sy, table[key].1)))
  {
    forall key | key in table
      ensures EstimateKey(m, table, key, Some(sx), Some(sy)) == Ok(Some((Trunc(LayoutX(ax, sx, table[key].0)), Trunc(LayoutY(ay, sy, table[key].1)))))
    {
      EstimateKeyOnAffineLayout(m, table, key, ax, ay, sx, sy);
    }
  }


  /** Estimating one more key adds its estimate when it has references. */
  lemma EstimatesInsert(m: PixelMap, table: map<string, (real, real, real)>, keys: set<string>, key: string,
                        scaleX: Option<real>, scaleY: Option<real>)
    requires keys <= table.Keys && key in table && EstimateKey(m, table, key, scaleX, scaleY).Ok?
    ensures Estimates(m, table, keys + {key}, scaleX, scaleY)
      == if EstimateKey(m, table, key, scaleX, scaleY).value.Some?
         then Estimates(m, table, keys, scaleX, scaleY)[key := EstimateKey(m, table, key, scaleX, scaleY).value.value]
         else Estimates(m, table, keys, scaleX, scaleY)
  {
  }

  /** The estimate for a key, read off the totals of its references. */
  lemma EstimateKeyOfTotals(m: PixelMap, table: map<string, (real, real, real)>, key: string,
                            scaleX: Option<real>, scaleY: Option<real>,
                            pxTotal: Option<real>, pyTotal: Option<real>, count: nat)
    requires key in table
    requires (pxTotal, pyTotal, count) == Totals(m, table, table[key].0, table[key].1, scaleX, scaleY)
    ensures count == 0 ==> EstimateKey(m, table, key, scaleX, scaleY) == Ok(None)
    ensures count > 0 ==> (EstimateKey(m, table, key, scaleX, scaleY).Err?
      <==> IntOfMean(pxTotal, count).Err? || IntOfMean(pyTotal, count).Err?)
    ensures count > 0 && EstimateKey(m, table, key, scaleX, scaleY).Ok? ==>
      EstimateKey(m, table, key, scaleX, scaleY)
        == Ok(Some((IntOfMean(pxTotal, count).value, IntOfMean(pyTotal, count).value)))
  {
  }

  /** One missing key whose estimate fails makes the whole estimate fail. */
  lemma EstimateMissingFails(m: PixelMap, table: map<string, (real, real, real)>, key: string,
                             scaleX: Option<real>, scaleY: Option<real>)
    requires key in MissingKeys(m, table) && EstimateKey(m, table, key, scaleX, scaleY).Err?
    ensures EstimateMissing(m, table, scaleX, scaleY) == Err(ValueError)
  {
  }

  /** When no missing key's estimate fails, the estimate is that of every missing key. */
  lemma EstimateMissingSucceeds(m: PixelMap, table: map<string, (real, real, real)>,
                                scaleX: Option<real>, scaleY: Option<real>)
    requires forall key :: key in MissingKeys(m, table) ==> EstimateKey(m, table, key, scaleX, scaleY).Ok?
    ensures EstimateMissing(m, table, scaleX, scaleY) == Ok(Estimates(m, table, MissingKeys(m, table), scaleX, scaleY))
  {
  }

  /** The inner loop of `estimate_missing_key_positions`: the accumulators for
      the target at layout position `(xt, yt)`. */
  method ReferenceTotals(m: PixelMap, table: map<string, (real, real, real)>, xt: real, yt: real,
                         scaleX: Option<real>, scaleY: Option<real>)
    returns (pxTotal: Option<real>, pyTotal: Option<real>, count: nat)
    ensures (pxTotal, pyTotal, count) == Totals(m, table, xt, yt, scaleX, scaleY)
  {
    pxTotal, pyTotal, count := Some(0.0), Some(0.0), 0;
    for i := 0 to |m|
      invariant (pxTotal, pyTotal, count) == Totals(m[..i], table, xt, yt, scaleX, scaleY)
    {
      assert m[..i + 1][..i] == m[..i];
      var (key, px, py) := m[i];
      if key in table {
        var ref := table[key];
        pxTotal := AddNaN(pxTotal, Shift(px, xt - ref.0, scaleX));
        pyTotal := AddNaN(pyTotal, Shift(py, -(yt - ref.1), scaleY));
        count := count + 1;
      }
    }
    assert m[..|m|] == m;
  }

  /** `estimate_missing_key_positions` without the drawing: the estimated
      positions of the layout keys that were not detected. */
  method EstimateMissingKeyPositions(dets: seq<Detection>, table: map<string, (real, real, real)>,
                                     scaleX: Option<real>, scaleY: Option<real>)
    returns (r: Result<map<string, (int, int)>>)
    ensures r == EstimateMissing(PixelMapOf(dets), table, scaleX, scaleY)
  {
    var pixelMap := PixelMapOf(dets);
    var todo := MissingKeys(pixelMap, table);
    var estimated: map<string, (int, int)> := map[];
    ghost var done: set<string> := {};
    while todo != {}
      invariant todo + done == MissingKeys(pixelMap, table) && todo !! done
      invariant forall key :: key in done ==> EstimateKey(pixelMap, table, key, scaleX, scaleY).Ok?
      invariant estimated == Estimates(pixelMap, table, done, scaleX, scaleY)
      decreases |todo|
    {
      var key :| key in todo;
      var pxTotal, pyTotal, count := ReferenceTotals(pixelMap, table, table[key].0, table[key].1, scaleX, scaleY);
      EstimateKeyOfTotals(pixelMap, table, key, scaleX, scaleY, pxTotal, pyTotal, count);
      if count > 0 {
        var meanX := IntOfMean(pxTotal, count);
        var meanY := IntOfMean(pyTotal, count);
        if meanX.Err? || meanY.Err? {
          EstimateMissingFails(pixelMap, table, key, scaleX, scaleY);
          return Err(ValueError);
        }
        estimated := estimated[key := (meanX.value, meanY.value)];
      }
      EstimatesInsert(pixelMap, table, done, key, scaleX, scaleY);
      MoveElement(todo, done, key);
      todo, done := todo - {key}, done + {key};
    }
    EstimateMissingSucceeds(pixelMap, table, scaleX, scaleY);
    r := Ok(estimated);
  }
}

=== FILE: typing_gui.dfy ===
/** The decision logic of `TypingGUI` in gui/auto_typing_gui.py: turning a raw
    motion into directions, which overlay arrows those directions light up, and
    which values the on-screen labels show. The window, the video frame, fonts
    and every pygame drawing call are not modelled; an `Overlay` records what
    the drawing methods would be asked to draw. */
module TypingGui {
  import opened Common

  /** A raw motion: three translations and three rotations, in the order the
      GUI takes them. */
  datatype Motion = Motion(tx: real, ty: real, tz: real, yaw: real, pitch: real, roll: real)

  /** A discretised motion: each component is -1, 0 or 1. */
  datatype Directions = Directions(tx: int, ty: int, tz: int, yaw: int, pitch: int, roll: int)

  predicate IsDirection(d: int) {
    -1 <= d <= 1
  }

  predicate IsDiscrete(d: Directions) {
    IsDirection(d.tx) && IsDirection(d.ty) && IsDirection(d.tz)
    && IsDirection(d.yaw) && IsDirection(d.pitch) && IsDirection(d.roll)
  }

  // ---------------------------------------------------------------- discretisation

  /** `to_direction(val)`: the sign of `val`. */
  function ToDirection(v: real): (d: int)
    ensures d == 1 <==> v > 0.0
    ensures d == -1 <==> v < 0.0
    ensures d == 0 <==> v == 0.0
    ensures IsDirection(d)
  {
    if v > 0.0 then 1 else if v < 0.0 then -1 else 0
  }

  /** `discretize_motion(tx, ty, tz, yaw, pitch, roll)`. */
  function DiscretizeMotion(m: Motion): (d: Directions)
    ensures IsDiscrete(d)
  {
    Directions(ToDirection(m.tx), ToDirection(m.ty), ToDirection(m.tz),
               ToDirection(m.yaw), ToDirection(m.pitch), ToDirection(m.roll))
  }

  /** A discretised motion fed back in as a raw one. */
  function AsMotion(d: Directions): Motion {
    Motion(d.tx as real, d.ty as real, d.tz as real, d.yaw as real, d.pitch as real, d.roll as real)
  }

  /** Each component keeps its sign and stays in place: a component of the
      result is 1, -1 or 0 exactly when the component in the same position of
      the input is positive, negative or zero. */
  lemma DiscretizeKeepsSigns(m: Motion)
    ensures var d := DiscretizeMotion(m);
      && (d.tx > 0 <==> m.tx > 0.0) && (d.tx < 0 <==> m.tx < 0.0)
      && (d.ty > 0 <==> m.ty > 0.0) && (d.ty < 0 <==> m.ty < 0.0)
      && (d.tz > 0 <==> m.tz > 0.0) && (d.tz < 0 <==> m.tz < 0.0)
      && (d.yaw > 0 <==> m.yaw > 0.0) && (d.yaw < 0 <==> m.yaw < 0.0)
      && (d.pitch > 0 <==> m.pitch > 0.0) && (d.pitch < 0 <==> m.pitch < 0.0)
      && (d.roll > 0 <==> m.roll > 0.0) && (d.roll < 0 <==> m.roll < 0.0)
  {
  }

  /** A motion that is already discrete is left as it is. */
  lemma {:induction false} DiscreteIsFixed(d: Directions)
    requires IsDiscrete(d)
    ensures DiscretizeMotion(AsMotion(d)) == d
  {
    DirectionIsFixed(d.tx);
    DirectionIsFixed(d.ty);
    DirectionIsFixed(d.tz);
    DirectionIsFixed(d.yaw);
    DirectionIsFixed(d.pitch);
    DirectionIsFixed(d.roll);
  }

  lemma DirectionIsFixed(d: int)
    requires IsDirection(d)
    ensures ToDirection(d as real) == d
  {
  }

  /** Discretising twice is discretising once. */
  lemma {:induction false} DiscretizeIdempotent(m: Motion)
    ensures DiscretizeMotion(AsMotion(DiscretizeMotion(m))) == DiscretizeMotion(m)
  {
    DiscreteIsFixed(DiscretizeMotion(m));
  }

  /** `axis_from_keys(pos_key, neg_key)` with the two key states as inputs:
      1 when only the positive key is held, -1 when only the negative one is,
      0 when both or neither are. */
  function AxisFromKeys(pos: bool, neg: bool): (d: int)
    ensures d == 1 <==> pos && !neg
    ensures d == -1 <==> neg && !pos
    ensures IsDirection(d)
  {
    (if pos then 1 else 0) - (if neg then 1 else 0)
  }

  /** An axis read from the keys is already a direction. */
  lemma AxisIsDirection(pos: bool, neg: bool)
    ensures ToDirection(AxisFromKeys(pos, neg) as real) == AxisFromKeys(pos, neg)
  {
    DirectionIsFixed(AxisFromKeys(pos, neg));
  }

  // ---------------------------------------------------------------- the overlay

  /** Which of the six translation arrows of `draw_translation_arrows` are
      drawn active. */
  datatype TranslationArrows = TranslationArrows(
    left: bool, right: bool, up: bool, down: bool, forward: bool, backward: bool)

  /** Which of the four arrows of `draw_rotation_arrows` are drawn active. */
  datatype RotationArrows = RotationArrows(
    pitchUp: bool, pitchDown: bool, yawLeft: bool, yawRight: bool)

  /** The arc of `draw_roll_arrow`: whether it is active, its start and end angles
      as multiples of pi, and the horizontal offset of its arrow head from the
      screen centre (pixels). */
  datatype RollArc = RollArc(active: bool, startPi: real, endPi: real, headDx: int)

  datatype Overlay = Overlay(translation: TranslationArrows, rotation: RotationArrows, roll: RollArc)

  /** `draw_translation_arrows(tx, ty, tz)`: z moves left/right, y up/down and x
      forward/backward; an arrow is active when its component is exactly 1 or -1,
      so of each opposite pair at most one is active. */
  function DrawTranslationArrows(tx: int, ty: int, tz: int): (a: TranslationArrows)
    ensures a.left <==> tz == 1
    ensures a.right <==> tz == -1
    ensures a.up <==> ty == 1
    ensures a.down <==> ty == -1
    ensures a.forward <==> tx == 1
    ensures a.backward <==> tx == -1
    ensures !(a.left && a.right) && !(a.up && a.down) && !(a.forward && a.backward)
  {
    TranslationArrows(tz == 1, tz == -1, ty == 1, ty == -1, tx == 1, tx == -1)
  }

  /** `draw_rotation_arrows(pitch, yaw)`. */
  function DrawRotationArrows(pitch: int, yaw: int): (a: RotationArrows)
    ensures a.pitchUp <==> pitch == 1
    ensures a.pitchDown <==> pitch == -1
    ensures a.yawLeft <==> yaw == 1
    ensures a.yawRight <==> yaw == -1
    ensures !(a.pitchUp && a.pitchDown) && !(a.yawLeft && a.yawRight)
  {
    RotationArrows(pitch == 1, pitch == -1, yaw == 1, yaw == -1)
  }

  /** The arc radius of `draw_roll_arrow` (pixels). */
  const RollRadius: int := 60

  /** `draw_roll_arrow(roll)`: roll 1 draws the arc from 0.2 pi to pi with its head
      on the left; any other value draws the arc from 0 to 0.8 pi with its head on
      the right. The arc is active exactly when roll is nonzero. */
  function DrawRollArrow(roll: int): (arc: RollArc)
    ensures arc.active <==> roll != 0
    ensures arc.headDx < 0 <==> roll == 1
  {
    var active := roll != 0;
    if roll == 1 then RollArc(active, 0.2, 1.0, -RollRadius + 3)
    else if roll == -1 then RollArc(active, 0.0, 0.8, RollRadius - 4)
    else RollArc(active, 0.0, 0.8, RollRadius - 4)
  }

  /** The two active arcs are mirror images about the vertical axis (an angle
      `a` becomes `pi - a`), and a zero roll draws the same shape as roll -1,
      only inactive. */
  lemma RollArcShapes()
    ensures DrawRollArrow(1).startPi == 1.0 - DrawRollArrow(-1).endPi
    ensures DrawRollArrow(1).endPi == 1.0 - DrawRollArrow(-1).startPi
    ensures DrawRollArrow(0).(active := true) == DrawRollArrow(-1)
  {
  }

  /** What `plot(frame, translation, rotation)` draws over the frame. Both
      arguments are unpacked into three values: the default None is a TypeError
      and a list of any other length a ValueError. The rotation is ordered
      (yaw, pitch, roll) and passed on as (pitch, yaw). */
  function Plot(translation: Option<seq<int>>, rotation: Option<seq<int>>): (r: Result<Overlay>)
    ensures r.Ok? <==> translation.Some? && |translation.value| == 3
                       && rotation.Some? && |rotation.value| == 3
    ensures r.Ok? ==> var t, o := translation.value, rotation.value;
      r.value == Overlay(DrawTranslationArrows(t[0], t[1], t[2]),
                         DrawRotationArrows(o[1], o[0]), DrawRollArrow(o[2]))
  {
    match Unpack3(translation)
    case Err(e) => Err(e)
    case Ok(t) =>
      match Unpack3(rotation)
      case Err(e) => Err(e)
      case Ok(o) =>
        Ok(Overlay(DrawTranslationArrows(t.0, t.1, t.2), DrawRotationArrows(o.1, o.0), DrawRollArrow(o.2)))
  }

  /** `a, b, c = value`. */
  function Unpack3<T>(value: Option<seq<T>>): (r: Result<(T, T, T)>)
    ensures value.None? ==> r == Err(TypeError)
    ensures value.Some? && |value.value| != 3 ==> r == Err(ValueError)
    ensures r.Ok? ==> value.Some? && value.value == [r.value.0, r.value.1, r.value.2]
  {
    match value
    case None => Err(TypeError)
    case Some(s) => if |s| == 3 then Ok((s[0], s[1], s[2])) else Err(ValueError)
  }

  // ---------------------------------------------------------------- labels

  /** The six values written as labels by `plot_with_labels`. */
  datatype Labels = Labels(x: real, y: real, z: real, pitch: real, yaw: real, roll: real)

  /** `r_tx, r_ty, r_tz = raw_translation if raw_translation else (tx, ty, tz)`:
      the raw values when given and non-empty, else the discretised ones. */
  function LabelSource(raw: Option<seq<real>>, fallback: (int, int, int)): (s: seq<real>)
    ensures raw.Some? && raw.value != [] ==> s == raw.value
    ensures raw.None? || raw.value == [] ==> s == [fallback.0 as real, fallback.1 as real, fallback.2 as real]
  {
    if raw.Some? && raw.value != [] then raw.value
    else [fallback.0 as real, fallback.1 as real, fallback.2 as real]
  }

  /** `plot_with_labels(frame, translation, rotation, raw_translation, raw_rotation)`:
      the overlay of `plot`, then the labels, whose unpacking fails with a
      ValueError when a raw list given does not have three values. */
  function PlotWithLabels(translation: Option<seq<int>>, rotation: Option<seq<int>>,
                          rawTranslation: Option<seq<real>>, rawRotation: Option<seq<real>>): (r: Result<(Overlay, Labels)>)
    ensures Plot(translation, rotation).Err? ==> r == Err(Plot(translation, rotation).error)
    ensures r.Ok? ==> r.value.0 == Plot(translation, rotation).value
    ensures r.Ok? && rawTranslation.Some? && rawTranslation.value != [] ==>
      [r.value.1.x, r.value.1.y, r.value.1.z] == rawTranslation.value
    ensures r.Ok? && rawRotation.Some? && rawRotation.value != [] ==>
      [r.value.1.yaw, r.value.1.pitch, r.value.1.roll] == rawRotation.value
  {
    match Plot(translation, rotation)
    case Err(e) => Err(e)
    case Ok(overlay) =>
      var t := Unpack3(translation).value;
      var o := Unpack3(rotation).value;
      match Unpack3(Some(LabelSource(rawTranslation, t)))
      case Err(e) => Err(e)
      case Ok(rt) =>
        match Unpack3(Some(LabelSource(rawRotation, o)))
        case Err(e) => Err(e)
        case Ok(ro) => Ok((overlay, Labels(rt.0, rt.1, rt.2, ro.1, ro.0, ro.2)))
  }

  /** `plot_from_raw_motion(frame, tx, ty, tz, yaw, pitch, roll)`: the discretised
      motion goes to the arrows and the raw motion to the labels. */
  function PlotFromRawMotion(m: Motion): (r: Result<(Overlay, Labels)>)
    ensures r.Ok?
    ensures r.value.1 == Labels(m.tx, m.ty, m.tz, m.pitch, m.yaw, m.roll)
  {
    var d := DiscretizeMotion(m);
    PlotWithLabels(Some([d.tx, d.ty, d.tz]), Some([d.yaw, d.pitch, d.roll]),
                   Some([m.tx, m.ty, m.tz]), Some([m.yaw, m.pitch, m.roll]))
  }

  /** What the raw motion lights up: each arrow is active exactly when its
      component has the arrow's sign, and the roll arc exactly when the roll is
      nonzero. */
  lemma {:induction false} RawMotionArrows(m: Motion)
    ensures var o := PlotFromRawMotion(m).value.0;
      && (o.translation.forward <==> m.tx > 0.0) && (o.translation.backward <==> m.tx < 0.0)
      && (o.translation.up <==> m.ty > 0.0) && (o.translation.down <==> m.ty < 0.0)
      && (o.translation.left <==> m.tz > 0.0) && (o.translation.right <==> m.tz < 0.0)
      && (o.rotation.pitchUp <==> m.pitch > 0.0) && (o.rotation.pitchDown <==> m.pitch < 0.0)
      && (o.rotation.yawLeft <==> m.yaw > 0.0) && (o.rotation.yawRight <==> m.yaw < 0.0)
      && (o.roll.active <==> m.roll != 0.0)
  {
    var d := DiscretizeMotion(m);
    assert Plot(Some([d.tx, d.ty, d.tz]), Some([d.yaw, d.pitch, d.roll])).value
      == Overlay(DrawTranslationArrows(d.tx, d.ty, d.tz), DrawRotationArrows(d.pitch, d.yaw), DrawRollArrow(d.roll));
  }
}
